=== FILE: README.md ===
# Shukatsu core, modelled in Dafny

Shukatsu is a macOS job-search organiser. Each user profile has its own Core
Data store, its own folder and its own Keychain password. This project models
the core of the app and proves properties of that model:

- **Profile lifecycle** (`ProfileManager`): the roster loaded from the
  profiles folder, the choice of the current profile, and switching stores
  in two steps (announce now, switch on the next run-loop turn).
  - Also bootstrap, archive, delete, rename and create.
  - Also the per-profile preference keys, the folder-name slug, and the
    Keychain passwords.
- **CSV contact import** (`CSVparser`): the quote-aware field splitter, the
  header-driven row parser and `importRows`.
  - `importRows` matches a row to an existing contact by lower-cased email,
    else by digits-only phone.
  - It only ever fills empty fields.
- **The local fallbacks of `Intel`**:
  - the source text of an opportunity;
  - the fallback summary: header, bullet chunks, de-duplication and layout;
  - the fallback cover-letter template.
- **View logic**:
  - the opportunity status encoding, creation, sort comparator and column
    toggle, and the default selection;
  - the contact display name, inspector rows, sort descriptors, creation and
    default selection;
  - the search over opportunities and contacts.

Modules, in dependency order:

| module | file | what it holds |
|---|---|---|
| `Wrappers` | wrappers.dfy | `Option` |
| `Text` | text.dfy | trimming by character class, lower-casing, containment, join, split, filter, `compactMap`, `flatMap`, lexicographic order |
| `Utf8` | utf8.dfy | `Data(s.utf8)` and `String(data:encoding: .utf8)` |
| `Keychain` | keychain.dfy | the generic-password items of the service `com.shukatsu.app` |
| `Profiles` | profiles.dfy | profile records, namespaced keys, password functions, slug, archive folder name, roster |
| `ProfileLifecycle` | profile_manager.dfy | the persistent container, the profile folders, and the `ProfileManager` class |
| `Records` | records.dfy | the `Contact` and `Opportunity` entities and the managed-object context |
| `CsvParser` | csv.dfy | `splitCSV`, line splitting, `parseCSV`, `digitsOnly` |
| `CsvImport` | csv_import.dfy | `importRows` |
| `OpportunityView` | opportunity_view.dfy | status, creation, sort comparator and toggle, default selection |
| `Intel` | intel.dfy | source text, fallback summary, fallback cover letter |
| `ContactView` | contact_view.dfy | display name, inspector rows, sort descriptors, creation, default selection |
| `SearchView` | search_view.dfy | `runSearch` |

How the outside world is represented:

- **Core Data store.** A `Container` holds the list of attached stores and a
  log of what was removed, loaded or reset.
- **Object context.** An `ObjectContext` holds the inserted objects per
  entity, in insertion order. An object is identified by its position there.
- **Profiles folder and archive folder.** Each is a map from folder name to
  the folder's files and its `profile.json`.
- **UserDefaults.** A `map<string, string>`.
- **Keychain.** A map from (service, account) to bytes.
- **Notifications and `endEditing`.** They are appended to an event log.
- **`DispatchQueue.main.async` blocks.** They are appended to a queue of
  pending tasks; `RunPending` runs the oldest one.
- **`profileSwitchToken = UUID()`.** A counter that goes up by one, so every
  new token differs from all earlier ones.
- **Failures, clocks and fresh ids.** The failures that the code branches
  on are boolean parameters (`dirOk`, `loadOk`, `saveOk`, `fetchOk`, …).
  A few calls that can throw never fail in the model; "## Left out" names
  them. Clocks (`now`, `timestamp`) and fresh UUIDs (`freshId`) are also
  parameters, one per reading: `Contact.create` reads `.now` once for each
  missing date, so it takes two readings (`connectedNow`, `contactNow`).
- **The profiles folder listing.** `contentsOfDirectory` is the parameter
  `listing`. It lists the visible folders of the profiles folder
  (`ListsTree`; `.skipsHiddenFiles` leaves out names starting with '.'), in
  an order the file system chooses, and is `None` when the call fails.

Behaviour of the profile lifecycle code that the model keeps:

- **The slug.** `slug(_:)` first trims whitespace and newlines at both
  ends. It then maps only `' '`, `'-'` and `'_'` to `'-'` and drops every
  other character that is not a letter or a digit, tabs and newlines inside
  the name included. It then collapses `"--"` and trims `'-'` at both ends.
- **Deleting a profile.** `deleteProfile` does not touch the Keychain
  (ProfileManager.swift:364-428), so a deleted profile's password stays.
- **Choosing the current profile.** `loadProfiles` leaves `current`
  unchanged when the roster is empty and no saved or current id matches
  (ProfileManager.swift:457-464). No default profile is synthesised there.
- **Best-effort steps.** `createProfile` ignores folder and metadata
  failures (`try?`, and `saveMeta` catches), and still switches.

## Model

| member | source | states |
|---|---|---|
| Keychain.Delete | Shukatsu/ProfileManager.swift:47-54 | after deleting, the account has no item; deleting an absent item changes nothing; items of other accounts and services are kept, and no item appears |
| Keychain.Set | Shukatsu/ProfileManager.swift:22-32 | the result is whether the add succeeded; afterwards the account holds exactly the new data when the add succeeded, and nothing when it failed (the old item is already deleted); other items are unchanged |
| Utf8.DecodeEncode | Shukatsu/ProfileManager.swift:337 | decoding the UTF-8 bytes of a string gives the string back |
| Utf8.EncodeInjective | Shukatsu/ProfileManager.swift:345-348 | two strings have the same UTF-8 bytes iff they are equal, so comparing bytes in `verifyPassword` compares the passwords |
| Profiles.NamespacedKeyInjective | Shukatsu/ProfileManager.swift:82-85 | for a fixed raw key, two profile ids give the same namespaced key iff they are equal |
| Profiles.NamespacedKeyAmbiguous | Shukatsu/ProfileManager.swift:84 | the key does not determine (raw, id) when ids or raw keys contain ':': ("b:c", "a") and ("c", "a:b") collide |
| Profiles.PasswordAccountInjective | Shukatsu/ProfileManager.swift:79 | two profile ids give the same Keychain account iff they are equal |
| Profiles.VerifyPassword | Shukatsu/ProfileManager.swift:345-348 | a password verifies only when a secret exists for the profile |
| Profiles.ClearPassword | Shukatsu/ProfileManager.swift:350-352 | after clearing, no password exists; clearing when none exists changes nothing |
| Profiles.SetThenVerify | Shukatsu/ProfileManager.swift:336-348 | after a successful set, an attempt verifies iff it equals the new password: the old secret is replaced |
| Profiles.FailedSetLeavesNone | Shukatsu/ProfileManager.swift:22-32 | a set whose add fails reports false and leaves no password at all |
| Profiles.PasswordsIndependent | Shukatsu/ProfileManager.swift:336-352 | setting or clearing one profile's password changes neither existence nor verification for any other profile id |
| Profiles.SlugMap | Shukatsu/ProfileManager.swift:135-139 | never longer than its input; every character is '-' or a letter or digit taken from the input |
| Profiles.SlugMapKeeps | Shukatsu/ProfileManager.swift:135-139 | the letters and digits survive exactly and in order, there is one '-' per ' ', '-' or '_' of the input, and every other character (a tab, punctuation) is dropped |
| Profiles.SlugMapAppend | Shukatsu/ProfileManager.swift:135-139 | the mapping works character by character: a concatenation maps part by part, and one character becomes itself, '-' or nothing |
| Profiles.ReplaceDoubleHyphens | Shukatsu/ProfileManager.swift:141 | `replacingOccurrences(of: "--", with: "-")` never lengthens and keeps whether the text starts with '-' |
| Profiles.CollapseReplace | Shukatsu/ProfileManager.swift:141 | one replacement pass does not change the fully collapsed form, so the loop keeps its target |
| Profiles.ReplaceShrinks | Shukatsu/ProfileManager.swift:141 | while the text contains "--" a pass strictly shortens it, so the loop ends |
| Profiles.CollapseIdentity | Shukatsu/ProfileManager.swift:141 | text without "--" is its own collapsed form, so the loop's exit state is the collapsed form |
| Profiles.CollapseNoDouble | Shukatsu/ProfileManager.swift:141 | the collapsed form never contains "--" |
| Profiles.Slug | Shukatsu/ProfileManager.swift:132-143 | the method with the `while s.contains("--")` loop computes the trim, lower-case, map, collapse, trim-'-' pipeline |
| Profiles.SlugShape | Shukatsu/ProfileManager.swift:132-143 | a slug holds only lower-case ASCII letters, digits and '-', never "--", and neither starts nor ends with '-' |
| Profiles.ArchiveLabelShape | Shukatsu/ProfileManager.swift:293-294 | the middle part of the archive name (slug or "profile") is never empty, has no '-' at either end and holds only slug characters |
| Profiles.ArchiveDestNameParts | Shukatsu/ProfileManager.swift:292-294 | the archive folder name starts with "timestamp-", ends with "-" and the first (at most 8) characters of the id, and has exactly the length of its parts plus two separators |
| Profiles.RemoveId | Shukatsu/ProfileManager.swift:309 | `removeAll { $0.id == id }` leaves no entry with the id and keeps every entry with another id, in the original order |
| Profiles.RemoveIdCounts | Shukatsu/ProfileManager.swift:309 | each entry with another id is kept exactly as often as it occurred, and no entry is added |
| Profiles.FirstOther | Shukatsu/ProfileManager.swift:273 | `first(where: { $0.id != id })` is a roster entry with another id, and is absent iff every entry has that id |
| Profiles.FirstOtherHeadsRemoval | Shukatsu/ProfileManager.swift:372-416 | the profile switched to before a removal is the head of the roster after the removal, which is what becomes current |
| Profiles.FirstIndex | Shukatsu/ProfileManager.swift:326 | `firstIndex(where:)` is the first position with the id, absent iff none has it |
| Profiles.RosterEntry | Shukatsu/ProfileManager.swift:442-451 | a folder's entry has the folder name as id and the `profile.json` name; without readable metadata it is "Profile" for a UUID-shaped name, else the folder name |
| Profiles.RosterIsMappedDirectories | Shukatsu/ProfileManager.swift:440-454 | the loop's roster is exactly the directory items of the listing, each turned into its entry, in listing order |
| Profiles.ChooseCurrent | Shukatsu/ProfileManager.swift:456-464 | the first entry with the saved id wins when there is one, else the first entry with the current id, else the first entry; an empty roster keeps the current profile |
| ProfileLifecycle.MatchingCount | Shukatsu/ProfileManager.swift:187-189 | the loop of `destroyStore` logs one removal per attached copy of the store |
| ProfileLifecycle.WithoutKeepsOthers | Shukatsu/ProfileManager.swift:187-189 | after `destroyStore` no copy of the store stays attached; every other store stays, as often as before and in its order |
| ProfileLifecycle.WithoutIsFilter | Shukatsu/ProfileManager.swift:187-189 | the stores left are `filter { $0 != store }` of the attached stores |
| ProfileLifecycle.Container.RemoveAll | Shukatsu/ProfileManager.swift:215-218 | detaches every store and logs one removal per store |
| ProfileLifecycle.Container.RemoveMatching | Shukatsu/ProfileManager.swift:184-191 | `destroyStore`: detaches exactly the stores with that URL and logs those removals |
| ProfileLifecycle.Container.Load | Shukatsu/ProfileManager.swift:224-226 | attaches the store iff loading succeeds, and logs the outcome |
| ProfileLifecycle.Container.Reset | Shukatsu/ProfileManager.swift:236 | logs a reset of the view context and changes nothing else |
| ProfileLifecycle.EnsureFolder | Shukatsu/ProfileManager.swift:167-173 | the folder exists afterwards, an existing folder is untouched, no other folder changes |
| ProfileLifecycle.WithStoreFiles | Shukatsu/ProfileManager.swift:221-226 | loading a SQLite store creates its three files in the profile folder and touches nothing else |
| ProfileLifecycle.SaveMetaTree | Shukatsu/ProfileManager.swift:97-107 | a failed directory creation changes nothing; otherwise the folder exists, and a successful write leaves a `profile.json` with the profile's id, name and the time; other folders are untouched |
| ProfileLifecycle.SavedMetaLoadsBack | Shukatsu/ProfileManager.swift:97-107 | after a successful `saveMeta`, loading the roster entry of that folder gives back the same profile |
| ProfileLifecycle.RemoveStoreFiles | Shukatsu/ProfileManager.swift:397-409 | removes the three store files; the folder disappears iff it held nothing else and no `profile.json`; other folders are untouched |
| ProfileLifecycle.ArchivedFolder | Shukatsu/ProfileManager.swift:297-307 | the moved folder keeps its files and its `profile.json`; one is written only when missing and the write succeeds |
| ProfileLifecycle.ProfileManager.constructor | Shukatsu/ProfileManager.swift:109-113 | the roster is loaded from a listing of the profiles folder, the current profile chosen from the saved id and the default "player-one", and its folder ensured |
| ProfileLifecycle.RosterMatchesTree | Shukatsu/ProfileManager.swift:431-454 | the roster read from a listing of the profiles folder names exactly its visible folders (no name starting with '.'), each as its own `profile.json` (or the folder name) gives it |
| ProfileLifecycle.ProfileManager.NamespacedKeyFor | Shukatsu/ProfileManager.swift:82-85 | the namespaced key of the given profile, or of the current profile when none is given |
| ProfileLifecycle.ProfileManager.SwitchTo | Shukatsu/ProfileManager.swift:194-206 | records the end of editing and the will-switch notification now, and queues the switch for later; nothing else changes |
| ProfileLifecycle.ProfileManager.PerformSwitch | Shukatsu/ProfileManager.swift:208-241 | sets current first (also on failure); without the folder nothing else happens; otherwise all stores are removed and the target's loaded; on success it saves the id as last used, resets the context and queues a token bump |
| ProfileLifecycle.ProfileManager.RunPending | Shukatsu/ProfileManager.swift:202-205 | runs the oldest queued block: a token bump increments the token only; a switch behaves as `PerformSwitch`, in current, folders, stores, log, last-used id and queue |
| ProfileLifecycle.ProfileManager.BootstrapInitialStore | Shukatsu/ProfileManager.swift:244-260 | ensures the current folder, removes every store and loads the current profile's store; fails iff the folder or the load fails |
| ProfileLifecycle.ProfileManager.SwitchAway | Shukatsu/ProfileManager.swift:371-387 | with another profile, queues a switch to the first other one; with none, replaces all stores by an in-memory store |
| ProfileLifecycle.ProfileManager.LeaveProfile | Shukatsu/ProfileManager.swift:265-286 | the common start of archive and delete: only when the profile is current, announces (archive) and switches away; fails only when the in-memory store cannot load |
| ProfileLifecycle.ProfileManager.DropFromRoster | Shukatsu/ProfileManager.swift:309-320 | removes the profile's entries; if it was current, the new head (or "player-one") becomes current, the last-used id is updated or removed, and a token bump is queued |
| ProfileLifecycle.ProfileManager.MoveToArchive | Shukatsu/ProfileManager.swift:288-307 | the folder moves under the archive name with its `profile.json` ensured; an absent folder counts as success; a failure moves nothing |
| ProfileLifecycle.ProfileManager.ArchiveInto | Shukatsu/ProfileManager.swift:264-321 | the whole archive flow: the event order, the stores and the container log, the roster, current profile and last-used id after it, the queued tasks (a switch queued before a failure stays queued), and the folders moved or left in place |
| ProfileLifecycle.ProfileManager.ArchiveProfile | Shukatsu/ProfileManager.swift:264-321 | `ArchiveInto` with the destination "timestamp-slug-shortid" of the profile |
| ProfileLifecycle.ProfileManager.DeleteProfile | Shukatsu/ProfileManager.swift:364-428 | no store of the profile stays attached and the container log records exactly the removals and loads made; its store files (and an emptied folder) are gone; the roster loses it; the replacement current profile, the last-used id (set to the new head or removed) and the queued tasks are as for archive; a failure changes no roster, profile, folder or queue; the Keychain is untouched |
| ProfileLifecycle.ProfileManager.SaveMeta | Shukatsu/ProfileManager.swift:97-107 | the profiles folder becomes `SaveMetaTree` of the old one |
| ProfileLifecycle.ProfileManager.RenameCurrentProfile | Shukatsu/ProfileManager.swift:323-332 | a blank name or a current profile missing from the roster changes nothing; otherwise the trimmed name replaces the name in the roster and in current, ids stay, the metadata is rewritten and a token bump queued |
| ProfileLifecycle.ProfileManager.CreateProfile | Shukatsu/ProfileManager.swift:467-484 | a duplicate changes nothing; otherwise the profile is appended, its metadata saved, its id remembered, and a switch to it plus a token bump queued |
| ProfileLifecycle.ProfileManager.LoadProfiles | Shukatsu/ProfileManager.swift:431-465 | the roster is built from the listing of the profiles folder (empty when listing fails) and current chosen by `ChooseCurrent` |
| ProfileLifecycle.ProfileManager.SetPassword | Shukatsu/ProfileManager.swift:336-339 | stores the UTF-8 bytes under the profile's account, as `Profiles.SetPassword` |
| ProfileLifecycle.ProfileManager.PasswordExists | Shukatsu/ProfileManager.swift:341-343 | whether an item exists under the profile's account |
| ProfileLifecycle.ProfileManager.VerifyPassword | Shukatsu/ProfileManager.swift:345-348 | as `Profiles.VerifyPassword` on the manager's vault |
| ProfileLifecycle.ProfileManager.ClearPassword | Shukatsu/ProfileManager.swift:350-352 | as `Profiles.ClearPassword` on the manager's vault |
| ProfileLifecycle.ProfileManager.SetPasswordForCurrent | Shukatsu/ProfileManager.swift:356 | `SetPassword` for the current profile |
| ProfileLifecycle.ProfileManager.VerifyCurrentPassword | Shukatsu/ProfileManager.swift:357 | `VerifyPassword` for the current profile |
| ProfileLifecycle.ProfileManager.CurrentPasswordExists | Shukatsu/ProfileManager.swift:358 | `PasswordExists` for the current profile |
| ProfileLifecycle.ProfileManager.ClearCurrentPassword | Shukatsu/ProfileManager.swift:359 | `ClearPassword` for the current profile |
| Text.LowerStr | Shukatsu/ProfileManager.swift:134 | `lowercased()`: same length; no upper-case letter is left; every other character is kept; an upper-case letter becomes its lower-case letter |
| Text.LowerStrIdempotent | Shukatsu/SearchView.swift:62 | lower-casing twice is lower-casing once |
| Text.CaseInsensitiveContainsCaseless | Shukatsu/SearchView.swift:69-71 | `localizedCaseInsensitiveContains` ignores the case of both texts and holds iff the lowered needle is a stretch of the lowered text |
| Text.ContainsIsInfix | Shukatsu/ProfileManager.swift:141 | `contains` holds iff the needle is a contiguous stretch of the text |
| Text.Trim | Shukatsu/ProfileManager.swift:133 | `trimmingCharacters(in:)`: a stretch of the input with no class character at either end, empty iff the input is all class characters |
| Text.TrimStrips | Shukatsu/ProfileManager.swift:133 | the trimmed text is the input with exactly its leading and trailing class characters removed |
| Text.Take | Shukatsu/Intel.swift:133 | `prefix(n)`: the first min(n, length) elements |
| Text.Filter | Shukatsu/Intel.swift:138-139 | `filter`: exactly the elements satisfying the predicate, in order |
| Text.FilterCounts | Shukatsu/Intel.swift:138-139 | each kept element is kept as often as it occurs, and nothing is added |
| Text.FilterTwice | Shukatsu/Intel.swift:138-139 | filtering twice with the same predicate is filtering once |
| Text.CompactMapFrom | Shukatsu/CSVparser.swift:38 | every element of a `compactMap` is the value of some input element |
| Text.CompactMapTotal | Shukatsu/CSVparser.swift:38 | when no element maps to nil, `compactMap` keeps every element in order |
| Text.SplitOnCharsPieces | Shukatsu/Intel.swift:135 | every piece of `components(separatedBy: CharacterSet)` is a stretch of the input, the first one a prefix |
| Text.SplitOnCharsNoSep | Shukatsu/Intel.swift:135 | no piece holds a separator character |
| Text.SplitOnPieces | Shukatsu/Intel.swift:136 | every piece of `components(separatedBy: ". ")` is a stretch of the input |
| Text.FlatMapFrom | Shukatsu/Intel.swift:136 | every element of a `flatMap` comes from the image of some input element |
| Text.LexTransitive | Shukatsu/OpportunityView.swift:298-299 | the string order `<` is transitive |
| Text.LexTotal | Shukatsu/OpportunityView.swift:298-299 | of two different strings one is `<` the other |
| CsvParser.SplitCsv | Shukatsu/CSVparser.swift:149-169 | the character loop with `cur`, `inQuotes` and `out` computes the scanner's result, which has at least one field |
| CsvParser.FieldCount | Shukatsu/CSVparser.swift:149-169 | there is one field more than commas outside quotes; "" gives one empty field |
| CsvParser.SplitWithoutQuotes | Shukatsu/CSVparser.swift:149-169 | a line without '"' is split on every ',' |
| CsvParser.SplitDropsLoneQuotes | Shukatsu/CSVparser.swift:149-169 | in a line with no two adjacent '"', every '"' is a delimiter and no field holds a '"' |
| CsvParser.ScanEscaped | Shukatsu/CSVparser.swift:155-160 | inside quotes, a doubled '"' adds one '"' and the closing '"' leaves quotes |
| CsvParser.SplitQuotedLine | Shukatsu/CSVparser.swift:149-169 | a line of quoted fields with doubled quotes splits back into exactly those fields, commas and quotes inside included |
| CsvParser.LinesHaveNoNewline | Shukatsu/CSVparser.swift:24 | no line holds a newline character |
| CsvParser.LinesOfJoin | Shukatsu/CSVparser.swift:24 | lines without newlines joined by "\n" split back into the same lines |
| CsvParser.ColumnIndex | Shukatsu/CSVparser.swift:27 | the first header column equal to the name ignoring case, absent iff none is |
| CsvParser.Field | Shukatsu/CSVparser.swift:40-43 | "" for a missing column or a short line, else a stretch of the cell under the column with no whitespace or newline at either end |
| CsvParser.FieldStrips | Shukatsu/CSVparser.swift:40-43 | the field is its cell with exactly the leading and trailing whitespace and newlines removed |
| CsvParser.DateField | Shukatsu/CSVparser.swift:29-36 | text that is blank after trimming spaces gives no date |
| CsvParser.RowOf | Shukatsu/CSVparser.swift:39-56 | a line gives no row iff every cell is blank |
| CsvParser.RowsFromLines | Shukatsu/CSVparser.swift:38-57 | every parsed row is the row of some data line |
| CsvParser.RowsOfNoBlank | Shukatsu/CSVparser.swift:38-57 | without blank lines, data line j gives row j |
| CsvParser.ParseCsv | Shukatsu/CSVparser.swift:21-58 | no rows for data that is not UTF-8 or has only a header line; otherwise at most one row per data line |
| CsvParser.DigitsOnly | Shukatsu/CSVparser.swift:172 | only digits of the text, in order, and every digit of the text |
| CsvParser.DigitsOnlyExact | Shukatsu/CSVparser.swift:172 | each digit is kept as often as it occurs and nothing else; normalising twice changes nothing |
| CsvImport.IndexOf | Shukatsu/CSVparser.swift:67-72 | every key maps to a contact with that key; every keyed contact's key is present, mapped to it or a later one (last wins) |
| CsvImport.Preload | Shukatsu/CSVparser.swift:64-72 | the preload loop builds both dictionaries as `IndexOf` of the fetched contacts |
| CsvImport.FillIfEmpty | Shukatsu/CSVparser.swift:88-90 | a non-empty field is kept; an empty value changes nothing; an empty or nil field takes a non-empty value |
| CsvImport.FillDate | Shukatsu/CSVparser.swift:95-100 | a set date is kept; a nil date takes the row's date |
| CsvImport.MergeFillsOnly | Shukatsu/CSVparser.swift:87-100 | merging a row never overwrites a filled field, and writes email and phone only normalised |
| CsvImport.Existing | Shukatsu/CSVparser.swift:77 | the contact under the non-empty email wins; else the one under the non-empty phone; else none |
| CsvImport.Step | Shukatsu/CSVparser.swift:74-106 | one row keeps every email and phone entry pointing at a contact whose normalised email or phone is that key |
| CsvImport.ImportAll | Shukatsu/CSVparser.swift:74-106 | the row loop keeps every entry pointing at a contact with that key |
| CsvImport.ImportKeepsEntries | Shukatsu/CSVparser.swift:102-105 | no dictionary entry is removed or redirected by later rows |
| CsvImport.Start | Shukatsu/CSVparser.swift:63-72 | every preloaded entry points at a contact with that key |
| CsvImport.ImportCounts | Shukatsu/CSVparser.swift:60-106 | every row counts once as created or updated; `skipped` never moves; one new contact per created row |
| CsvImport.ImportNoOverwrite | Shukatsu/CSVparser.swift:87-100 | no pre-existing contact loses or changes a filled field over the whole import |
| CsvImport.CreatedIsMatchable | Shukatsu/CSVparser.swift:77-105 | after any further rows, a created contact still has its email key, and a later row with its email, or with its phone and no email entry, updates it instead of creating a duplicate |
| CsvImport.ImportRow | Shukatsu/CSVparser.swift:75-105 | the loop body changes the context, dictionaries and counters as `Step` |
| CsvImport.ImportRows | Shukatsu/CSVparser.swift:62-109 | a failed fetch throws with nothing changed; otherwise the contacts become those of the row fold; the counts come back only when the save succeeds |
| OpportunityView.FromRaw | Shukatsu/OpportunityView.swift:13-18 | `OpportunityStatus(rawValue:)` exists iff the raw value is 0 to 3, and has that raw value |
| OpportunityView.RawRoundTrip | Shukatsu/OpportunityView.swift:13-18 | reading a status's raw value gives the status back |
| OpportunityView.LabelInjective | Shukatsu/OpportunityView.swift:21-28 | two statuses have the same label iff they are equal |
| OpportunityView.WrappedStatus | Shukatsu/OpportunityView.swift:62-63 | an out-of-range raw value reads as Start, an in-range one as the status with that raw value |
| OpportunityView.WithStatus | Shukatsu/OpportunityView.swift:64 | the setter stores the status's raw value |
| OpportunityView.StatusRoundTrip | Shukatsu/OpportunityView.swift:62-65 | reading back a set status gives it; the setter changes only `status` |
| OpportunityView.RawValueRoundTrip | Shukatsu/OpportunityView.swift:62-65 | for an in-range raw value, setting what is read changes nothing |
| OpportunityView.CreateOpportunity | Shukatsu/OpportunityView.swift:44-56 | inserts an opportunity with the title, every other text "", status Start; returns it only when the save succeeds |
| OpportunityView.CreatedIsBlank | Shukatsu/OpportunityView.swift:44-56 | a created opportunity reads as Start, labelled "Start" |
| OpportunityView.Toggled | Shukatsu/OpportunityView.swift:443-445 | the clicked key becomes the key; clicking the active key flips the direction, another key starts ascending |
| OpportunityView.ToggleTwice | Shukatsu/OpportunityView.swift:443-445 | clicking the same key twice restores the direction when it was active, and leaves it ascending otherwise |
| OpportunityView.OpportunityInspectorList.Toggle | Shukatsu/OpportunityView.swift:443-445 | the sort state becomes `Toggled` of the old one |
| OpportunityView.Pad2TwoDigits | Shukatsu/OpportunityView.swift:382 | `String(format: "%02d")` of a number below 100 is its two decimal digits |
| OpportunityView.Pad2Order | Shukatsu/OpportunityView.swift:382-394 | two padded numbers compare as strings like the numbers |
| OpportunityView.StatusSortsNumerically | Shukatsu/OpportunityView.swift:379-394 | sorting by status orders by the raw value of the read status, ascending or descending |
| OpportunityView.DescendingIsReversed | Shukatsu/OpportunityView.swift:387-395 | the descending comparator is the ascending one with its arguments swapped (for titles, given an antisymmetric `localizedStandardCompare`) |
| OpportunityView.StrictOrder | Shukatsu/OpportunityView.swift:391-394 | the date and status comparators are irreflexive and transitive |
| OpportunityView.Newest | Shukatsu/OpportunityView.swift:298-300 | `max(by:)` is absent iff there is no opportunity |
| OpportunityView.NewestFromIsFirstGreatest | Shukatsu/OpportunityView.swift:298-300 | the scan keeps the first opportunity with the greatest URI string |
| OpportunityView.NewestIsGreatest | Shukatsu/OpportunityView.swift:298-300 | no URI is greater than the chosen one, and every earlier URI is smaller |
| OpportunityView.OpportunitiesDetail.SelectDefaultIfNeeded | Shukatsu/OpportunityView.swift:289-315 | a selection from this context is kept; else the greatest-URI opportunity is selected; with none or a failed fetch, "Opportunity" is created and selected when its save succeeds |
| Intel.Tidy | Shukatsu/Intel.swift:107 | the trimmed text, "" for nil |
| Intel.Components | Shukatsu/Intel.swift:39-43 | the loop appends title, "at company", "(location)" and description, each only when non-empty |
| Intel.SourceText | Shukatsu/Intel.swift:34-45 | the tidy parts joined with a space |
| Intel.SourceTextEmpty | Shukatsu/Intel.swift:39-44 | the source text is empty iff all four parts are empty |
| Intel.SourceTextFull | Shukatsu/Intel.swift:39-44 | with all four parts: "title at company (location) desc" |
| Intel.HeaderEmpty | Shukatsu/Intel.swift:116-120 | the header is empty iff title, company and location are all empty |
| Intel.HeaderFull | Shukatsu/Intel.swift:115-120 | with all three: "title at company — (location)" |
| Intel.FallbackHeader | Shukatsu/Intel.swift:116-120 | the header steps compute `Header` |
| Intel.TrimAll | Shukatsu/Intel.swift:137 | one piece per piece, each a stretch of its piece with no whitespace or newline at either end |
| Intel.PieceFrom | Shukatsu/Intel.swift:133-136 | every piece is a stretch of the first 1400 characters and holds no newline, bullet or hyphen |
| Intel.TrimmedPieceFrom | Shukatsu/Intel.swift:133-137 | the same holds after trimming |
| Intel.ChunkShape | Shukatsu/Intel.swift:127-139 | each chunk is trimmed, longer than 3, not a stoplist heading in any case, and a stretch of the clipped description without break characters |
| Intel.Dedup | Shukatsu/Intel.swift:141-146 | the `seen`-set filter computes `DedupFrom` |
| Intel.DedupFacts | Shukatsu/Intel.swift:141-146 | the kept chunks have distinct lower-cased keys, follow the input order, and include every first occurrence of a key |
| Intel.DedupKeepsKeys | Shukatsu/Intel.swift:141-146 | every input key is still represented after de-duplication |
| Intel.DedupEmpty | Shukatsu/Intel.swift:141-146 | de-duplication is empty iff its input is |
| Intel.BulletLines | Shukatsu/Intel.swift:149-151 | at most 4 lines, line i being chunk i as "• chunk." |
| Intel.BulletsShape | Shukatsu/Intel.swift:149-152 | the bullet block is empty iff there are no chunks, and otherwise starts with the first bullet |
| Intel.Assemble | Shukatsu/Intel.swift:154-159 | the closing steps compute `Summary` |
| Intel.SummaryCases | Shukatsu/Intel.swift:154-159 | the placeholder iff header and bullets are empty; else the header line, the bullets, or both joined by a blank line |
| Intel.Fallback | Shukatsu/Intel.swift:106-160 | `fallback()` computes `FallbackSummary` |
| Intel.FallbackCases | Shukatsu/Intel.swift:106-160 | the placeholder iff title, company, location are empty and no chunk survives; otherwise the header line and/or the bullets |
| Intel.RoleForPrompt | Shukatsu/Intel.swift:200 | the title when there is one, else the saved role when there is one, else "the role" |
| Intel.Addressee | Shukatsu/Intel.swift:231 | the company when there is one, else "your team" |
| Intel.RoleAndAddresseeNonEmpty | Shukatsu/Intel.swift:199-231 | role and addressee are never empty, with the two defaults |
| Intel.LetterText | Shukatsu/Intel.swift:232-241 | the template opens with "Dear Hiring Manager,", holds "role at addressee." and ends with "Sincerely," and the user name |
| Intel.FallbackLetterShape | Shukatsu/Intel.swift:197-242 | the fallback draft is not marked AI, and is the template with the saved role (or title) and user name, read under the namespaced keys of the profile a freshly made `ProfileManager` chooses |
| ContactView.TrimmedOr | Shukatsu/ContactView.swift:84-85 | the trimmed text (or ""), with no whitespace at either end |
| ContactView.FullNameCases | Shukatsu/ContactView.swift:84-86 | the non-empty trimmed names joined by a space; empty iff both are empty |
| ContactView.DisplayNameShape | Shukatsu/ContactView.swift:83-88 | "Contact" when both names are blank, else the trimmed names; never empty and never padded |
| ContactView.InspectorValue | Shukatsu/ContactView.swift:19-22 | the placeholder "—" (dimmed) iff the trimmed value is empty, else the trimmed value |
| ContactView.Clicked | Shukatsu/ContactView.swift:247-255 | the clicked key becomes the key; clicking it again flips the direction; a new key starts ascending, except Connected, which starts descending |
| ContactView.ClickTwice | Shukatsu/ContactView.swift:247-255 | two clicks on the same key restore the direction when it was active, else leave its start direction |
| ContactView.ContactInspectorPane.Click | Shukatsu/ContactView.swift:247-255 | the sort state becomes `Clicked` of the old one |
| ContactView.DescriptorsShape | Shukatsu/ContactView.swift:204-223 | the first descriptor is the key in the chosen direction; tie-breakers are ascending names independent of the direction; no attribute repeats |
| ContactView.CreateContact | Shukatsu/ContactView.swift:122-147 | inserts a contact with the given texts and the given dates, each missing one replaced by its own clock reading; returns it only when the save succeeds |
| ContactView.CreatedDefaultContact | Shukatsu/ContactView.swift:122-147 | a contact created with the defaults displays as "Contact" and has both dates |
| ContactView.FetchedBeforeIrreflexive | Shukatsu/ContactView.swift:157-161 | the fetch order puts no contact before itself |
| ContactView.FetchedBeforeTransitive | Shukatsu/ContactView.swift:157-161 | the fetch order is transitive |
| ContactView.FirstFetched | Shukatsu/ContactView.swift:157-163 | the one-object fetch is empty iff there are no contacts |
| ContactView.FirstFetchedIsFirst | Shukatsu/ContactView.swift:157-163 | no contact comes before the fetched one in the descriptor order |
| ContactView.ContactsDetail.EnsureSelected | Shukatsu/ContactView.swift:154-168 | a selection is kept; else the first contact in fetch order is selected; with none or a failed fetch a default contact is created and selected when its save succeeds |
| SearchView.OpportunityTitle | Shukatsu/SearchView.swift:73 | the title, "Untitled" only for nil |
| SearchView.ContactTitleShape | Shukatsu/SearchView.swift:89-94 | the names trimmed of spaces and joined, or "Unnamed Contact"; never empty |
| SearchView.HitsFrom | Shukatsu/SearchView.swift:69-73 | every hit names an item of the fetched batch |
| SearchView.HitsSound | Shukatsu/SearchView.swift:69-73 | every hit names a matching item, carries its title and kind, and hits follow the batch order |
| SearchView.HitsComplete | Shukatsu/SearchView.swift:69-73 | every matching item has a hit |
| SearchView.OpportunityHitsExact | Shukatsu/SearchView.swift:65-73 | the opportunity hits are exactly the fetched opportunities whose title or company contains the needle, in order, titled as shown |
| SearchView.ContactHitsExact | Shukatsu/SearchView.swift:77-95 | the contact hits are exactly the fetched contacts whose trimmed first, last or company contains the needle, in order, titled as shown |
| SearchView.NeedleCaseIrrelevant | Shukatsu/SearchView.swift:62-87 | lower-casing the query changes no match |
| SearchView.SearchView.RunSearch | Shukatsu/SearchView.swift:58-97 | a blank query clears both lists; otherwise each list holds the hits of its own fetch of at most 200 objects, and is cleared when that fetch fails |
| SearchView.HitsWithinFetch | Shukatsu/SearchView.swift:67-80 | neither list has more than 200 hits, all among the first 200 objects |
| SearchView.HitsBound | Shukatsu/SearchView.swift:69-73 | there are never more hits than items |

## Left out

- Core Data internals are not modelled:
  - store descriptions and migration options;
  - `automaticallyMergesChangesFromParent` and the merge policy;
  - faults, object IDs other than the opportunity's URI string, and `managedObjectContext` identity beyond the context reference.
- Paths and URL construction (`baseURL`, `storeURL`, the Documents folder) are not modelled. A profile folder is named by the profile id, and the archive is its own folder map.
- File-system failures are boolean parameters. The ISO-8601 timestamp, `Date()` and `UUID()` are parameters too.
- `NSLog` and `print` are not modelled, because they have no effect on state.
- `NSApp.windows.forEach { $0.endEditing }` and the notifications are modelled as events in a log. Their receivers are not part of this model.
- The AI paths of `Intel` are not modelled: `LanguageModelSession`, `SummarizationSession`, `scrubCoverLetter` and `diagAI`. They call system frameworks whose behaviour is not visible. Only the local fallbacks are modelled.
- `importFromAppleContacts` (Contacts framework) is not modelled.
- The SwiftUI views, bindings, layout and `ProfileMenuButton` are not modelled.
- ProfileLifecycle.Container.RemoveAll: `psc.remove` never throws in the model. In the app a throw there ends the switch (ProfileManager.swift:217), the bootstrap (249) or the step that leaves the profile (277, 377) early.
- ProfileLifecycle.Container.RemoveMatching: `psc.remove` and `destroyPersistentStore` never throw in the model (ProfileManager.swift:188-190). `deleteProfile` catches their error (392), so only the stores detached before a throw could differ.
- ProfileLifecycle.RemoveStoreFiles: `removeItem` and `contentsOfDirectory` always succeed in the model (ProfileManager.swift:402-408). In the app a failure there, ignored by `try?`, leaves the file or the folder in place.
- ProfileLifecycle.ProfileManager.LoadProfiles: the order of the listing is a parameter, since the file system chooses it; plain files in the listing are skipped, as the code does. Hidden names are only those starting with '.'; other hidden flags of the file system are not modelled.
- CsvImport.ImportRows: the contact fetch has no sort descriptors (CSVparser.swift:65-66), so the store's order is unspecified; the model takes insertion order. When two stored contacts share an email or a phone, the one indexed (the later one) therefore follows insertion order.
- Intel.FallbackLetterShape: the role and user name are read from the same defaults and listing a fresh `ProfileManager()` would see (Intel.swift:20-22, 197-199); that manager's constructor side effect, creating the current profile's folder, is not repeated here.
- CsvParser.DateField: the "yyyy-MM-dd" `DateFormatter` is the parameter `parseDate`. Only the blank-text case is stated.
- OpportunityView.DescendingIsReversed: `localizedStandardCompare` is the parameter `compare`. For titles the result holds only for an antisymmetric `compare`.
- OpportunityView.StrictOrder: stated for the date and status keys only, because the title order depends on `compare`.
- The sorting of `sortedOpps` is not modelled. Swift's `sorted(by:)` algorithm is not part of this model. Only its comparator, and the comparator's properties, are.
- The contact list applies `descriptors()` through `ContactInspectorList`; only the descriptors are modelled.
- ContactView.FirstFetched: the store does not specify an order among contacts that tie on `contact`, `connected` and `last`. The model takes the earliest inserted.
- SearchView.SearchView.RunSearch: the fetches have no sort descriptors, so the store's order is unspecified. The model takes insertion order.
- Characters are Unicode scalars (Dafny `char`), not Swift grapheme clusters. This affects:
  - `count > 3` in the chunk filter;
  - `prefix(1400)` and `prefix(8)`;
  - `"\r\n"`, which the line splitter treats as one separator, as Swift does.
- Letter and digit tests, `lowercased()` and case-insensitive comparison use ASCII rules. Unicode case tables are not part of this model.
- Swift's `String <` is modelled as code-point lexicographic order, with no Unicode canonical equivalence.

=== FILE: contact_view.dfy ===
/**
 * The contact side of the app: the display name, the inspector rows, the
 * sort header of the contact list and the sort descriptors it yields,
 * creating a contact, and the default selection of the detail pane.
 */
module ContactView {
  import opened Wrappers
  import opened Text
  import opened Records

  /** An optional attribute, `""` for none, trimmed of the characters of `cls`. */
  function TrimmedOr(s: Option<string>, cls: CharClass): (r: string)
    ensures r == [] || (!InClass(r[0], cls) && !InClass(r[|r| - 1], cls))
  {
    if s.Some? then Trim(s.value, cls) else ""
  }

  /** First and last name, trimmed with `cls`, the non-empty ones joined by one space. */
  function FullName(first: Option<string>, last: Option<string>, cls: CharClass): string {
    var f, l := TrimmedOr(first, cls), TrimmedOr(last, cls);
    Join(KeepIf(f != "", f) + KeepIf(l != "", l), " ")
  }

  /** Which names make up the full name: both with a space, either one alone, or none. */
  lemma FullNameCases(first: Option<string>, last: Option<string>, cls: CharClass)
    ensures var f, l := TrimmedOr(first, cls), TrimmedOr(last, cls);
      && (f != "" && l != "" ==> FullName(first, last, cls) == f + " " + l)
      && (f != "" && l == "" ==> FullName(first, last, cls) == f)
      && (f == "" && l != "" ==> FullName(first, last, cls) == l)
      && (FullName(first, last, cls) == "" <==> f == "" && l == "")
  {
    var f, l := TrimmedOr(first, cls), TrimmedOr(last, cls);
    if f != "" && l != "" {
      assert KeepIf(true, f) + KeepIf(true, l) == [f, l];
      JoinTwo(f, l, " ");
    } else if f != "" {
      assert KeepIf(true, f) + KeepIf(false, l) == [f];
    } else if l != "" {
      assert KeepIf(false, f) + KeepIf(true, l) == [l];
    } else {
      assert KeepIf(false, f) + KeepIf(false, l) == [];
    }
  }

  /** `displayName`, in both `ContactView` and `ContactInspectorPane`. */
  function DisplayName(c: Contact): string {
    var full := FullName(c.first, c.last, WhitespacesAndNewlines);
    if full == "" then "Contact" else full
  }

  /**
   * The display name is "Contact" when both names are blank, otherwise the
   * trimmed names joined by a space; it is never empty and never starts or
   * ends with whitespace.
   */
  lemma DisplayNameShape(c: Contact)
    ensures var f, l := TrimmedOr(c.first, WhitespacesAndNewlines), TrimmedOr(c.last, WhitespacesAndNewlines);
      var d := DisplayName(c);
      && (f == "" && l == "" ==> d == "Contact")
      && (f != "" && l != "" ==> d == f + " " + l)
      && (f != "" && l == "" ==> d == f)
      && (f == "" && l != "" ==> d == l)
      && d != ""
      && !InClass(d[0], WhitespacesAndNewlines) && !InClass(d[|d| - 1], WhitespacesAndNewlines)
  {
    FullNameCases(c.first, c.last, WhitespacesAndNewlines);
  }

  /** What an `InspectorRow` shows: the text, and whether it is the dimmed placeholder. */
  datatype RowText = RowText(text: string, placeholder: bool)

  /** The value column of `InspectorRow`. */
  function InspectorValue(value: Option<string>): (r: RowText)
    ensures r.placeholder <==> TrimmedOr(value, WhitespacesAndNewlines) == ""
    ensures r.placeholder ==> r.text == "—"
    ensures !r.placeholder ==> r.text == TrimmedOr(value, WhitespacesAndNewlines)
  {
    var trimmed := TrimmedOr(value, WhitespacesAndNewlines);
    if trimmed == "" then RowText("—", true) else RowText(trimmed, false)
  }

  /** A blank value, nil or only whitespace, shows the placeholder; anything else shows itself without surrounding whitespace. */
  lemma InspectorValueShape(value: Option<string>)
    ensures value.None? ==> InspectorValue(value) == RowText("—", true)
    ensures value.Some? && IsBlank(value.value, WhitespacesAndNewlines) ==> InspectorValue(value) == RowText("—", true)
    ensures value.Some? && !IsBlank(value.value, WhitespacesAndNewlines) ==>
      !InspectorValue(value).placeholder && IsInfix(InspectorValue(value).text, value.value)
  {
  }

  /** The columns the contact list sorts on. */
  datatype SortKey = First | Last | Connected

  /** A header click: the active one flips the direction, another starts ascending, or descending for Connected. */
  function Clicked(key: SortKey, ascending: bool, k: SortKey): (r: (SortKey, bool))
    ensures r.0 == k
    ensures key == k ==> r.1 == !ascending
    ensures key != k ==> r.1 == (k != Connected)
  {
    if key == k then (key, !ascending) else (k, k != Connected)
  }

  /** A second click on the same header reverses the first. */
  lemma ClickTwice(key: SortKey, ascending: bool, k: SortKey)
    ensures Clicked(Clicked(key, ascending, k).0, Clicked(key, ascending, k).1, k)
      == (k, if key == k then ascending else k == Connected)
  {
  }

  /** `NSSortDescriptor`: an attribute and a direction. */
  datatype SortDescriptor = SortDescriptor(key: SortKey, ascending: bool)

  /** `descriptors()`. */
  function Descriptors(key: SortKey, ascending: bool): seq<SortDescriptor> {
    match key
    case First => [SortDescriptor(First, ascending), SortDescriptor(Last, true)]
    case Last => [SortDescriptor(Last, ascending), SortDescriptor(First, true)]
    case Connected => [SortDescriptor(Connected, ascending), SortDescriptor(Last, true), SortDescriptor(First, true)]
  }

  /**
   * The primary descriptor is the selected key in the selected direction;
   * every tie-breaker is ascending and does not depend on the direction;
   * no attribute appears twice; and a name always breaks ties.
   */
  lemma DescriptorsShape(key: SortKey, ascending: bool)
    ensures var d := Descriptors(key, ascending);
      && |d| >= 2
      && d[0] == SortDescriptor(key, ascending)
      && (forall i :: 1 <= i < |d| ==> d[i].ascending && d[i].key != Connected)
      && d[1..] == Descriptors(key, !ascending)[1..]
      && (forall i, j :: 0 <= i < j < |d| ==> d[i].key != d[j].key)
  {
  }

  /** The sort state of `ContactInspectorPane`. */
  class ContactInspectorPane {
    var sortKey: SortKey
    var ascending: bool

    constructor ()
      ensures sortKey == First && ascending
    {
      sortKey := First;
      ascending := true;
    }

    /** The action of the sort-header button for `k`. */
    method Click(k: SortKey)
      modifies this
      ensures (sortKey, ascending) == Clicked(old(sortKey), old(ascending), k)
    {
      if sortKey == k {
        ascending := !ascending;
      } else {
        sortKey := k;
        ascending := k != Connected;
      }
    }
  }

  /**
   * `Contact.create(in:…)`: inserts a contact holding every string as
   * given and the two dates, a missing one replaced by a clock reading, then
   * saves. The clock is read once per missing date: `connectedNow` and
   * `contactNow` are the two readings and need not be equal.
   * The object stays in the context when the save throws.
   */
  method CreateContact(ctx: ObjectContext, first: string, last: string, linkedin: string, company: string,
                       position: string, phone: string, email: string, notes: string,
                       connected: Option<int>, contact: Option<int>, connectedNow: int, contactNow: int, saveOk: bool)
    returns (r: Option<ContactRef>)
    modifies ctx`contacts
    ensures ctx.contacts == old(ctx.contacts) + [Contact(
      Some(first), Some(last), Some(company), Some(position), Some(email), Some(phone), Some(linkedin), Some(notes),
      Some(if connected.Some? then connected.value else connectedNow),
      Some(if contact.Some? then contact.value else contactNow))]
    ensures r == if saveOk then Some(ContactRef(ctx, |old(ctx.contacts)|)) else None
  {
    var c := BlankContact;
    c := c.(first := Some(first), last := Some(last), linkedin := Some(linkedin));
    c := c.(company := Some(company), position := Some(position), phone := Some(phone));
    c := c.(email := Some(email), notes := Some(notes));
    c := c.(connected := Some(if connected.Some? then connected.value else connectedNow));
    c := c.(contact := Some(if contact.Some? then contact.value else contactNow));
    ctx.contacts := ctx.contacts + [c];
    if saveOk {
      r := Some(ContactRef(ctx, |ctx.contacts| - 1));
    } else {
      r := None;
    }
  }

  /** A contact created with the defaults is named "Contact" and has both dates. */
  lemma CreatedDefaultContact(connectedNow: int, contactNow: int)
    ensures var c := Contact(Some(""), Some(""), Some(""), Some(""), Some(""), Some(""), Some(""), Some(""),
                             Some(connectedNow), Some(contactNow));
      DisplayName(c) == "Contact" && c.connected.Some? && c.contact.Some?
  {
    var c := Contact(Some(""), Some(""), Some(""), Some(""), Some(""), Some(""), Some(""), Some(""),
                     Some(connectedNow), Some(contactNow));
    DisplayNameShape(c);
  }

  /** Ascending order on optional dates, with nil before every date. */
  predicate DateLess(a: Option<int>, b: Option<int>) {
    b.Some? && (a.None? || a.value < b.value)
  }

  /** Ascending order on optional strings, with nil before every string. */
  predicate TextLess(a: Option<string>, b: Option<string>) {
    b.Some? && (a.None? || LexLess(a.value, b.value))
  }

  /** The order `ensureSelected` fetches in: `contact` descending, then `connected` descending, then `last` ascending. */
  predicate FetchedBefore(a: Contact, b: Contact) {
    || DateLess(b.contact, a.contact)
    || (a.contact == b.contact && DateLess(b.connected, a.connected))
    || (a.contact == b.contact && a.connected == b.connected && TextLess(a.last, b.last))
  }

  lemma FetchedBeforeIrreflexive(a: Contact)
    ensures !FetchedBefore(a, a)
  {
    if a.last.Some? {
      LexIrreflexive(a.last.value);
    }
  }

  lemma FetchedBeforeTransitive(a: Contact, b: Contact, c: Contact)
    requires FetchedBefore(a, b) && FetchedBefore(b, c)
    ensures FetchedBefore(a, c)
  {
    if a.contact == b.contact == c.contact && a.connected == b.connected == c.connected
       && TextLess(a.last, b.last) && TextLess(b.last, c.last) && a.last.Some? {
      LexTransitive(a.last.value, b.last.value, c.last.value);
    }
  }

  /** The scan for the first fetched contact from position `i` on, `best` being the first so far. */
  function FirstFetchedFrom(cs: seq<Contact>, best: nat, i: nat): (r: nat)
    requires best < i <= |cs|
    ensures r < |cs|
    decreases |cs| - i
  {
    if i == |cs| then best
    else FirstFetchedFrom(cs, if FetchedBefore(cs[i], cs[best]) then i else best, i + 1)
  }

  /**
   * The first contact of the fetch, `fetchLimit` 1. Among contacts that tie
   * on every descriptor the store's order is unspecified; this model takes
   * the earliest inserted.
   */
  function FirstFetched(cs: seq<Contact>): (r: Option<nat>)
    ensures r.None? <==> cs == []
  {
    if cs == [] then None else Some(FirstFetchedFrom(cs, 0, 1))
  }

  lemma {:induction false} FirstFetchedFromIsFirst(cs: seq<Contact>, best: nat, i: nat)
    requires best < i <= |cs|
    requires forall j :: 0 <= j < i ==> !FetchedBefore(cs[j], cs[best])
    ensures forall j :: 0 <= j < |cs| ==> !FetchedBefore(cs[j], cs[FirstFetchedFrom(cs, best, i)])
    decreases |cs| - i
  {
    if i < |cs| {
      if FetchedBefore(cs[i], cs[best]) {
        forall j | 0 <= j < i + 1 ensures !FetchedBefore(cs[j], cs[i]) {
          if j == i {
            FetchedBeforeIrreflexive(cs[i]);
          } else if FetchedBefore(cs[j], cs[i]) {
            FetchedBeforeTransitive(cs[j], cs[i], cs[best]);
          }
        }
        FirstFetchedFromIsFirst(cs, i, i + 1);
      } else {
        FirstFetchedFromIsFirst(cs, best, i + 1);
      }
    }
  }

  /** No contact is fetched before the one `FirstFetched` picks. */
  lemma FirstFetchedIsFirst(cs: seq<Contact>)
    requires cs != []
    ensures FirstFetched(cs).Some? && FirstFetched(cs).value < |cs|
    ensures forall j :: 0 <= j < |cs| ==> !FetchedBefore(cs[j], cs[FirstFetched(cs).value])
  {
    FetchedBeforeIrreflexive(cs[0]);
    FirstFetchedFromIsFirst(cs, 0, 1);
  }

  /** The selection of `ContactsDetail` and the context it shows. */
  class ContactsDetail {
    var selectedContact: Option<ContactRef>
    const context: ObjectContext

    constructor (context0: ObjectContext, selected0: Option<ContactRef>)
      ensures context == context0 && selectedContact == selected0
    {
      context := context0;
      selectedContact := selected0;
    }

    /**
     * `ensureSelected()`. Any selection is kept. Otherwise the first fetched
     * contact is selected; with none, or when the fetch throws, a contact
     * with default values is created and, if its save succeeds, selected.
     * Its two dates are two separate clock readings.
     */
    method EnsureSelected(fetchOk: bool, connectedNow: int, contactNow: int, saveOk: bool)
      modifies this`selectedContact, context`contacts
      ensures old(selectedContact).Some? ==> selectedContact == old(selectedContact) && context.contacts == old(context.contacts)
      ensures old(selectedContact).None? && fetchOk && old(context.contacts) != [] ==>
        selectedContact == Some(ContactRef(context, FirstFetched(old(context.contacts)).value))
        && context.contacts == old(context.contacts)
      ensures old(selectedContact).None? && (!fetchOk || old(context.contacts) == []) ==>
        && context.contacts == old(context.contacts)
          + [Contact(Some(""), Some(""), Some(""), Some(""), Some(""), Some(""), Some(""), Some(""),
            Some(connectedNow), Some(contactNow))]
        && selectedContact == (if saveOk then Some(ContactRef(context, |old(context.contacts)|)) else None)
    {
      if selectedContact.Some? {
        return;
      }
      if fetchOk {
        var newest := FirstFetched(context.contacts);
        if newest.Some? {
          selectedContact := Some(ContactRef(context, newest.value));
          return;
        }
      }
      var created := CreateContact(context, "", "", "", "", "", "", "", "", None, None, connectedNow, contactNow, saveOk);
      if created.Some? {
        selectedContact := created;
      }
    }
  }
}

=== FILE: csv.dfy ===
/**
 * The CSV side of the contact importer: the quote-aware field splitter
 * `splitCSV`, the line splitter and the header-driven row parser
 * `parseCSV`, and `digitsOnly`.
 */
module CsvParser {
  import opened Text
  import opened Utf8
  import opened Wrappers

  // ---------------------------------------------------------------------
  // splitCSV

  /**
   * The scanner of `splitCSV` on the rest `s` of the input, having built
   * `out` and the current field `cur`. A '"' inside quotes that is followed
   * by another '"' is an escaped quote; any other '"' toggles quoting; a ','
   * outside quotes ends the field; everything else is field text.
   */
  function Scan(s: string, cur: string, inQuotes: bool, out: seq<string>): (r: seq<string>)
    ensures |r| > |out| && r[..|out|] == out
    decreases |s|
  {
    if s == [] then out + [cur]
    else if s[0] == '"' then
      if inQuotes && |s| > 1 && s[1] == '"' then Scan(s[2..], cur + ['"'], inQuotes, out)
      else Scan(s[1..], cur, !inQuotes, out)
    else if s[0] == ',' && !inQuotes then Scan(s[1..], "", inQuotes, out + [cur])
    else Scan(s[1..], cur + [s[0]], inQuotes, out)
  }

  /** What `splitCSV` returns for `s`. */
  function SplitCsvSpec(s: string): seq<string> {
    Scan(s, "", false, [])
  }

  /** `String.splitCSV()`: one pass over the characters with the `cur`, `inQuotes` and `out` variables. */
  method SplitCsv(s: string) returns (out: seq<string>)
    ensures out == SplitCsvSpec(s)
    ensures |out| >= 1
  {
    out := [];
    var cur := "";
    var inQuotes := false;
    var i := 0;
    while i < |s|
      invariant 0 <= i <= |s|
      invariant Scan(s[i..], cur, inQuotes, out) == SplitCsvSpec(s)
    {
      var ch := s[i];
      if ch == '"' {
        if inQuotes && i + 1 < |s| && s[i + 1] == '"' {
          assert s[i..][2..] == s[i + 2..];
          i := i + 2;
          cur := cur + ['"'];
        } else {
          assert s[i..][1..] == s[i + 1..];
          inQuotes := !inQuotes;
          i := i + 1;
        }
      } else if ch == ',' && !inQuotes {
        assert s[i..][1..] == s[i + 1..];
        out := out + [cur];
        cur := "";
        i := i + 1;
      } else {
        assert s[i..][1..] == s[i + 1..];
        cur := cur + [ch];
        i := i + 1;
      }
    }
    out := out + [cur];
  }

  /**
   * The commas of `s` that stand outside quotes, starting inside quotes
   * when `inQuotes`: quoting is the parity of the '"' characters read so
   * far, escaped pairs included.
   */
  function OutsideCommas(s: string, inQuotes: bool): nat
    decreases |s|
  {
    if s == [] then 0
    else if s[0] == '"' then OutsideCommas(s[1..], !inQuotes)
    else (if s[0] == ',' && !inQuotes then 1 else 0) + OutsideCommas(s[1..], inQuotes)
  }

  lemma {:induction false} ScanCount(s: string, cur: string, inQuotes: bool, out: seq<string>)
    ensures |Scan(s, cur, inQuotes, out)| == |out| + 1 + OutsideCommas(s, inQuotes)
    decreases |s|
  {
    if s == [] {
    } else if s[0] == '"' {
      if inQuotes && |s| > 1 && s[1] == '"' {
        ScanCount(s[2..], cur + ['"'], inQuotes, out);
        assert s[1..][1..] == s[2..];
      } else {
        ScanCount(s[1..], cur, !inQuotes, out);
      }
    } else if s[0] == ',' && !inQuotes {
      ScanCount(s[1..], "", inQuotes, out + [cur]);
    } else {
      ScanCount(s[1..], cur + [s[0]], inQuotes, out);
    }
  }

  /** `splitCSV` returns one field more than there are commas outside quotes; "" gives `[""]`. */
  lemma FieldCount(s: string)
    ensures |SplitCsvSpec(s)| == 1 + OutsideCommas(s, false)
    ensures s == "" ==> SplitCsvSpec(s) == [""]
  {
    ScanCount(s, "", false, []);
  }

  /** Scanning quote-free text outside quotes is splitting it on ','. */
  lemma {:induction false} ScanQuoteFree(s: string, cur: string, out: seq<string>)
    requires forall i :: 0 <= i < |s| ==> s[i] != '"'
    ensures Scan(s, cur, false, out) == out + [cur + SplitOnChars(s, {','})[0]] + SplitOnChars(s, {','})[1..]
    decreases |s|
  {
    if s != [] {
      var rest := SplitOnChars(s[1..], {','});
      assert s[0] != '"';
      if s[0] == ',' {
        ScanQuoteFree(s[1..], "", out + [cur]);
        assert "" + rest[0] == rest[0];
        assert cur + "" == cur;
        assert out + [cur] + [rest[0]] + rest[1..] == out + [cur] + rest;
      } else {
        ScanQuoteFree(s[1..], cur + [s[0]], out);
        assert cur + [s[0]] + rest[0] == cur + ([s[0]] + rest[0]);
      }
    }
  }

  /** Without a '"' in the line, `splitCSV` is a plain split on ','. */
  lemma SplitWithoutQuotes(s: string)
    requires forall i :: 0 <= i < |s| ==> s[i] != '"'
    ensures SplitCsvSpec(s) == SplitOnChars(s, {','})
  {
    ScanQuoteFree(s, "", []);
    HeadAndTail(SplitOnChars(s, {','}));
  }

  lemma HeadAndTail(parts: seq<string>)
    requires |parts| >= 1
    ensures [] + ["" + parts[0]] + parts[1..] == parts
  {
    assert "" + parts[0] == parts[0];
  }


  /** `f` holds no '"'. */
  predicate NoQuote(f: string) {
    forall j :: 0 <= j < |f| ==> f[j] != '"'
  }

  /** No two '"' stand next to each other in `s`. */
  predicate NoDoubledQuote(s: string) {
    forall i :: 0 <= i < |s| - 1 ==> !(s[i] == '"' && s[i + 1] == '"')
  }

  lemma {:induction false} ScanKeepsQuotesOut(s: string, cur: string, inQuotes: bool, out: seq<string>)
    requires NoDoubledQuote(s) && NoQuote(cur)
    requires forall k :: 0 <= k < |out| ==> NoQuote(out[k])
    ensures forall k :: 0 <= k < |Scan(s, cur, inQuotes, out)| ==> NoQuote(Scan(s, cur, inQuotes, out)[k])
    decreases |s|
  {
    if s != [] {
      assert NoDoubledQuote(s[1..]) by {
        forall i | 0 <= i < |s[1..]| - 1 ensures !(s[1..][i] == '"' && s[1..][i + 1] == '"') {
          assert s[1..][i] == s[i + 1] && s[1..][i + 1] == s[i + 2];
        }
      }
      if s[0] == '"' {
        assert !(|s| > 1 && s[1] == '"') by {
          if |s| > 1 {
            assert !(s[0] == '"' && s[1] == '"');
          }
        }
        ScanKeepsQuotesOut(s[1..], cur, !inQuotes, out);
      } else if s[0] == ',' && !inQuotes {
        ScanKeepsQuotesOut(s[1..], "", inQuotes, out + [cur]);
      } else {
        ScanKeepsQuotesOut(s[1..], cur + [s[0]], inQuotes, out);
      }
    }
  }

  /**
   * A '"' reaches a field only through an escaped pair: in a line with no
   * two adjacent '"', every quote is a delimiter and no field holds one.
   */
  lemma SplitDropsLoneQuotes(s: string)
    requires NoDoubledQuote(s)
    ensures forall k :: 0 <= k < |SplitCsvSpec(s)| ==> NoQuote(SplitCsvSpec(s)[k])
  {
    ScanKeepsQuotesOut(s, "", false, []);
  }

  /** A field written the CSV way: every '"' doubled, the whole wrapped in quotes. */
  function Escape(f: string): (r: string)
    ensures |r| >= |f|
  {
    if f == [] then [] else (if f[0] == '"' then "\"\"" else [f[0]]) + Escape(f[1..])
  }

  function Quote(f: string): string {
    "\"" + Escape(f) + "\""
  }

  /** A line of quoted fields separated by ','. */
  function QuotedLine(fields: seq<string>): string {
    if |fields| == 0 then ""
    else if |fields| == 1 then Quote(fields[0])
    else Quote(fields[0]) + "," + QuotedLine(fields[1..])
  }

  /** Inside quotes, the escaped text of `f` and its closing quote add `f` to the field. */
  lemma {:induction false} ScanEscaped(f: string, rest: string, cur: string, out: seq<string>)
    requires rest == [] || rest[0] != '"'
    ensures Scan(Escape(f) + "\"" + rest, cur, true, out) == Scan(rest, cur + f, false, out)
    decreases |f|
  {
    if f == [] {
      assert Escape(f) + "\"" + rest == ['"'] + rest;
      assert (['"'] + rest)[1..] == rest;
      assert cur + f == cur;
    } else {
      var tail := Escape(f[1..]) + "\"" + rest;
      ScanEscaped(f[1..], rest, cur + [f[0]], out);
      assert cur + [f[0]] + f[1..] == cur + f;
      if f[0] == '"' {
        assert Escape(f) + "\"" + rest == "\"\"" + tail;
        assert ("\"\"" + tail)[2..] == tail;
      } else {
        assert Escape(f) + "\"" + rest == [f[0]] + tail;
        assert ([f[0]] + tail)[1..] == tail;
      }
    }
  }

  lemma {:induction false} ScanQuotedLine(fields: seq<string>, out: seq<string>)
    requires |fields| >= 1
    ensures Scan(QuotedLine(fields), "", false, out) == out + fields
    decreases |fields|
  {
    var f := fields[0];
    var line := QuotedLine(fields);
    if |fields| == 1 {
      assert line == "\"" + (Escape(f) + "\"" + "");
      assert line[1..] == Escape(f) + "\"" + "";
      ScanEscaped(f, "", "", out);
      assert "" + f == f;
    } else {
      var rest := "," + QuotedLine(fields[1..]);
      assert line == "\"" + (Escape(f) + "\"" + rest);
      assert line[1..] == Escape(f) + "\"" + rest;
      ScanEscaped(f, rest, "", out);
      assert "" + f == f;
      assert rest[1..] == QuotedLine(fields[1..]);
      ScanQuotedLine(fields[1..], out + [f]);
      assert out + [f] + fields[1..] == out + fields;
    }
  }

  /** Splitting a line of quoted fields gives the fields back, commas and quotes in them included. */
  lemma SplitQuotedLine(fields: seq<string>)
    requires |fields| >= 1
    ensures SplitCsvSpec(QuotedLine(fields)) == fields
  {
    ScanQuotedLine(fields, []);
  }

  // ---------------------------------------------------------------------
  // Lines

  /**
   * `split(omittingEmptySubsequences: false, whereSeparator: \.isNewline)`:
   * every newline character separates, and "\r\n", which Swift reads as one
   * character, separates once.
   */
  function Lines(s: string): (r: seq<string>)
    ensures |r| >= 1
    decreases |s|
  {
    if s == [] then [""]
    else if |s| > 1 && s[0] == '\r' && s[1] == '\n' then [""] + Lines(s[2..])
    else if IsNewline(s[0]) then [""] + Lines(s[1..])
    else
      var rest := Lines(s[1..]);
      [[s[0]] + rest[0]] + rest[1..]
  }

  predicate NoNewline(line: string) {
    forall j :: 0 <= j < |line| ==> !IsNewline(line[j])
  }

  /** No line holds a newline character. */
  lemma {:induction false} LinesHaveNoNewline(s: string)
    ensures forall k :: 0 <= k < |Lines(s)| ==> NoNewline(Lines(s)[k])
    decreases |s|
  {
    if s == [] {
    } else if |s| > 1 && s[0] == '\r' && s[1] == '\n' {
      LinesHaveNoNewline(s[2..]);
      assert forall k :: 1 <= k < |Lines(s)| ==> Lines(s)[k] == Lines(s[2..])[k - 1];
    } else if IsNewline(s[0]) {
      LinesHaveNoNewline(s[1..]);
      assert forall k :: 1 <= k < |Lines(s)| ==> Lines(s)[k] == Lines(s[1..])[k - 1];
    } else {
      var rest := Lines(s[1..]);
      LinesHaveNoNewline(s[1..]);
      assert NoNewline(rest[0]);
      assert forall k :: 1 <= k < |Lines(s)| ==> Lines(s)[k] == rest[k];
    }
  }

  lemma {:induction false} LinesOfLine(line: string, rest: string)
    requires NoNewline(line)
    ensures Lines(line + rest) == [line + Lines(rest)[0]] + Lines(rest)[1..]
    decreases |line|
  {
    if line != [] {
      var s := line + rest;
      assert s[0] == line[0] && !IsNewline(s[0]) && s[0] != '\r';
      assert s[1..] == line[1..] + rest;
      LinesOfLine(line[1..], rest);
      assert [line[0]] + (line[1..] + Lines(rest)[0]) == line + Lines(rest)[0];
    } else {
      assert line + rest == rest;
      assert line + Lines(rest)[0] == Lines(rest)[0];
      assert [Lines(rest)[0]] + Lines(rest)[1..] == Lines(rest);
    }
  }

  /** Lines joined with "\n" split back into the same lines. */
  lemma {:induction false} LinesOfJoin(ls: seq<string>)
    requires |ls| >= 1
    requires forall k :: 0 <= k < |ls| ==> NoNewline(ls[k])
    ensures Lines(Join(ls, "\n")) == ls
    decreases |ls|
  {
    if |ls| == 1 {
      LinesOfLine(ls[0], "");
      assert ls[0] + "" == ls[0];
    } else {
      var tail := Join(ls[1..], "\n");
      LinesOfJoin(ls[1..]);
      assert Join(ls, "\n") == ls[0] + ("\n" + tail);
      LinesOfLine(ls[0], "\n" + tail);
      assert ("\n" + tail)[1..] == tail;
      assert Lines("\n" + tail) == [""] + ls[1..];
      assert ls[0] + "" == ls[0];
      assert [ls[0]] + ls[1..] == ls;
    }
  }

  // ---------------------------------------------------------------------
  // parseCSV

  /** `CSVRow`; dates are instants. */
  datatype CsvRow = CsvRow(
    first: string, last: string, company: string, position: string,
    email: string, phone: string, linkedin: string, notes: string,
    connected: Option<int>, lastContacted: Option<int>)

  /** `caseInsensitiveCompare(_:) == .orderedSame`. */
  predicate SameIgnoringCase(a: string, b: string) {
    LowerStr(a) == LowerStr(b)
  }

  /** `cols.firstIndex { $0.caseInsensitiveCompare(name) == .orderedSame }`. */
  function ColumnIndex(cols: seq<string>, name: string): (r: Option<nat>)
    ensures r.Some? ==> (r.value < |cols| && SameIgnoringCase(cols[r.value], name)
      && forall j :: 0 <= j < r.value ==> !SameIgnoringCase(cols[j], name))
    ensures r.None? ==> forall j :: 0 <= j < |cols| ==> !SameIgnoringCase(cols[j], name)
  {
    if cols == [] then None
    else if SameIgnoringCase(cols[0], name) then Some(0)
    else match ColumnIndex(cols[1..], name)
      case None => None
      case Some(i) => Some(i + 1)
  }

  /** The nested `field(_:)`: the trimmed cell under the named column, or "" when there is none. */
  function Field(cols: seq<string>, fields: seq<string>, name: string): (r: string)
    ensures (ColumnIndex(cols, name).None? || ColumnIndex(cols, name).value >= |fields|) ==> r == ""
    ensures ColumnIndex(cols, name).Some? && ColumnIndex(cols, name).value < |fields| ==>
      IsInfix(r, fields[ColumnIndex(cols, name).value])
    ensures r == [] || (!InClass(r[0], WhitespacesAndNewlines) && !InClass(r[|r| - 1], WhitespacesAndNewlines))
  {
    match ColumnIndex(cols, name)
    case None => ""
    case Some(i) => if i < |fields| then Trim(fields[i], WhitespacesAndNewlines) else ""
  }
  /** The looked-up field is its cell with exactly the surrounding whitespace and newlines removed. */
  lemma FieldStrips(cols: seq<string>, fields: seq<string>, name: string) returns (a: nat)
    requires ColumnIndex(cols, name).Some? && ColumnIndex(cols, name).value < |fields|
    ensures var cell, r := fields[ColumnIndex(cols, name).value], Field(cols, fields, name);
      && a + |r| <= |cell| && cell[a..a + |r|] == r
      && (forall k :: 0 <= k < a ==> InClass(cell[k], WhitespacesAndNewlines))
      && (forall k :: a + |r| <= k < |cell| ==> InClass(cell[k], WhitespacesAndNewlines))
  {
    a := TrimStrips(fields[ColumnIndex(cols, name).value], WhitespacesAndNewlines);
  }


  /**
   * The nested `date(_:)`: the text trimmed of spaces and tabs, nothing when
   * that is empty, else what the "yyyy-MM-dd" formatter `parseDate` makes of it.
   */
  function DateField(str: string, parseDate: string -> Option<int>): (r: Option<int>)
    ensures IsBlankIn(str, Whitespaces) ==> r.None?
  {
    var t := Trim(str, Whitespaces);
    if t == [] then None else parseDate(t)
  }

  predicate IsBlankIn(s: string, cls: CharClass) {
    forall k :: 0 <= k < |s| ==> InClass(s[k], cls)
  }

  predicate AllBlank(fields: seq<string>) {
    forall k :: 0 <= k < |fields| ==> IsBlankIn(fields[k], WhitespacesAndNewlines)
  }

  /** One data line: no row when every cell is blank, else the row read through the header. */
  function RowOf(cols: seq<string>, line: string, parseDate: string -> Option<int>): (r: Option<CsvRow>)
    ensures r.None? <==> AllBlank(SplitCsvSpec(line))
  {
    var fields := SplitCsvSpec(line);
    if AllBlank(fields) then None
    else
      Some(CsvRow(
        Field(cols, fields, "first"), Field(cols, fields, "last"),
        Field(cols, fields, "company"), Field(cols, fields, "position"),
        Field(cols, fields, "email"), Field(cols, fields, "phone"),
        Field(cols, fields, "linkedin"), Field(cols, fields, "notes"),
        DateField(Field(cols, fields, "connected"), parseDate),
        DateField(Field(cols, fields, "last_contacted"), parseDate)))
  }

  /** The closure `parseCSV` hands to `compactMap`. */
  function RowParser(cols: seq<string>, parseDate: string -> Option<int>): string -> Option<CsvRow> {
    line => RowOf(cols, line, parseDate)
  }

  /** `compactMap` of `RowOf` over the data lines. */
  function RowsOf(cols: seq<string>, lines: seq<string>, parseDate: string -> Option<int>): (r: seq<CsvRow>)
    ensures |r| <= |lines|
  {
    CompactMap(lines, RowParser(cols, parseDate))
  }

  /** Each row is the row of one data line. */
  lemma RowsFromLines(cols: seq<string>, lines: seq<string>, parseDate: string -> Option<int>)
    ensures forall k :: 0 <= k < |RowsOf(cols, lines, parseDate)| ==>
      exists j :: 0 <= j < |lines| && RowOf(cols, lines[j], parseDate) == Some(RowsOf(cols, lines, parseDate)[k])
  {
    var f := RowParser(cols, parseDate);
    CompactMapFrom(lines, f);
    var r := RowsOf(cols, lines, parseDate);
    forall k | 0 <= k < |r| ensures exists j :: 0 <= j < |lines| && RowOf(cols, lines[j], parseDate) == Some(r[k]) {
      assert ValueOfSome(r[k], lines, f);
      var j :| 0 <= j < |lines| && f(lines[j]) == Some(r[k]);
      assert RowOf(cols, lines[j], parseDate) == Some(r[k]);
    }
  }

  /** Every data line yields its row when none of them is blank. */
  lemma RowsOfNoBlank(cols: seq<string>, lines: seq<string>, parseDate: string -> Option<int>)
    requires forall j :: 0 <= j < |lines| ==> !AllBlank(SplitCsvSpec(lines[j]))
    ensures |RowsOf(cols, lines, parseDate)| == |lines|
    ensures forall j :: 0 <= j < |lines| ==> RowOf(cols, lines[j], parseDate) == Some(RowsOf(cols, lines, parseDate)[j])
  {
    var f := RowParser(cols, parseDate);
    forall j | 0 <= j < |lines| ensures f(lines[j]).Some? {
      assert !AllBlank(SplitCsvSpec(lines[j]));
    }
    CompactMapTotal(lines, f);
  }

  /**
   * `CSVparser.parseCSV`: nothing for data that is not UTF-8; otherwise the
   * first line is the header and each later line gives at most one row.
   */
  function ParseCsv(data: seq<Byte>, parseDate: string -> Option<int>): (r: seq<CsvRow>)
    ensures Decode(data).None? ==> r == []
    ensures Decode(data).Some? ==> |r| <= |Lines(Decode(data).value)| - 1
    ensures Decode(data).Some? && |Lines(Decode(data).value)| == 1 ==> r == []
  {
    match Decode(data)
    case None => []
    case Some(s) =>
      var lines := Lines(s);
      RowsOf(SplitCsvSpec(lines[0]), lines[1..], parseDate)
  }

  // ---------------------------------------------------------------------
  // digitsOnly

  /** `digitsOnly`: the digits of `s`, in order. */
  function DigitsOnly(s: string): (r: string)
    ensures forall i :: 0 <= i < |r| ==> IsDigit(r[i])
    ensures Subsequence(r, s)
    ensures forall i :: 0 <= i < |s| && IsDigit(s[i]) ==> s[i] in r
  {
    Filter(s, IsDigit)
  }

  /**
   * `digitsOnly` keeps each digit as often as it occurs and drops everything
   * else, so it leaves a string of digits unchanged.
   */
  lemma DigitsOnlyExact(s: string)
    ensures multiset(DigitsOnly(s)) <= multiset(s)
    ensures forall i :: 0 <= i < |s| && IsDigit(s[i]) ==> multiset(DigitsOnly(s))[s[i]] == multiset(s)[s[i]]
    ensures DigitsOnly(DigitsOnly(s)) == DigitsOnly(s)
  {
    FilterCounts(s, IsDigit);
    FilterTwice(s, IsDigit);
  }
}

=== FILE: csv_import.dfy ===
/**
 * `CSVparser.importRows`: merge parsed rows into the contacts of a context.
 * A row updates the contact that has its lower-cased email or, failing
 * that, its digits-only phone, and otherwise creates a contact; only empty
 * fields are ever filled.
 */
module CsvImport {
  import opened Text
  import opened Wrappers
  import opened Records
  import opened CsvParser

  /** `ImportResult`. */
  datatype ImportResult = ImportResult(created: nat, updated: nat, skipped: nat)

  /** How a row's email is matched: lower-cased. */
  function NormEmail(email: string): string {
    LowerStr(email)
  }

  /** How a row's phone is matched: its digits only. */
  function NormPhone(phone: string): string {
    DigitsOnly(phone)
  }

  /** The email key of a stored contact, if it has a non-empty one. */
  function EmailKey(c: Contact): Option<string> {
    if c.email.Some? && NormEmail(c.email.value) != "" then Some(NormEmail(c.email.value)) else None
  }

  /** The phone key of a stored contact, if it has a non-empty one. */
  function PhoneKey(c: Contact): Option<string> {
    if c.phone.Some? && NormPhone(c.phone.value) != "" then Some(NormPhone(c.phone.value)) else None
  }

  /** An index from keys to contact positions; `key` picks the key of a contact. */
  type Index = map<string, nat>

  /**
   * The preloaded `byEmail` or `byPhone` dictionary: each contact with a key
   * is entered in fetch order, so a later contact with the same key wins.
   */
  function IndexOf(cs: seq<Contact>, key: Contact -> Option<string>): (m: Index)
    ensures forall k :: k in m ==> m[k] < |cs| && key(cs[m[k]]) == Some(k)
    ensures forall i :: 0 <= i < |cs| && key(cs[i]).Some? ==> key(cs[i]).value in m && i <= m[key(cs[i]).value]
  {
    if cs == [] then map[]
    else
      var n := |cs| - 1;
      var m := IndexOf(cs[..n], key);
      assert forall i :: 0 <= i < n ==> cs[..n][i] == cs[i];
      match key(cs[n])
      case None => m
      case Some(k) => m[k := n]
  }

  /** The loop that preloads both dictionaries from the fetched contacts. */
  method Preload(all: seq<Contact>) returns (byEmail: Index, byPhone: Index)
    ensures byEmail == IndexOf(all, EmailKey) && byPhone == IndexOf(all, PhoneKey)
  {
    byEmail, byPhone := map[], map[];
    var i := 0;
    while i < |all|
      invariant 0 <= i <= |all|
      invariant byEmail == IndexOf(all[..i], EmailKey) && byPhone == IndexOf(all[..i], PhoneKey)
    {
      var c := all[i];
      assert all[..i + 1][..i] == all[..i] && all[..i + 1][i] == c;
      var e := EmailKey(c);
      if e.Some? {
        byEmail := byEmail[e.value := i];
      }
      var p := PhoneKey(c);
      if p.Some? {
        byPhone := byPhone[p.value := i];
      }
      i := i + 1;
    }
    assert all[..|all|] == all;
  }

  /** The nested `set`: store `v` only when the field is nil or empty and `v` is not empty. */
  function FillIfEmpty(field: Option<string>, v: string): (r: Option<string>)
    ensures field.Some? && field.value != "" ==> r == field
    ensures v == "" ==> r == field
    ensures (field.None? || field.value == "") && v != "" ==> r == Some(v)
  {
    if (field.None? || field.value == "") && v != "" then Some(v) else field
  }

  /** A date is set only when the contact has none. */
  function FillDate(field: Option<int>, d: Option<int>): (r: Option<int>)
    ensures field.Some? ==> r == field
    ensures field.None? ==> r == d
  {
    if field.None? && d.Some? then d else field
  }

  /** All the `set` calls and the two date assignments for one row. */
  function Merge(c: Contact, r: CsvRow): Contact {
    Contact(
      FillIfEmpty(c.first, r.first), FillIfEmpty(c.last, r.last),
      FillIfEmpty(c.company, r.company), FillIfEmpty(c.position, r.position),
      FillIfEmpty(c.email, NormEmail(r.email)), FillIfEmpty(c.phone, NormPhone(r.phone)),
      FillIfEmpty(c.linkedin, r.linkedin), FillIfEmpty(c.notes, r.notes),
      FillDate(c.connected, r.connected), FillDate(c.contact, r.lastContacted))
  }

  /** `s` is `t` with the empty fields of `t` possibly filled in. */
  predicate KeepsFilled(t: Option<string>, s: Option<string>) {
    t.Some? && t.value != "" ==> s == t
  }

  /** `after` agrees with `before` on every string field that was not empty and on every date that was set. */
  predicate NoOverwrite(before: Contact, after: Contact) {
    && KeepsFilled(before.first, after.first) && KeepsFilled(before.last, after.last)
    && KeepsFilled(before.company, after.company) && KeepsFilled(before.position, after.position)
    && KeepsFilled(before.email, after.email) && KeepsFilled(before.phone, after.phone)
    && KeepsFilled(before.linkedin, after.linkedin) && KeepsFilled(before.notes, after.notes)
    && (before.connected.Some? ==> after.connected == before.connected)
    && (before.contact.Some? ==> after.contact == before.contact)
  }

  /** Merging a row never overwrites, and writes the email and phone normalised. */
  lemma MergeFillsOnly(c: Contact, r: CsvRow)
    ensures NoOverwrite(c, Merge(c, r))
    ensures Merge(c, r).email == c.email || Merge(c, r).email == Some(NormEmail(r.email))
    ensures Merge(c, r).phone == c.phone || Merge(c, r).phone == Some(NormPhone(r.phone))
  {
  }

  /** The importer's variables between two rows. */
  datatype ImportState = ImportState(contacts: seq<Contact>, byEmail: Index, byPhone: Index, result: ImportResult)

  /** Every entry of `m` names a contact of `cs` whose key is the entry's key. */
  predicate IndexOk(m: Index, cs: seq<Contact>, key: Contact -> Option<string>) {
    forall k :: k in m ==> m[k] < |cs| && key(cs[m[k]]) == Some(k)
  }

  /** Every dictionary entry names a contact that has that key. */
  predicate Valid(st: ImportState) {
    IndexOk(st.byEmail, st.contacts, EmailKey) && IndexOk(st.byPhone, st.contacts, PhoneKey)
  }

  /** Replacing a contact by one with the same key keeps an index valid. */
  lemma IndexOkUpdate(m: Index, cs: seq<Contact>, key: Contact -> Option<string>, i: nat, c: Contact)
    requires IndexOk(m, cs, key) && i < |cs| && (key(cs[i]).Some? ==> key(c) == key(cs[i]))
    ensures IndexOk(m, cs[i := c], key)
  {
    forall k | k in m ensures m[k] < |cs[i := c]| && key(cs[i := c][m[k]]) == Some(k) {
      if m[k] == i {
        assert key(cs[i]) == Some(k);
      }
    }
  }

  /** Appending a contact keeps an index valid, also when the contact is entered under a fresh key of its own. */
  lemma IndexOkAppend(m: Index, cs: seq<Contact>, key: Contact -> Option<string>, c: Contact, k: string, enter: bool)
    requires IndexOk(m, cs, key)
    requires enter ==> key(c) == Some(k)
    ensures IndexOk(if enter then m[k := |cs|] else m, cs + [c], key)
  {
    var m' := if enter then m[k := |cs|] else m;
    forall j | j in m' ensures m'[j] < |cs + [c]| && key((cs + [c])[m'[j]]) == Some(j) {
      if enter && j == k {
        assert (cs + [c])[|cs|] == c;
      } else {
        assert (cs + [c])[m[j]] == cs[m[j]];
      }
    }
  }

  /** A filled email or phone survives a merge, so the contact's keys do too. */
  lemma MergeKeepsKeys(c: Contact, r: CsvRow)
    ensures EmailKey(c).Some? ==> EmailKey(Merge(c, r)) == EmailKey(c)
    ensures PhoneKey(c).Some? ==> PhoneKey(Merge(c, r)) == PhoneKey(c)
  {
  }

  /** A created contact has the row's normalised email and phone as its keys. */
  lemma CreatedKeys(r: CsvRow)
    ensures NormEmail(r.email) != "" ==> EmailKey(Merge(BlankContact, r)) == Some(NormEmail(r.email))
    ensures NormPhone(r.phone) != "" ==> PhoneKey(Merge(BlankContact, r)) == Some(NormPhone(r.phone))
  {
    LowerStrIdempotent(r.email);
    DigitsOnlyExact(r.phone);
  }

  /** `existing`: the contact under the row's email, else the one under its phone. */
  function Existing(byEmail: Index, byPhone: Index, normEmail: string, normPhone: string): (r: Option<nat>)
    ensures normEmail != "" && normEmail in byEmail ==> r == Some(byEmail[normEmail])
    ensures (normEmail == "" || normEmail !in byEmail) && normPhone != "" && normPhone in byPhone ==>
      r == Some(byPhone[normPhone])
    ensures (normEmail == "" || normEmail !in byEmail) && (normPhone == "" || normPhone !in byPhone) ==> r == None
  {
    if normEmail != "" && normEmail in byEmail then Some(byEmail[normEmail])
    else if normPhone != "" && normPhone in byPhone then Some(byPhone[normPhone])
    else None
  }

  /** One pass of the row loop. */
  function Step(st: ImportState, r: CsvRow): (st': ImportState)
    requires Valid(st)
    ensures Valid(st')
  {
    var e, p := NormEmail(r.email), NormPhone(r.phone);
    match Existing(st.byEmail, st.byPhone, e, p)
    case Some(i) =>
      var c := Merge(st.contacts[i], r);
      MergeKeepsKeys(st.contacts[i], r);
      IndexOkUpdate(st.byEmail, st.contacts, EmailKey, i, c);
      IndexOkUpdate(st.byPhone, st.contacts, PhoneKey, i, c);
      st.(contacts := st.contacts[i := c], result := st.result.(updated := st.result.updated + 1))
    case None =>
      var n := |st.contacts|;
      var c := Merge(BlankContact, r);
      CreatedKeys(r);
      IndexOkAppend(st.byEmail, st.contacts, EmailKey, c, e, e != "");
      IndexOkAppend(st.byPhone, st.contacts, PhoneKey, c, p, p != "");
      var byEmail := if e != "" then st.byEmail[e := n] else st.byEmail;
      var byPhone := if p != "" then st.byPhone[p := n] else st.byPhone;
      ImportState(st.contacts + [c], byEmail, byPhone, st.result.(created := st.result.created + 1))
  }

  /** The row loop from state `st` over `rows`. */
  function ImportAll(st: ImportState, rows: seq<CsvRow>): (st': ImportState)
    requires Valid(st)
    ensures Valid(st')
    decreases |rows|
  {
    if rows == [] then st else ImportAll(Step(st, rows[0]), rows[1..])
  }

  /** The state before the first row: the preloaded dictionaries and zero counters. */
  function Start(all: seq<Contact>): (st: ImportState)
    ensures Valid(st)
  {
    ImportState(all, IndexOf(all, EmailKey), IndexOf(all, PhoneKey), ImportResult(0, 0, 0))
  }

  /**
   * Every row is counted once, as created or as updated; `skipped` never
   * moves; each created row adds one contact and no contact goes away.
   */
  lemma {:induction false} ImportCounts(st: ImportState, rows: seq<CsvRow>)
    requires Valid(st)
    ensures var st' := ImportAll(st, rows);
      && st'.result.created + st'.result.updated == st.result.created + st.result.updated + |rows|
      && st'.result.skipped == st.result.skipped
      && |st'.contacts| == |st.contacts| + (st'.result.created - st.result.created)
    decreases |rows|
  {
    if rows != [] {
      ImportCounts(Step(st, rows[0]), rows[1..]);
    }
  }

  /** No field that was filled before the import is changed by it, for the contacts that were already there. */
  lemma {:induction false} ImportNoOverwrite(st: ImportState, rows: seq<CsvRow>)
    requires Valid(st)
    ensures |ImportAll(st, rows).contacts| >= |st.contacts|
    ensures forall i :: 0 <= i < |st.contacts| ==> NoOverwrite(st.contacts[i], ImportAll(st, rows).contacts[i])
    decreases |rows|
  {
    if rows != [] {
      var next := Step(st, rows[0]);
      var last := ImportAll(next, rows[1..]);
      assert ImportAll(st, rows) == last;
      StepNoOverwrite(st, rows[0]);
      ImportNoOverwrite(next, rows[1..]);
      forall i | 0 <= i < |st.contacts|
        ensures NoOverwrite(st.contacts[i], last.contacts[i])
      {
        NoOverwriteTrans(st.contacts[i], next.contacts[i], last.contacts[i]);
      }
    }
  }

  /** One row fills only empty fields of the contacts that were already there. */
  lemma StepNoOverwrite(st: ImportState, r: CsvRow)
    requires Valid(st)
    ensures |Step(st, r).contacts| >= |st.contacts|
    ensures forall i :: 0 <= i < |st.contacts| ==> NoOverwrite(st.contacts[i], Step(st, r).contacts[i])
  {
    forall i | 0 <= i < |st.contacts| ensures NoOverwrite(st.contacts[i], Step(st, r).contacts[i]) {
      MergeFillsOnly(st.contacts[i], r);
    }
  }

  lemma NoOverwriteTrans(a: Contact, b: Contact, c: Contact)
    requires NoOverwrite(a, b) && NoOverwrite(b, c)
    ensures NoOverwrite(a, c)
  {
  }

  /**
   * A dictionary entry, once made, is never overwritten: a contact is only
   * entered under keys that no entry has yet.
   */
  lemma {:induction false} ImportKeepsEntries(st: ImportState, rows: seq<CsvRow>)
    requires Valid(st)
    ensures forall k :: k in st.byEmail ==>
      k in ImportAll(st, rows).byEmail && ImportAll(st, rows).byEmail[k] == st.byEmail[k]
    ensures forall k :: k in st.byPhone ==>
      k in ImportAll(st, rows).byPhone && ImportAll(st, rows).byPhone[k] == st.byPhone[k]
    decreases |rows|
  {
    if rows != [] {
      var next := Step(st, rows[0]);
      assert ImportAll(st, rows) == ImportAll(next, rows[1..]);
      StepKeepsEntries(st, rows[0]);
      ImportKeepsEntries(next, rows[1..]);
    }
  }

  /** One row only adds dictionary entries. */
  lemma StepKeepsEntries(st: ImportState, r: CsvRow)
    requires Valid(st)
    ensures forall k :: k in st.byEmail ==> k in Step(st, r).byEmail && Step(st, r).byEmail[k] == st.byEmail[k]
    ensures forall k :: k in st.byPhone ==> k in Step(st, r).byPhone && Step(st, r).byPhone[k] == st.byPhone[k]
  {
    var e, p := NormEmail(r.email), NormPhone(r.phone);
    var st' := Step(st, r);
    if Existing(st.byEmail, st.byPhone, e, p).Some? {
      assert st'.byEmail == st.byEmail && st'.byPhone == st.byPhone;
    } else {
      assert e != "" ==> e !in st.byEmail;
      assert st'.byEmail == if e != "" then st.byEmail[e := |st.contacts|] else st.byEmail;
      assert st'.byPhone == if p != "" then st.byPhone[p := |st.contacts|] else st.byPhone;
    }
  }

  /**
   * A row that creates a contact enters it under its email and phone, and
   * the entries stay: after any further rows, a later row with that email,
   * or with that phone and no email entry, updates the created contact
   * instead of creating another, and the contact still has that email.
   */
  lemma CreatedIsMatchable(st: ImportState, r: CsvRow, between: seq<CsvRow>, later: CsvRow)
    requires Valid(st) && Existing(st.byEmail, st.byPhone, NormEmail(r.email), NormPhone(r.phone)).None?
    ensures var st' := ImportAll(Step(st, r), between);
      var n := |st.contacts|;
      && |Step(st, r).contacts| == n + 1
      && (NormEmail(r.email) != "" ==>
            n < |st'.contacts| && EmailKey(st'.contacts[n]) == Some(NormEmail(r.email)))
      && (NormEmail(r.email) != "" && NormEmail(later.email) == NormEmail(r.email) ==>
            Existing(st'.byEmail, st'.byPhone, NormEmail(later.email), NormPhone(later.phone)) == Some(n))
      && (NormPhone(r.phone) != "" && NormPhone(later.phone) == NormPhone(r.phone)
          && (NormEmail(later.email) == "" || NormEmail(later.email) !in st'.byEmail) ==>
            Existing(st'.byEmail, st'.byPhone, NormEmail(later.email), NormPhone(later.phone)) == Some(n))
  {
    var e, p := NormEmail(r.email), NormPhone(r.phone);
    var s1 := Step(st, r);
    var n := |st.contacts|;
    assert s1.contacts == st.contacts + [Merge(BlankContact, r)];
    assert e != "" ==> e in s1.byEmail && s1.byEmail[e] == n;
    assert p != "" ==> p in s1.byPhone && s1.byPhone[p] == n;
    ImportKeepsEntries(s1, between);
  }

  /** The body of the row loop: match, create or update, fill, and index a created contact. */
  method ImportRow(row: CsvRow, ctx: ObjectContext, byEmail: Index, byPhone: Index, result: ImportResult)
    returns (byEmail': Index, byPhone': Index, result': ImportResult)
    requires Valid(ImportState(ctx.contacts, byEmail, byPhone, result))
    modifies ctx`contacts
    ensures ImportState(ctx.contacts, byEmail', byPhone', result')
      == Step(ImportState(old(ctx.contacts), byEmail, byPhone, result), row)
  {
    byEmail', byPhone', result' := byEmail, byPhone, result;
    var normEmail := NormEmail(row.email);
    var normPhone := NormPhone(row.phone);
    var existing := Existing(byEmail, byPhone, normEmail, normPhone);
    if existing.Some? {
      var c := existing.value;
      ctx.contacts := ctx.contacts[c := Merge(ctx.contacts[c], row)];
      result' := result.(updated := result.updated + 1);
    } else {
      var c: nat := |ctx.contacts|;
      ctx.contacts := ctx.contacts + [Merge(BlankContact, row)];
      result' := result.(created := result.created + 1);
      if normEmail != "" {
        byEmail' := byEmail[normEmail := c];
      }
      if normPhone != "" {
        byPhone' := byPhone[normPhone := c];
      }
    }
  }

  /**
   * `CSVparser.importRows(_:into:)`. A failed fetch throws before anything
   * changes; a failed save throws after the contacts were merged into the
   * context, where they stay. The counters are returned when nothing throws.
   */
  method ImportRows(rows: seq<CsvRow>, ctx: ObjectContext, fetchOk: bool, saveOk: bool)
    returns (r: Option<ImportResult>)
    modifies ctx`contacts
    ensures !fetchOk ==> r.None? && ctx.contacts == old(ctx.contacts)
    ensures fetchOk ==> ctx.contacts == ImportAll(Start(old(ctx.contacts)), rows).contacts
    ensures fetchOk && saveOk ==> r == Some(ImportAll(Start(old(ctx.contacts)), rows).result)
    ensures fetchOk && !saveOk ==> r.None?
  {
    if !fetchOk {
      return None;
    }
    var byEmail: Index, byPhone: Index := Preload(ctx.contacts);
    var result := ImportResult(0, 0, 0);
    ghost var start := Start(ctx.contacts);
    var i := 0;
    while i < |rows|
      invariant 0 <= i <= |rows|
      invariant Valid(ImportState(ctx.contacts, byEmail, byPhone, result))
      invariant ImportAll(ImportState(ctx.contacts, byEmail, byPhone, result), rows[i..]) == ImportAll(start, rows)
    {
      ghost var st := ImportState(ctx.contacts, byEmail, byPhone, result);
      byEmail, byPhone, result := ImportRow(rows[i], ctx, byEmail, byPhone, result);
      assert rows[i..][1..] == rows[i + 1..];
      assert ImportAll(st, rows[i..]) == ImportAll(Step(st, rows[i]), rows[i + 1..]);
      i := i + 1;
    }
    assert rows[i..] == [];
    if saveOk {
      r := Some(result);
    } else {
      r := None;
    }
  }
}

=== FILE: intel.dfy ===
/**
 * The deterministic part of `Intel`: the source text handed to the
 * summariser, the local fallback summary of an opportunity, and the local
 * fallback cover letter. The language-model and summarisation sessions are
 * not part of this model.
 */
module Intel {
  import opened Wrappers
  import opened Text
  import opened Records
  import opened OpportunityView
  import Profiles
  import ProfileLifecycle

  /** `tidy`: an optional attribute, `""` for none, trimmed of whitespace and newlines. */
  function Tidy(s: Option<string>): (r: string)
    ensures r == [] || (!InClass(r[0], WhitespacesAndNewlines) && !InClass(r[|r| - 1], WhitespacesAndNewlines))
  {
    Trim(if s.Some? then s.value else "", WhitespacesAndNewlines)
  }

  /** The components `sourceText` keeps, in its order. */
  function SourceParts(title: string, company: string, location: string, desc: string): seq<string> {
    KeepIf(title != "", title) + KeepIf(company != "", "at " + company)
    + KeepIf(location != "", "(" + location + ")") + KeepIf(desc != "", desc)
  }

  /** The appending half of `sourceText(from:)`, on the tidied attributes. */
  method Components(title: string, company: string, location: string, desc: string)
    returns (components: seq<string>)
    ensures components == SourceParts(title, company, location, desc)
  {
    components := [];
    AppendKept(components, title != "", title);
    if title != "" {
      components := components + [title];
    }
    assert components == KeepIf(title != "", title);
    AppendKept(components, company != "", "at " + company);
    if company != "" {
      components := components + ["at " + company];
    }
    AppendKept(components, location != "", "(" + location + ")");
    if location != "" {
      components := components + ["(" + location + ")"];
    }
    AppendKept(components, desc != "", desc);
    if desc != "" {
      components := components + [desc];
    }
  }

  /** `sourceText(from:)`: the non-empty components joined with spaces. */
  method SourceText(opp: Opportunity) returns (r: string)
    ensures r == Join(SourceParts(Tidy(opp.title), Tidy(opp.company), Tidy(opp.location), Tidy(opp.desc)), " ")
  {
    var components := Components(Tidy(opp.title), Tidy(opp.company), Tidy(opp.location), Tidy(opp.desc));
    r := Join(components, " ");
  }

  /** The source text is empty exactly when all four attributes are blank. */
  lemma SourceTextEmpty(title: string, company: string, location: string, desc: string)
    ensures Join(SourceParts(title, company, location, desc), " ") == ""
      <==> title == "" && company == "" && location == "" && desc == ""
  {
    JoinEmpty(SourceParts(title, company, location, desc), " ");
  }

  /** With every attribute present: "title at company (location) desc". */
  lemma SourceTextFull(title: string, company: string, location: string, desc: string)
    requires title != "" && company != "" && location != "" && desc != ""
    ensures Join(SourceParts(title, company, location, desc), " ")
      == title + " at " + company + " (" + location + ") " + desc
  {
    var parts := SourceParts(title, company, location, desc);
    assert parts == [title, "at " + company, "(" + location + ")", desc];
    assert parts[1..][1..][1..] == [desc];
    assert Join(parts[1..][1..], " ") == "(" + location + ")" + " " + desc;
  }

  /** "title at company", from the non-empty ones. */
  function HeaderPrefix(title: string, company: string): string {
    Join(KeepIf(title != "", title) + KeepIf(company != "", "at " + company), " ")
  }

  /** The fallback header: the prefix, with " — (location)" or just "(location)" when there is a location. */
  function Header(title: string, company: string, location: string): string {
    var prefix := HeaderPrefix(title, company);
    if location == "" then prefix
    else if prefix == "" then "(" + location + ")"
    else prefix + " — (" + location + ")"
  }

  /** The header is empty exactly when title, company and location are all empty. */
  lemma HeaderEmpty(title: string, company: string, location: string)
    ensures Header(title, company, location) == "" <==> title == "" && company == "" && location == ""
  {
    JoinEmpty(KeepIf(title != "", title) + KeepIf(company != "", "at " + company), " ");
  }

  /** With all three present: "title at company — (location)". */
  lemma HeaderFull(title: string, company: string, location: string)
    requires title != "" && company != "" && location != ""
    ensures Header(title, company, location) == title + " at " + company + " — (" + location + ")"
  {
    assert KeepIf(title != "", title) + KeepIf(company != "", "at " + company) == [title, "at " + company];
    JoinTwo(title, "at " + company, " ");
  }

  /** Section headings that never become a bullet. */
  const HeadingStoplist: set<string> := {
    "inspiration", "what it does", "how we built it",
    "challenges we ran into", "accomplishments that we're proud of",
    "what we learned", "what's next for shukatsu", "summary" }

  /** The characters the description is first split on. */
  const BreakChars: set<char> := {'\n', '•', '-'}

  /** The second split: on ". ". */
  function SplitSentences(s: string): seq<string> {
    SplitOn(s, ". ")
  }

  function TrimAll(xs: seq<string>): (r: seq<string>)
    ensures |r| == |xs|
    ensures forall i :: 0 <= i < |xs| ==> r[i] == Trim(xs[i], WhitespacesAndNewlines)
    ensures forall i :: 0 <= i < |xs| ==> IsInfix(r[i], xs[i])
    ensures forall i :: 0 <= i < |xs| ==>
      r[i] == [] || (!InClass(r[i][0], WhitespacesAndNewlines) && !InClass(r[i][|r[i]| - 1], WhitespacesAndNewlines))
  {
    seq(|xs|, i requires 0 <= i < |xs| => Trim(xs[i], WhitespacesAndNewlines))
  }

  predicate LongEnough(c: string) {
    c != "" && |c| > 3
  }

  predicate NotHeading(c: string) {
    LowerStr(c) !in HeadingStoplist
  }

  /** The pieces of the clipped description before trimming and filtering. */
  function Pieces(desc: string): seq<string> {
    FlatMap(SplitOnChars(Take(desc, 1400), BreakChars), SplitSentences)
  }

  /** The candidate bullet chunks of a (tidied) description, before de-duplication. */
  function Chunks(desc: string): seq<string> {
    Filter(Filter(TrimAll(Pieces(desc)), LongEnough), NotHeading)
  }

  lemma InfixAvoids(p: string, s: string, cs: set<char>)
    requires IsInfix(p, s) && forall j :: 0 <= j < |s| ==> s[j] !in cs
    ensures forall j :: 0 <= j < |p| ==> p[j] !in cs
  {
    var i :| 0 <= i <= |s| && StartsWith(s[i..], p);
    forall j | 0 <= j < |p| ensures p[j] !in cs {
      assert p[j] == s[i..][j] == s[i + j];
    }
  }

  /** Every piece lies inside the first 1400 characters of the description and holds none of the break characters. */
  lemma {:induction false} PieceFrom(desc: string, k: nat)
    requires k < |Pieces(desc)|
    ensures IsInfix(Pieces(desc)[k], Take(desc, 1400))
    ensures forall j :: 0 <= j < |Pieces(desc)[k]| ==> Pieces(desc)[k][j] !in BreakChars
  {
    var clipped := Take(desc, 1400);
    var parts := SplitOnChars(clipped, BreakChars);
    FlatMapFrom(parts, SplitSentences);
    var p := Pieces(desc)[k];
    assert InImage(p, parts, SplitSentences);
    var i :| 0 <= i < |parts| && p in SplitSentences(parts[i]);
    var m :| 0 <= m < |SplitOn(parts[i], ". ")| && SplitOn(parts[i], ". ")[m] == p;
    SplitOnPieces(parts[i], ". ");
    SplitOnCharsPieces(clipped, BreakChars);
    SplitOnCharsNoSep(clipped, BreakChars);
    InfixTrans(p, parts[i], clipped);
    InfixAvoids(p, parts[i], BreakChars);
  }

  /** A trimmed piece is still a stretch of the clipped description free of break characters. */
  lemma TrimmedPieceFrom(desc: string, n: nat)
    requires n < |Pieces(desc)|
    ensures IsInfix(TrimAll(Pieces(desc))[n], Take(desc, 1400))
    ensures forall j :: 0 <= j < |TrimAll(Pieces(desc))[n]| ==> TrimAll(Pieces(desc))[n][j] !in BreakChars
  {
    var p := Pieces(desc)[n];
    var c := TrimAll(Pieces(desc))[n];
    PieceFrom(desc, n);
    InfixTrans(c, p, Take(desc, 1400));
    InfixAvoids(c, p, BreakChars);
  }

  /** The filters keep only trimmed pieces. */
  lemma ChunkIsTrimmedPiece(desc: string, k: nat) returns (n: nat)
    requires k < |Chunks(desc)|
    ensures n < |Pieces(desc)| && TrimAll(Pieces(desc))[n] == Chunks(desc)[k]
  {
    var c := Chunks(desc)[k];
    var trimmed := TrimAll(Pieces(desc));
    var long := Filter(trimmed, LongEnough);
    assert c in long;
    var i :| 0 <= i < |long| && long[i] == c;
    assert long[i] in trimmed;
    n :| 0 <= n < |trimmed| && trimmed[n] == c;
  }

  /**
   * Each chunk is trimmed, longer than three characters, not a heading of
   * the stoplist in any letter case, and a stretch of the first 1400
   * characters of the description containing no newline, bullet or hyphen.
   */
  lemma ChunkShape(desc: string, k: nat)
    requires k < |Chunks(desc)|
    ensures var c := Chunks(desc)[k];
      && |c| > 3 && LowerStr(c) !in HeadingStoplist
      && !InClass(c[0], WhitespacesAndNewlines) && !InClass(c[|c| - 1], WhitespacesAndNewlines)
      && IsInfix(c, Take(desc, 1400))
      && forall j :: 0 <= j < |c| ==> c[j] !in BreakChars
  {
    var n := ChunkIsTrimmedPiece(desc, k);
    TrimmedPieceFrom(desc, n);
  }

  /** The case-insensitive key chunks are de-duplicated on. */
  function Key(c: string): string {
    LowerStr(c)
  }

  /** The `seen`-set filter: drops every chunk whose key is in `seen` or was met earlier. */
  function DedupFrom(xs: seq<string>, seen: set<string>): seq<string>
    decreases |xs|
  {
    if xs == [] then []
    else if Key(xs[0]) in seen then DedupFrom(xs[1..], seen)
    else [xs[0]] + DedupFrom(xs[1..], seen + {Key(xs[0])})
  }

  /** The de-duplication loop, which grows `seen` while filtering. */
  method Dedup(chunks: seq<string>) returns (r: seq<string>)
    ensures r == DedupFrom(chunks, {})
  {
    var seen: set<string> := {};
    r := [];
    var i := 0;
    while i < |chunks|
      invariant 0 <= i <= |chunks|
      invariant r + DedupFrom(chunks[i..], seen) == DedupFrom(chunks, {})
    {
      var key := Key(chunks[i]);
      assert chunks[i..][1..] == chunks[i + 1..];
      if key !in seen {
        seen := seen + {key};
        r := r + [chunks[i]];
      }
      i := i + 1;
    }
  }

  /**
   * De-duplication keeps chunks in their order, keeps no two with the same
   * key and none whose key was seen, and keeps every chunk whose key is new
   * at its position.
   */
  lemma {:induction false} DedupFacts(xs: seq<string>, seen: set<string>)
    ensures var r := DedupFrom(xs, seen);
      && (forall k :: 0 <= k < |r| ==> Key(r[k]) !in seen)
      && (forall i, j :: 0 <= i < j < |r| ==> Key(r[i]) != Key(r[j]))
      && Subsequence(r, xs)
      && (forall i :: 0 <= i < |xs| && Key(xs[i]) !in seen && (forall j :: 0 <= j < i ==> Key(xs[j]) != Key(xs[i])) ==> xs[i] in r)
    decreases |xs|
  {
    if xs != [] {
      var r := DedupFrom(xs, seen);
      var x := xs[0];
      if Key(x) in seen {
        DedupFacts(xs[1..], seen);
        forall i | 0 <= i < |xs| && Key(xs[i]) !in seen && (forall j :: 0 <= j < i ==> Key(xs[j]) != Key(xs[i]))
          ensures xs[i] in r
        {
          assert i > 0 && xs[1..][i - 1] == xs[i];
          forall j | 0 <= j < i - 1 ensures Key(xs[1..][j]) != Key(xs[1..][i - 1]) {
            assert xs[1..][j] == xs[j + 1];
          }
        }
        assert r == [] || r[0] != x;
      } else {
        var seen' := seen + {Key(x)};
        var rest := DedupFrom(xs[1..], seen');
        DedupFacts(xs[1..], seen');
        assert r == [x] + rest && r[1..] == rest;
        forall i, j | 0 <= i < j < |r| ensures Key(r[i]) != Key(r[j]) {
          if i > 0 {
            assert r[i] == rest[i - 1] && r[j] == rest[j - 1];
          } else {
            assert r[j] == rest[j - 1];
          }
        }
        forall i | 0 <= i < |xs| && Key(xs[i]) !in seen && (forall j :: 0 <= j < i ==> Key(xs[j]) != Key(xs[i]))
          ensures xs[i] in r
        {
          if i > 0 {
            assert xs[1..][i - 1] == xs[i] && Key(xs[0]) != Key(xs[i]);
            forall j | 0 <= j < i - 1 ensures Key(xs[1..][j]) != Key(xs[1..][i - 1]) {
              assert xs[1..][j] == xs[j + 1];
            }
            assert xs[i] in rest;
          }
        }
      }
    }
  }

  /** Every key of the input survives de-duplication. */
  lemma DedupKeepsKeys(xs: seq<string>, i: nat)
    requires i < |xs|
    ensures exists k :: 0 <= k < |DedupFrom(xs, {})| && Key(DedupFrom(xs, {})[k]) == Key(xs[i])
  {
    var f :| 0 <= f <= i && Key(xs[f]) == Key(xs[i]) && forall j :: 0 <= j < f ==> Key(xs[j]) != Key(xs[i]) by {
      FirstWithKey(xs, i, i);
    }
    DedupFacts(xs, {});
    var r := DedupFrom(xs, {});
    assert xs[f] in r;
    var k :| 0 <= k < |r| && r[k] == xs[f];
  }

  lemma {:induction false} FirstWithKey(xs: seq<string>, i: nat, upto: nat)
    requires upto <= i < |xs| && Key(xs[upto]) == Key(xs[i])
    ensures exists f :: 0 <= f <= i && Key(xs[f]) == Key(xs[i]) && forall j :: 0 <= j < f ==> Key(xs[j]) != Key(xs[i])
    decreases upto
  {
    if exists j :: 0 <= j < upto && Key(xs[j]) == Key(xs[i]) {
      var j :| 0 <= j < upto && Key(xs[j]) == Key(xs[i]);
      FirstWithKey(xs, i, j);
    }
  }

  /** One bullet line. */
  function Bullet(c: string): string {
    "• " + c + "."
  }

  /** The first four chunks as bullet lines, in order. */
  function BulletLines(chunks: seq<string>): (r: seq<string>)
    ensures |r| <= 4 && |r| == |Take(chunks, 4)|
    ensures forall i :: 0 <= i < |r| ==> r[i] == Bullet(chunks[i])
  {
    seq(|Take(chunks, 4)|, i requires 0 <= i < |Take(chunks, 4)| => Bullet(chunks[i]))
  }

  /** The bullet block. */
  function Bullets(chunks: seq<string>): string {
    Join(BulletLines(chunks), "\n")
  }

  /** There are bullets exactly when there are chunks, and the block opens with the first one. */
  lemma BulletsShape(chunks: seq<string>)
    ensures Bullets(chunks) == "" <==> chunks == []
    ensures chunks != [] ==> StartsWith(Bullets(chunks), Bullet(chunks[0])) && Bullets(chunks)[0] == '•'
  {
    var lines := BulletLines(chunks);
    JoinEmpty(lines, "\n");
    if |lines| >= 2 {
      assert Bullets(chunks) == lines[0] + ("\n" + Join(lines[1..], "\n"));
    }
  }

  const NoDetails := "(No details to summarize.)"

  /** The summary line that carries the header. */
  function HeaderLine(header: string, statusLabel: string): string {
    "**" + header + "** · Status: " + statusLabel
  }

  /** The last step of `fallback()`: the placeholder, or the header line and/or the bullets. */
  function Summary(header: string, statusLabel: string, bullets: string): string {
    if header == "" && bullets == "" then NoDetails
    else Join(KeepIf(header != "", HeaderLine(header, statusLabel)) + KeepIf(bullets != "", bullets), "\n\n")
  }

  /** The whole fallback summary of an opportunity. */
  function FallbackSummary(opp: Opportunity): string {
    Summary(Header(Tidy(opp.title), Tidy(opp.company), Tidy(opp.location)),
            Label(WrappedStatus(opp)),
            Bullets(DedupFrom(Chunks(Tidy(opp.desc)), {})))
  }

  /** `fallback()` inside `summarizeOpportunity`. */
  method Fallback(opp: Opportunity) returns (r: string)
    ensures r == FallbackSummary(opp)
  {
    var title, company, location := Tidy(opp.title), Tidy(opp.company), Tidy(opp.location);
    var status := Label(WrappedStatus(opp));
    var descRaw := Tidy(opp.desc);
    var header := FallbackHeader(title, company, location);
    var chunks := Chunks(descRaw);
    chunks := Dedup(chunks);
    var bullets := Bullets(chunks);
    r := Assemble(header, status, bullets);
  }

  /** The header-building steps of `fallback()`. */
  method FallbackHeader(title: string, company: string, location: string) returns (header: string)
    ensures header == Header(title, company, location)
  {
    var headerParts: seq<string> := [];
    AppendKept(headerParts, title != "", title);
    if title != "" {
      headerParts := headerParts + [title];
    }
    AppendKept(headerParts, company != "", "at " + company);
    if company != "" {
      headerParts := headerParts + ["at " + company];
    }
    var headerPrefix := Join(headerParts, " ");
    header := if location == "" then headerPrefix
      else if headerPrefix == "" then "(" + location + ")"
      else headerPrefix + " — (" + location + ")";
  }

  /** The closing steps of `fallback()`: the placeholder, or the header line and the bullets joined by a blank line. */
  method Assemble(header: string, status: string, bullets: string) returns (r: string)
    ensures r == Summary(header, status, bullets)
  {
    if header == "" && bullets == "" {
      return NoDetails;
    }
    var out: seq<string> := [];
    AppendKept(out, header != "", HeaderLine(header, status));
    if header != "" {
      out := out + [HeaderLine(header, status)];
    }
    AppendKept(out, bullets != "", bullets);
    if bullets != "" {
      out := out + [bullets];
    }
    r := Join(out, "\n\n");
  }

  /** How `Summary` combines its parts, for a bullet block that is empty or opens with a bullet. */
  lemma SummaryCases(header: string, statusLabel: string, bullets: string)
    requires bullets == "" || bullets[0] == '•'
    ensures Summary(header, statusLabel, bullets) == NoDetails <==> header == "" && bullets == ""
    ensures header != "" && bullets == "" ==> Summary(header, statusLabel, bullets) == HeaderLine(header, statusLabel)
    ensures header != "" && bullets != "" ==>
      Summary(header, statusLabel, bullets) == HeaderLine(header, statusLabel) + "\n\n" + bullets
    ensures header == "" && bullets != "" ==> Summary(header, statusLabel, bullets) == bullets
  {
    var line := HeaderLine(header, statusLabel);
    if header != "" && bullets != "" {
      assert KeepIf(true, line) + KeepIf(true, bullets) == [line, bullets];
      JoinTwo(line, bullets, "\n\n");
    } else if header != "" {
      assert KeepIf(true, line) + KeepIf(false, bullets) == [line];
    } else if bullets != "" {
      assert KeepIf(false, line) + KeepIf(true, bullets) == [bullets];
    }
    if header != "" {
      assert Summary(header, statusLabel, bullets)[0] == '*';
    }
  }

  /**
   * The placeholder comes out exactly when title, company and location are
   * blank and the description yields no chunk; otherwise the result is the
   * header line and the bullets, whichever are present, a blank line apart.
   */
  lemma FallbackCases(opp: Opportunity)
    ensures var title, company, location := Tidy(opp.title), Tidy(opp.company), Tidy(opp.location);
      var chunks := Chunks(Tidy(opp.desc));
      var line := HeaderLine(Header(title, company, location), Label(WrappedStatus(opp)));
      var bullets := Bullets(DedupFrom(chunks, {}));
      && (FallbackSummary(opp) == NoDetails <==> title == "" && company == "" && location == "" && chunks == [])
      && (Header(title, company, location) != "" && chunks == [] ==> FallbackSummary(opp) == line)
      && (Header(title, company, location) != "" && chunks != [] ==> FallbackSummary(opp) == line + "\n\n" + bullets)
      && (Header(title, company, location) == "" && chunks != [] ==> FallbackSummary(opp) == bullets)
  {
    var title, company, location := Tidy(opp.title), Tidy(opp.company), Tidy(opp.location);
    var chunks := Chunks(Tidy(opp.desc));
    var deduped := DedupFrom(chunks, {});
    HeaderEmpty(title, company, location);
    BulletsShape(deduped);
    DedupEmpty(chunks);
    SummaryCases(Header(title, company, location), Label(WrappedStatus(opp)), Bullets(deduped));
  }

  /** De-duplication empties a list only when it was empty. */
  lemma DedupEmpty(xs: seq<string>)
    ensures DedupFrom(xs, {}) == [] <==> xs == []
  {
  }

  /** `roleForPrompt`: the title, else the role saved in the settings, else "the role". */
  function RoleForPrompt(title: string, settingsRole: string): (r: string)
    ensures r == title || r == settingsRole || r == "the role"
    ensures title != "" ==> r == title
    ensures title == "" && settingsRole != "" ==> r == settingsRole
    ensures title == "" && settingsRole == "" ==> r == "the role"
  {
    if title == "" then (if settingsRole == "" then "the role" else settingsRole) else title
  }

  /** Whom the fallback letter addresses: the company, else "your team". */
  function Addressee(company: string): (r: string)
    ensures company != "" ==> r == company
  {
    if company == "" then "your team" else company
  }

  /** The role and the addressee of the letter are never empty. */
  lemma RoleAndAddresseeNonEmpty(title: string, settingsRole: string, company: string)
    ensures RoleForPrompt(title, settingsRole) != "" && Addressee(company) != ""
    ensures title == "" && settingsRole == "" ==> RoleForPrompt(title, settingsRole) == "the role"
    ensures company == "" ==> Addressee(company) == "your team"
  {
  }

  /** `DraftResult`. */
  datatype DraftResult = DraftResult(text: string, isAI: bool)

  /** A saved preference under `key`, `""` when absent, trimmed. */
  function SavedSetting(defaults: map<string, string>, key: string): string {
    Trim(if key in defaults then defaults[key] else "", WhitespacesAndNewlines)
  }

  const Greeting := "Dear Hiring Manager,"
  const Intro := "\n\nI am writing to express interest in "
  const Pitch := " My background in Swift, SwiftUI, and macOS app development aligns with your needs. I focus on clean architecture, testing, and shipping product-focused features.\n\nI would welcome the chance to discuss how I can contribute. Thank you for your time and consideration.\n\n"
  const Closing := "Sincerely,\n"

  /** The template, filled with the role and addressee (`middle`) and the user name. */
  function Letter(middle: string, userName: string): string {
    Greeting + Intro + middle + "." + Pitch + Closing + userName
  }

  /**
   * The id under which `Intel` reads its settings: the current profile of a
   * `ProfileManager()` made on the spot, whose constructor loads the roster
   * from `listing` and chooses by the saved last-used id.
   */
  function FreshCurrentId(defaults: map<string, string>, listing: Option<seq<Profiles.DirEntry>>): string {
    Profiles.ChooseCurrent(Profiles.RosterOf(if listing.Some? then listing.value else []),
      ProfileLifecycle.Saved(defaults), Profiles.DefaultProfile).id
  }

  /**
   * The fallback of `coverLetter(for:)`: the template filled with the role,
   * the addressee and the user name saved for the current profile.
   */
  function FallbackLetter(opp: Opportunity, defaults: map<string, string>, listing: Option<seq<Profiles.DirEntry>>): DraftResult {
    var profileId := FreshCurrentId(defaults, listing);
    var role := RoleForPrompt(Tidy(opp.title), SavedSetting(defaults, Profiles.NamespacedKey("UserRole", profileId)));
    var userName := SavedSetting(defaults, Profiles.NamespacedKey("UserName", profileId));
    DraftResult(Letter(role + " at " + Addressee(Tidy(opp.company)), userName), false)
  }

  lemma {:induction false} ConcatShape(a: string, b: string, m: string, c: string, d: string, u: string)
    ensures StartsWith(a + b + m + "." + c + d + u, a)
    ensures IsInfix(m + ".", a + b + m + "." + c + d + u)
    ensures EndsWith(a + b + m + "." + c + d + u, d + u)
  {
    var text := a + b + m + "." + c + d + u;
    assert text == a + (b + m + "." + c + d + u);
    assert text[..|a|] == a;
    assert text == (a + b + m + "." + c) + (d + u);
    assert text[|text| - |d + u|..] == d + u;
    assert text == (a + b) + (m + ".") + (c + d + u);
    assert text[|a + b|..][..|m + "."|] == m + ".";
  }

  /** The letter opens with the greeting, holds "middle." and ends with the closing and the user name. */
  lemma LetterText(middle: string, userName: string)
    ensures StartsWith(Letter(middle, userName), Greeting)
    ensures IsInfix(middle + ".", Letter(middle, userName))
    ensures EndsWith(Letter(middle, userName), Closing + userName)
  {
    ConcatShape(Greeting, Intro, middle, Pitch, Closing, userName);
  }

  /**
   * The fallback letter is not marked as AI-written, opens with the
   * greeting, names the role and the addressee, and closes with
   * "Sincerely," and the saved user name of that profile.
   */
  lemma FallbackLetterShape(opp: Opportunity, defaults: map<string, string>, listing: Option<seq<Profiles.DirEntry>>)
    ensures var d := FallbackLetter(opp, defaults, listing);
      var profileId := FreshCurrentId(defaults, listing);
      var role := RoleForPrompt(Tidy(opp.title), SavedSetting(defaults, Profiles.NamespacedKey("UserRole", profileId)));
      var userName := SavedSetting(defaults, Profiles.NamespacedKey("UserName", profileId));
      && !d.isAI
      && StartsWith(d.text, Greeting)
      && IsInfix(role + " at " + Addressee(Tidy(opp.company)) + ".", d.text)
      && EndsWith(d.text, Closing + userName)
  {
    var profileId := FreshCurrentId(defaults, listing);
    var role := RoleForPrompt(Tidy(opp.title), SavedSetting(defaults, Profiles.NamespacedKey("UserRole", profileId)));
    var userName := SavedSetting(defaults, Profiles.NamespacedKey("UserName", profileId));
    LetterText(role + " at " + Addressee(Tidy(opp.company)), userName);
  }
}

=== FILE: keychain.dfy ===
/**
 * The generic-password items of the login Keychain, as the `Keychain` helper
 * of ProfileManager.swift reaches them: every item lives under the service
 * `com.shukatsu.app` and is found by its account name. Items of other
 * services are part of the store but never touched.
 */
module Keychain {
  import opened Utf8
  import opened Wrappers

  const Service: string := "com.shukatsu.app"

  /** Keychain items keyed by (service, account). */
  type Vault = map<(string, string), seq<Byte>>

  /** `SecItemCopyMatching` for one item of this service. */
  function Get(v: Vault, account: string): Option<seq<Byte>> {
    if (Service, account) in v then Some(v[(Service, account)]) else None
  }

  /** `SecItemDelete`: removes the item if there is one; nothing else changes. */
  function Delete(v: Vault, account: string): (r: Vault)
    ensures Get(r, account) == None
    ensures Get(v, account) == None ==> r == v
    ensures forall k :: k in v && k != (Service, account) ==> k in r && r[k] == v[k]
    ensures forall k :: k in r ==> k in v
  {
    v - {(Service, account)}
  }

  /**
   * `Keychain.set`: deletes any existing item, then adds the new one.
   * `addOk` is whether `SecItemAdd` succeeds; when it fails the old item is
   * already gone.
   */
  function Set(v: Vault, account: string, data: seq<Byte>, addOk: bool): (r: (Vault, bool))
    ensures r.1 == addOk
    ensures Get(r.0, account) == if addOk then Some(data) else None
    ensures forall k :: k in v && k != (Service, account) ==> k in r.0 && r.0[k] == v[k]
    ensures forall k :: k in r.0 && k != (Service, account) ==> k in v
  {
    var cleared := Delete(v, account);
    if addOk then (cleared[(Service, account) := data], true) else (cleared, false)
  }
}

=== FILE: opportunity_view.dfy ===
/**
 * The opportunity side of the app: the status encoding, creating an
 * opportunity, the sort header of the inspector list and its comparator,
 * and the default selection of the detail pane.
 */
module OpportunityView {
  import opened Wrappers
  import opened Text
  import opened Records

  /** `OpportunityStatus`, stored as a 32-bit raw value. */
  datatype OpportunityStatus = Start | Applied | Interview | Closed

  function RawValue(s: OpportunityStatus): int {
    match s
    case Start => 0
    case Applied => 1
    case Interview => 2
    case Closed => 3
  }

  /** `OpportunityStatus(rawValue:)`: only the four raw values name a status. */
  function FromRaw(raw: int): (r: Option<OpportunityStatus>)
    ensures r.Some? <==> 0 <= raw <= 3
    ensures r.Some? ==> RawValue(r.value) == raw
  {
    if raw == 0 then Some(Start)
    else if raw == 1 then Some(Applied)
    else if raw == 2 then Some(Interview)
    else if raw == 3 then Some(Closed)
    else None
  }

  /** Decoding a raw value undoes encoding a status. */
  lemma RawRoundTrip(s: OpportunityStatus)
    ensures FromRaw(RawValue(s)) == Some(s)
  {
  }

  /** `label`. */
  function Label(s: OpportunityStatus): string {
    match s
    case Start => "Start"
    case Applied => "Applied"
    case Interview => "Interview"
    case Closed => "Close"
  }

  /** No two statuses share a label. */
  lemma LabelInjective(a: OpportunityStatus, b: OpportunityStatus)
    ensures Label(a) == Label(b) <==> a == b
  {
    if Label(a) == Label(b) {
      assert Label(a)[0] == Label(b)[0];
    }
  }

  /** The getter of `wrappedStatus`: an unknown raw value reads as `start`. */
  function WrappedStatus(o: Opportunity): (s: OpportunityStatus)
    ensures !(0 <= o.status <= 3) ==> s == Start
    ensures 0 <= o.status <= 3 ==> RawValue(s) == o.status
  {
    match FromRaw(o.status)
    case Some(s) => s
    case None => Start
  }

  /** The setter of `wrappedStatus`: stores the raw value, nothing else. */
  function WithStatus(o: Opportunity, s: OpportunityStatus): (o': Opportunity)
    ensures o'.status == RawValue(s)
  {
    o.(status := RawValue(s))
  }

  /** Reading back a status that was set gives that status, and no other attribute moves. */
  lemma StatusRoundTrip(o: Opportunity, s: OpportunityStatus)
    ensures WrappedStatus(WithStatus(o, s)) == s
    ensures WithStatus(o, s).(status := o.status) == o
  {
    RawRoundTrip(s);
  }

  /** A status read from a valid raw value writes the same raw value back. */
  lemma RawValueRoundTrip(o: Opportunity)
    requires 0 <= o.status <= 3
    ensures WithStatus(o, WrappedStatus(o)) == o
  {
  }

  /**
   * `Opportunity.create(in:title:)`: inserts an opportunity with the given
   * title, status `start` and every other text attribute empty, then saves.
   * The object stays in the context when the save throws; only the caller
   * loses the reference. `uri` is the object-ID URI the store assigns.
   */
  method CreateOpportunity(ctx: ObjectContext, title: string, uri: string, saveOk: bool)
    returns (r: Option<OpportunityRef>)
    modifies ctx`opportunities
    ensures ctx.opportunities == old(ctx.opportunities)
      + [Opportunity(Some(title), Some(""), Some(""), Some(""), Some(""), Some(""), Some(""), RawValue(Start), uri)]
    ensures r == if saveOk then Some(OpportunityRef(ctx, |old(ctx.opportunities)|)) else None
  {
    var opp := Opportunity(None, None, None, None, None, None, None, 0, uri);
    opp := opp.(status := RawValue(Start));
    opp := opp.(title := Some(title));
    opp := opp.(company := Some(""), location := Some(""), salary := Some(""), deadline := Some(""));
    opp := opp.(desc := Some(""), notes := Some(""));
    ctx.opportunities := ctx.opportunities + [opp];
    if saveOk {
      r := Some(OpportunityRef(ctx, |ctx.opportunities| - 1));
    } else {
      r := None;
    }
  }

  /** A new opportunity reads as `start` with no text other than its title. */
  lemma CreatedIsBlank(title: string, uri: string)
    ensures var o := Opportunity(Some(title), Some(""), Some(""), Some(""), Some(""), Some(""), Some(""), RawValue(Start), uri);
      WrappedStatus(o) == Start && Label(WrappedStatus(o)) == "Start"
  {
  }

  /** The column the inspector list sorts on. */
  datatype SortKey = Title | Deadline | Status

  /** `toggle(_:)` as a function of the sort state. */
  function Toggled(key: SortKey, ascending: bool, k: SortKey): (r: (SortKey, bool))
    ensures r.0 == k
    ensures key == k ==> r.1 == !ascending
    ensures key != k ==> r.1
  {
    if key == k then (key, !ascending) else (k, true)
  }

  /** Clicking the active header twice restores the order; clicking another header twice leaves it descending. */
  lemma ToggleTwice(key: SortKey, ascending: bool, k: SortKey)
    ensures Toggled(Toggled(key, ascending, k).0, Toggled(key, ascending, k).1, k) == (k, key == k && ascending)
  {
  }

  /** The sort state of `OpportunityInspectorList`. */
  class OpportunityInspectorList {
    var sortKey: SortKey
    var ascending: bool

    constructor ()
      ensures sortKey == Title && ascending
    {
      sortKey := Title;
      ascending := true;
    }

    /** `toggle(_:)`. */
    method Toggle(k: SortKey)
      modifies this
      ensures (sortKey, ascending) == Toggled(old(sortKey), old(ascending), k)
    {
      if sortKey == k {
        ascending := !ascending;
      } else {
        sortKey := k;
        ascending := true;
      }
    }
  }

  /** The decimal digits of `n`. */
  function Decimal(n: nat): (r: string)
    ensures |r| >= 1
    decreases n
  {
    if n < 10 then [Digit(n)] else Decimal(n / 10) + [Digit(n % 10)]
  }

  function Digit(d: nat): char
    requires d < 10
  {
    ('0' as int + d) as char
  }

  /** `String(format: "%02d", n)`: at least two digits, zero-padded. */
  function Pad2(n: nat): string {
    if n < 10 then "0" + Decimal(n) else Decimal(n)
  }

  /** Below 100, the padded form is the tens digit and the units digit. */
  lemma Pad2TwoDigits(n: nat)
    requires n < 100
    ensures Pad2(n) == [Digit(n / 10), Digit(n % 10)]
  {
    if n >= 10 {
      assert Decimal(n / 10) == [Digit(n / 10)];
    }
  }

  /** Below 100, comparing padded forms as strings orders them like the numbers. */
  lemma Pad2Order(n: nat, m: nat)
    requires n < 100 && m < 100
    ensures LexLess(Pad2(n), Pad2(m)) <==> n < m
  {
    Pad2TwoDigits(n);
    Pad2TwoDigits(m);
    var a, b := Pad2(n), Pad2(m);
    assert a[1..][1..] == [] && b[1..][1..] == [];
    assert !LexLess(a[1..][1..], b[1..][1..]);
    assert LexLess(a[1..], b[1..]) <==> a[1] < b[1];
    assert LexLess(a, b) <==> a[0] < b[0] || (a[0] == b[0] && a[1] < b[1]);
    assert a[0] < b[0] <==> n / 10 < m / 10;
    assert a[0] == b[0] <==> n / 10 == m / 10;
    assert a[1] < b[1] <==> n % 10 < m % 10;
    assert n == 10 * (n / 10) + n % 10 && m == 10 * (m / 10) + m % 10;
  }

  /** The result of `localizedStandardCompare`. */
  datatype ComparisonResult = OrderedAscending | OrderedSame | OrderedDescending

  /** The name key: the lower-cased title, `""` for none. */
  function NameKey(o: Opportunity): string {
    LowerStr(if o.title.Some? then o.title.value else "")
  }

  /** The date key: the deadline text, `""` for none. */
  function DateKey(o: Opportunity): string {
    if o.deadline.Some? then o.deadline.value else ""
  }

  /** The status key: the raw value of the read status, zero-padded to two digits. */
  function StatusKey(o: Opportunity): string {
    Pad2(RawValue(WrappedStatus(o)))
  }

  /**
   * The `sortedOpps` comparator: `a` goes before `b`. `compare` stands for
   * `localizedStandardCompare`, which is not part of this model.
   */
  function Before(key: SortKey, ascending: bool, compare: (string, string) -> ComparisonResult,
                  a: Opportunity, b: Opportunity): bool
  {
    match key
    case Title =>
      if ascending then compare(NameKey(a), NameKey(b)) == OrderedAscending
      else compare(NameKey(a), NameKey(b)) == OrderedDescending
    case Deadline =>
      if ascending then LexLess(DateKey(a), DateKey(b)) else LexLess(DateKey(b), DateKey(a))
    case Status =>
      if ascending then LexLess(StatusKey(a), StatusKey(b)) else LexLess(StatusKey(b), StatusKey(a))
  }

  /** Sorting by status orders like the numeric raw values of the read statuses. */
  lemma StatusSortsNumerically(compare: (string, string) -> ComparisonResult, a: Opportunity, b: Opportunity)
    ensures Before(Status, true, compare, a, b) <==> RawValue(WrappedStatus(a)) < RawValue(WrappedStatus(b))
    ensures Before(Status, false, compare, a, b) <==> RawValue(WrappedStatus(a)) > RawValue(WrappedStatus(b))
  {
    Pad2Order(RawValue(WrappedStatus(a)), RawValue(WrappedStatus(b)));
    Pad2Order(RawValue(WrappedStatus(b)), RawValue(WrappedStatus(a)));
  }

  /** `compare` answers "descending" for a pair exactly when it answers "ascending" for the swapped pair. */
  ghost predicate Antisymmetric(compare: (string, string) -> ComparisonResult) {
    forall x, y :: compare(x, y) == OrderedDescending <==> compare(y, x) == OrderedAscending
  }

  /** Each descending branch is the ascending comparison with the operands swapped. */
  lemma DescendingIsReversed(key: SortKey, compare: (string, string) -> ComparisonResult, a: Opportunity, b: Opportunity)
    requires key == Title ==> Antisymmetric(compare)
    ensures Before(key, false, compare, a, b) == Before(key, true, compare, b, a)
  {
  }

  /** On dates and statuses the comparator is a strict order: irreflexive and transitive. */
  lemma StrictOrder(key: SortKey, ascending: bool, compare: (string, string) -> ComparisonResult,
                    a: Opportunity, b: Opportunity, c: Opportunity)
    requires key != Title
    ensures !Before(key, ascending, compare, a, a)
    ensures Before(key, ascending, compare, a, b) && Before(key, ascending, compare, b, c) ==>
      Before(key, ascending, compare, a, c)
  {
    if key == Deadline {
      LexIrreflexive(DateKey(a));
      if Before(key, ascending, compare, a, b) && Before(key, ascending, compare, b, c) {
        if ascending {
          LexTransitive(DateKey(a), DateKey(b), DateKey(c));
        } else {
          LexTransitive(DateKey(c), DateKey(b), DateKey(a));
        }
      }
    } else {
      LexIrreflexive(StatusKey(a));
      if Before(key, ascending, compare, a, b) && Before(key, ascending, compare, b, c) {
        if ascending {
          LexTransitive(StatusKey(a), StatusKey(b), StatusKey(c));
        } else {
          LexTransitive(StatusKey(c), StatusKey(b), StatusKey(a));
        }
      }
    }
  }

  /**
   * `max(by:)` on the object-ID URI strings, scanning from `best` onwards:
   * a later element replaces the running maximum only when it is strictly
   * greater, so the first of the greatest is kept.
   */
  function NewestFrom(opps: seq<Opportunity>, best: nat, i: nat): (r: nat)
    requires best < i <= |opps|
    ensures r < |opps|
    decreases |opps| - i
  {
    if i == |opps| then best
    else NewestFrom(opps, if LexLess(opps[best].uri, opps[i].uri) then i else best, i + 1)
  }

  /** The opportunity with the greatest URI string, if any. */
  function Newest(opps: seq<Opportunity>): (r: Option<nat>)
    ensures r.None? <==> opps == []
  {
    if opps == [] then None else Some(NewestFrom(opps, 0, 1))
  }

  /** `i` holds a greatest URI, and every earlier URI is strictly smaller. */
  ghost predicate FirstGreatest(opps: seq<Opportunity>, i: nat, upto: nat)
    requires i < upto <= |opps|
  {
    && (forall j :: 0 <= j < upto ==> !LexLess(opps[i].uri, opps[j].uri))
    && (forall j :: 0 <= j < i ==> LexLess(opps[j].uri, opps[i].uri))
  }

  lemma {:induction false} NewestFromIsFirstGreatest(opps: seq<Opportunity>, best: nat, i: nat)
    requires best < i <= |opps| && FirstGreatest(opps, best, i)
    ensures FirstGreatest(opps, NewestFrom(opps, best, i), |opps|)
    decreases |opps| - i
  {
    if i < |opps| {
      var u := opps[i].uri;
      if LexLess(opps[best].uri, u) {
        forall j | 0 <= j < i + 1 ensures !LexLess(u, opps[j].uri) {
          if j == i {
            LexIrreflexive(u);
          } else if LexLess(u, opps[j].uri) {
            LexTransitive(opps[best].uri, u, opps[j].uri);
          }
        }
        forall j | 0 <= j < i ensures LexLess(opps[j].uri, u) {
          LexTotal(opps[j].uri, opps[best].uri);
          if LexLess(opps[j].uri, opps[best].uri) {
            LexTransitive(opps[j].uri, opps[best].uri, u);
          }
        }
        NewestFromIsFirstGreatest(opps, i, i + 1);
      } else {
        NewestFromIsFirstGreatest(opps, best, i + 1);
      }
    }
  }

  /** `Newest` picks the first opportunity whose URI string no other exceeds. */
  lemma NewestIsGreatest(opps: seq<Opportunity>)
    requires opps != []
    ensures Newest(opps).Some? && Newest(opps).value < |opps|
    ensures forall j :: 0 <= j < |opps| ==> !LexLess(opps[Newest(opps).value].uri, opps[j].uri)
    ensures forall j :: 0 <= j < Newest(opps).value ==> LexLess(opps[j].uri, opps[Newest(opps).value].uri)
  {
    LexIrreflexive(opps[0].uri);
    NewestFromIsFirstGreatest(opps, 0, 1);
  }

  /** The selection of `OpportunitiesDetail` and the context it shows. */
  class OpportunitiesDetail {
    var selected: Option<OpportunityRef>
    const context: ObjectContext

    constructor (context0: ObjectContext, selected0: Option<OpportunityRef>)
      ensures context == context0 && selected == selected0
    {
      context := context0;
      selected := selected0;
    }

    /**
     * `selectDefaultOpportunityIfNeeded`. A selection in this context is
     * kept. Otherwise the fetched opportunity with the greatest URI string is
     * selected; with none, or when the fetch throws, one titled
     * "Opportunity" is created and, if its save succeeds, selected.
     */
    method SelectDefaultIfNeeded(fetchOk: bool, uri: string, saveOk: bool)
      modifies this`selected, context`opportunities
      ensures old(selected).Some? && old(selected).value.ctx == context ==>
        selected == old(selected) && context.opportunities == old(context.opportunities)
      ensures !(old(selected).Some? && old(selected).value.ctx == context) && fetchOk && old(context.opportunities) != [] ==>
        selected == Some(OpportunityRef(context, Newest(old(context.opportunities)).value))
        && context.opportunities == old(context.opportunities)
      ensures !(old(selected).Some? && old(selected).value.ctx == context) && (!fetchOk || old(context.opportunities) == []) ==>
        && context.opportunities == old(context.opportunities)
          + [Opportunity(Some("Opportunity"), Some(""), Some(""), Some(""), Some(""), Some(""), Some(""), RawValue(Start), uri)]
        && selected == (if saveOk then Some(OpportunityRef(context, |old(context.opportunities)|)) else old(selected))
    {
      if selected.Some? && selected.value.ctx == context {
        return;
      }
      if fetchOk {
        var newest := Newest(context.opportunities);
        if newest.Some? {
          selected := Some(OpportunityRef(context, newest.value));
          return;
        }
      }
      var created := CreateOpportunity(context, "Opportunity", uri, saveOk);
      if created.Some? {
        selected := created;
      }
    }
  }
}

=== FILE: profile_manager.dfy ===
/**
 * The profile lifecycle of ProfileManager.swift: the roster, the current
 * profile, the switch token, the remembered `LastProfileID`, the password
 * vault, which persistent store is attached, and the profile folders on disk.
 *
 * Core Data is reduced to the list of attached stores and a log of what was
 * done to them; the Documents folder to two maps from folder name to
 * contents; `DispatchQueue.main.async` to a queue of pending tasks that
 * `RunPending` runs one at a time; notifications and `endEditing` to an event
 * log. Every environment failure (a directory that cannot be created, a store
 * that does not load, a move or write that fails) is a boolean parameter.
 */
module ProfileLifecycle {
  import opened Text
  import opened Wrappers
  import opened Profiles
  import Keychain

  /** A persistent store: the SQLite file of a profile, or an in-memory store. */
  datatype Store = Sqlite(profileId: string) | InMemory

  /** What was done to the persistent store coordinator and the view context. */
  datatype StoreOp = Removed(store: Store) | Loaded(store: Store) | LoadFailed(store: Store) | ContextReset

  function Removals(stores: seq<Store>): (r: seq<StoreOp>)
    ensures |r| == |stores|
    ensures forall i :: 0 <= i < |r| ==> r[i] == Removed(stores[i])
  {
    seq(|stores|, i requires 0 <= i < |stores| => Removed(stores[i]))
  }

  lemma RemovalsSnoc(stores: seq<Store>, s: Store)
    ensures Removals(stores + [s]) == Removals(stores) + [Removed(s)]
  {
  }

  /** The test `Without` keeps a store by. */
  function OtherThan(s: Store): Store -> bool {
    x => x != s
  }

  /** The stores other than `s`, in order. */
  function Without(stores: seq<Store>, s: Store): (r: seq<Store>)
  {
    if stores == [] then []
    else Without(stores[..|stores| - 1], s) + (if stores[|stores| - 1] != s then [stores[|stores| - 1]] else [])
  }

  /** `Without` is `filter { $0 != s }`. */
  lemma {:induction false} WithoutIsFilter(stores: seq<Store>, s: Store)
    ensures Without(stores, s) == Filter(stores, OtherThan(s))
    decreases |stores|
  {
    if stores != [] {
      var init, last := stores[..|stores| - 1], stores[|stores| - 1];
      assert stores == init + [last];
      var tail := if last != s then [last] else [];
      calc {
        Without(stores, s);
        Without(init, s) + tail;
        { WithoutIsFilter(init, s); }
        Filter(init, OtherThan(s)) + tail;
        { FilterSnoc(init, last, OtherThan(s)); }
        Filter(stores, OtherThan(s));
      }
    }
  }

  /**
   * The stores left after removing `s` are the others, in their order and
   * each as often as it was attached.
   */
  lemma WithoutKeepsOthers(stores: seq<Store>, s: Store)
    ensures Subsequence(Without(stores, s), stores)
    ensures multiset(Without(stores, s)) <= multiset(stores)
    ensures forall i :: 0 <= i < |stores| && stores[i] != s ==>
      multiset(Without(stores, s))[stores[i]] == multiset(stores)[stores[i]]
    ensures multiset(Without(stores, s))[s] == 0
    ensures forall i :: 0 <= i < |Without(stores, s)| ==> Without(stores, s)[i] != s && Without(stores, s)[i] in stores
    ensures forall i :: 0 <= i < |stores| && stores[i] != s ==> stores[i] in Without(stores, s)
  {
    WithoutIsFilter(stores, s);
    FilterCounts(stores, OtherThan(s));
  }

  /** The copies of `s` among the stores. */
  function Matching(stores: seq<Store>, s: Store): (r: seq<Store>)
    ensures forall i :: 0 <= i < |r| ==> r[i] == s
  {
    if stores == [] then []
    else Matching(stores[..|stores| - 1], s) + (if stores[|stores| - 1] == s then [s] else [])
  }

  /** One more attached store extends either the kept stores or the removed copies. */
  lemma StepSnoc(stores: seq<Store>, x: Store, s: Store)
    ensures Without(stores + [x], s) == Without(stores, s) + (if x != s then [x] else [])
    ensures Matching(stores + [x], s) == Matching(stores, s) + (if x == s then [s] else [])
  {
    assert (stores + [x])[..|stores + [x]| - 1] == stores;
  }

  /** One step of the removal loop: the next store is either kept or logged as removed. */
  lemma RemoveStep(snapshot: seq<Store>, i: nat, s: Store)
    requires i < |snapshot|
    ensures Without(snapshot[..i + 1], s) == Without(snapshot[..i], s) + (if snapshot[i] != s then [snapshot[i]] else [])
    ensures Removals(Matching(snapshot[..i + 1], s)) ==
      Removals(Matching(snapshot[..i], s)) + (if snapshot[i] == s then [Removed(s)] else [])
  {
    assert snapshot[..i + 1] == snapshot[..i] + [snapshot[i]];
    StepSnoc(snapshot[..i], snapshot[i], s);
    RemovalsSnoc(Matching(snapshot[..i], s), s);
  }

  /** No copy of `s` is left. */
  lemma WithoutDrops(stores: seq<Store>, s: Store)
    ensures forall i :: 0 <= i < |Without(stores, s)| ==> Without(stores, s)[i] != s
  {
    WithoutKeepsOthers(stores, s);
  }

  /** There is one copy of `s` in `Matching` per attached copy, so one removal is logged for each. */
  lemma {:induction false} MatchingCount(stores: seq<Store>, s: Store)
    ensures |Matching(stores, s)| == multiset(stores)[s]
    decreases |stores|
  {
    if stores != [] {
      var init, last := stores[..|stores| - 1], stores[|stores| - 1];
      MatchingCount(init, s);
      assert stores == init + [last];
    }
  }

  /**
   * The `NSPersistentContainer` the app runs on: its attached stores, and the
   * log of removals, loads and context resets.
   */
  class Container {
    var stores: seq<Store>
    var log: seq<StoreOp>

    constructor (preloaded: seq<Store>)
      ensures stores == preloaded && log == []
    {
      stores := preloaded;
      log := [];
    }

    /** `for store in psc.persistentStores { try psc.remove(store) }` */
    method RemoveAll()
      modifies this
      ensures stores == []
      ensures log == old(log) + Removals(old(stores))
    {
      var snapshot := stores;
      var i := 0;
      while i < |snapshot|
        invariant 0 <= i <= |snapshot|
        invariant stores == snapshot[i..]
        invariant log == old(log) + Removals(snapshot[..i])
      {
        RemovalsSnoc(snapshot[..i], snapshot[i]);
        assert snapshot[..i + 1] == snapshot[..i] + [snapshot[i]];
        stores := stores[1..];
        log := log + [Removed(snapshot[i])];
        i := i + 1;
      }
      assert snapshot[..i] == snapshot;
    }

    /** The removal loop of `destroyStore(at:in:)`: every attached copy of `s` is removed. */
    method RemoveMatching(s: Store)
      modifies this
      ensures stores == Without(old(stores), s)
      ensures log == old(log) + Removals(Matching(old(stores), s))
    {
      var snapshot := stores;
      var i := 0;
      stores := [];
      while i < |snapshot|
        invariant 0 <= i <= |snapshot|
        invariant stores == Without(snapshot[..i], s)
        invariant log == old(log) + Removals(Matching(snapshot[..i], s))
      {
        RemoveStep(snapshot, i, s);
        if snapshot[i] == s {
          log := log + [Removed(s)];
        } else {
          stores := stores + [snapshot[i]];
        }
        i := i + 1;
      }
      assert snapshot[..i] == snapshot;
    }

    /** `loadPersistentStores` with a single description; `ok` is whether it loads. */
    method Load(s: Store, ok: bool) returns (loaded: bool)
      modifies this
      ensures loaded == ok
      ensures stores == old(stores) + (if ok then [s] else [])
      ensures log == old(log) + [if ok then Loaded(s) else LoadFailed(s)]
    {
      loaded := ok;
      if ok {
        stores := stores + [s];
        log := log + [Loaded(s)];
      } else {
        log := log + [LoadFailed(s)];
      }
    }

    /** `viewContext.reset()`. */
    method Reset()
      modifies this`log
      ensures log == old(log) + [ContextReset]
    {
      log := log + [ContextReset];
    }
  }

  /** A folder under Documents/Shukatsu: its other files, and its `profile.json`. */
  datatype Folder = Folder(files: set<string>, metaFile: MetaFile)

  /** The folders of one directory, by name. */
  type Tree = map<string, Folder>

  /** A name starting with '.', which `.skipsHiddenFiles` leaves out of a listing. */
  predicate IsHidden(name: string) {
    name != "" && name[0] == '.'
  }

  /**
   * `listing` is what `contentsOfDirectory(..., options: [.skipsHiddenFiles])`
   * returns for the folder `tree`: each directory item is a visible folder of
   * `tree`, seen with its `profile.json`, and each visible folder is listed.
   * Plain files may be listed too; the order is the file system's.
   */
  predicate ListsTree(listing: seq<DirEntry>, tree: Tree) {
    && (forall k :: 0 <= k < |listing| && listing[k].isDirectory ==>
          && !IsHidden(listing[k].name)
          && listing[k].name in tree && tree[listing[k].name].metaFile == listing[k].metaFile)
    && (forall name :: name in tree && !IsHidden(name) ==>
          exists k :: 0 <= k < |listing| && listing[k].isDirectory && listing[k].name == name)
  }

  /** Some entry of `roster` has the id `id`. */
  ghost predicate InRoster(roster: seq<ProfileInfo>, id: string) {
    exists j :: 0 <= j < |roster| && roster[j].id == id
  }

  /**
   * The roster read from a listing of the profiles folder names exactly its
   * visible folders, each with the name its own `profile.json` gives.
   */
  lemma RosterMatchesTree(listing: seq<DirEntry>, tree: Tree)
    requires ListsTree(listing, tree)
    ensures forall j :: 0 <= j < |RosterOf(listing)| ==>
      RosterOf(listing)[j].id in tree && !IsHidden(RosterOf(listing)[j].id) &&
      RosterOf(listing)[j] == RosterEntry(DirEntry(RosterOf(listing)[j].id, true, tree[RosterOf(listing)[j].id].metaFile))
    ensures forall name :: name in tree && !IsHidden(name) ==> InRoster(RosterOf(listing), name)
  {
    RosterIsMappedDirectories(listing);
    DirectoriesInTree(listing, tree);
    FoldersListed(listing, tree);
  }

  lemma DirectoriesInTree(listing: seq<DirEntry>, tree: Tree)
    requires ListsTree(listing, tree)
    ensures var roster := MapEntries(Filter(listing, IsDirectoryEntry));
      forall j :: 0 <= j < |roster| ==>
        roster[j].id in tree && !IsHidden(roster[j].id) && roster[j] == RosterEntry(DirEntry(roster[j].id, true, tree[roster[j].id].metaFile))
  {
    var dirs := Filter(listing, IsDirectoryEntry);
    var roster := MapEntries(dirs);
    forall j | 0 <= j < |roster|
      ensures roster[j].id in tree && !IsHidden(roster[j].id) && roster[j] == RosterEntry(DirEntry(roster[j].id, true, tree[roster[j].id].metaFile))
    {
      var k :| 0 <= k < |listing| && listing[k] == dirs[j];
      assert roster[j] == RosterEntry(listing[k]);
    }
  }

  lemma FoldersListed(listing: seq<DirEntry>, tree: Tree)
    requires ListsTree(listing, tree)
    ensures forall name :: name in tree && !IsHidden(name) ==> InRoster(MapEntries(Filter(listing, IsDirectoryEntry)), name)
  {
    var dirs := Filter(listing, IsDirectoryEntry);
    var roster := MapEntries(dirs);
    forall name | name in tree && !IsHidden(name) ensures InRoster(roster, name) {
      var k :| 0 <= k < |listing| && listing[k].isDirectory && listing[k].name == name;
      assert IsDirectoryEntry(listing[k]);
      var j :| 0 <= j < |dirs| && dirs[j] == listing[k];
      assert roster[j].id == name;
    }
  }



  /** The SQLite store and its sidecar files in a profile folder. */
  const StoreFiles: set<string> := {"Shukatsu.sqlite", "Shukatsu.sqlite-shm", "Shukatsu.sqlite-wal"}

  /** `createDirectory(at:withIntermediateDirectories: true)`: an existing folder is kept as it is. */
  function EnsureFolder(tree: Tree, id: string): (r: Tree)
    ensures id in r && (id in tree ==> r[id] == tree[id])
    ensures forall k :: k in tree ==> k in r && r[k] == tree[k]
    ensures forall k :: k in r ==> k in tree || k == id
  {
    if id in tree then tree else tree[id := Folder({}, NoMetaFile)]
  }

  /** Loading a SQLite store creates its files in the profile folder. */
  function WithStoreFiles(tree: Tree, id: string): (r: Tree)
    requires id in tree
    ensures id in r && StoreFiles <= r[id].files && r[id].metaFile == tree[id].metaFile
    ensures forall k :: k in tree && k != id ==> k in r && r[k] == tree[k]
    ensures forall k :: k in r ==> k in tree
  {
    tree[id := Folder(tree[id].files + StoreFiles, tree[id].metaFile)]
  }

  /**
   * `saveMeta(for:)`: create the folder, then write `profile.json`; both
   * failures are swallowed.
   */
  function SaveMetaTree(tree: Tree, p: ProfileInfo, now: int, dirOk: bool, writeOk: bool): (r: Tree)
    ensures !dirOk ==> r == tree
    ensures dirOk ==> p.id in r
    ensures dirOk && writeOk ==> r[p.id].metaFile == MetaJson(ProfileMeta(p.id, p.displayName, now))
    ensures forall k :: k in tree && k != p.id ==> k in r && r[k] == tree[k]
    ensures forall k :: k in r ==> k in tree || k == p.id
  {
    if !dirOk then tree
    else
      var t := EnsureFolder(tree, p.id);
      if writeOk then t[p.id := Folder(t[p.id].files, MetaJson(ProfileMeta(p.id, p.displayName, now)))] else t
  }

  /** What a later `loadProfiles` reads back from a folder whose `profile.json` was written is the saved profile. */
  lemma SavedMetaLoadsBack(tree: Tree, p: ProfileInfo, now: int)
    ensures var t := SaveMetaTree(tree, p, now, true, true);
      RosterEntry(DirEntry(p.id, true, t[p.id].metaFile)) == p
  {
  }

  /**
   * The file removals of `deleteProfile`: the store files go, and the folder
   * goes too when nothing else is left in it, `profile.json` included.
   */
  function RemoveStoreFiles(tree: Tree, id: string): (r: Tree)
    ensures id in r ==> id in tree && r[id].files == tree[id].files - StoreFiles && r[id].metaFile == tree[id].metaFile
    ensures id in tree && id !in r <==> id in tree && tree[id].files <= StoreFiles && tree[id].metaFile == NoMetaFile
    ensures forall k :: k in tree && k != id ==> k in r && r[k] == tree[k]
    ensures forall k :: k in r ==> k in tree
  {
    if id !in tree then tree
    else
      var f := Folder(tree[id].files - StoreFiles, tree[id].metaFile);
      if f.files == {} && f.metaFile == NoMetaFile then tree - {id} else tree[id := f]
  }

  /**
   * A profile folder as it lands in the archive: the same files, and a
   * `profile.json` naming the profile if it had none and the write succeeds.
   */
  function ArchivedFolder(folder: Folder, p: ProfileInfo, now: int, metaWriteOk: bool): (r: Folder)
    ensures r.files == folder.files
    ensures folder.metaFile != NoMetaFile ==> r.metaFile == folder.metaFile
    ensures folder.metaFile == NoMetaFile ==> r.metaFile == (if metaWriteOk then MetaJson(ProfileMeta(p.id, p.displayName, now)) else NoMetaFile)
  {
    if folder.metaFile == NoMetaFile && metaWriteOk then Folder(folder.files, MetaJson(ProfileMeta(p.id, p.displayName, now)))
    else folder
  }

  /** Work queued with `DispatchQueue.main.async`. */
  datatype Task = RunSwitch(target: ProfileInfo) | NewToken

  /** `endEditing` on every window and the two notifications. */
  datatype Event = EndEditing | ProfileWillSwitch | ProfileWillDelete

  /** `UserDefaults.standard.string(forKey: "LastProfileID")`. */
  function Saved(defaults: map<string, string>): Option<string> {
    if LastProfileIdKey in defaults then Some(defaults[LastProfileIdKey]) else None
  }

  class ProfileManager {
    /** The app's shared persistent container, passed to every store operation. */
    const container: Container

    var current: ProfileInfo
    var profiles: seq<ProfileInfo>
    /** `profileSwitchToken`: a created UUID is modelled as the next number. */
    var switchToken: nat
    var defaults: map<string, string>
    var vault: Keychain.Vault
    /** Documents/Shukatsu/Profiles and Documents/Shukatsu/ArchivedProfiles. */
    var profilesDir: Tree
    var archiveDir: Tree
    var pending: seq<Task>
    var events: seq<Event>

    /**
     * `init()`: start from the default profile, load the roster, then try to
     * create the current profile's folder.
     */
    constructor (c: Container, defaults0: map<string, string>, vault0: Keychain.Vault,
                 profilesDir0: Tree, archiveDir0: Tree, listing: Option<seq<DirEntry>>, dirOk: bool)
      requires listing.Some? ==> ListsTree(listing.value, profilesDir0)
      ensures container == c
      ensures profiles == RosterOf(if listing.Some? then listing.value else [])
      ensures current == ChooseCurrent(profiles, Saved(defaults0), DefaultProfile)
      ensures switchToken == 0 && pending == [] && events == []
      ensures defaults == defaults0 && vault == vault0 && archiveDir == archiveDir0
      ensures profilesDir == if dirOk then EnsureFolder(profilesDir0, current.id) else profilesDir0
    {
      container := c;
      current := DefaultProfile;
      profiles := [];
      switchToken := 0;
      defaults := defaults0;
      vault := vault0;
      profilesDir := profilesDir0;
      archiveDir := archiveDir0;
      pending := [];
      events := [];
      new;
      LoadProfiles(listing);
      assert current == ChooseCurrent(profiles, Saved(defaults0), DefaultProfile);
      if dirOk {
        profilesDir := EnsureFolder(profilesDir, current.id);
      }
    }

    /** `namespacedKey(_:for:)`: the profile defaults to the current one. */
    function NamespacedKeyFor(raw: string, profile: Option<ProfileInfo>): (r: string)
      reads this`current
      ensures profile.None? ==> r == NamespacedKey(raw, current.id)
      ensures profile.Some? ==> r == NamespacedKey(raw, profile.value.id)
    {
      var p := if profile.Some? then profile.value else current;
      NamespacedKey(raw, p.id)
    }

    /** `switchTo(_:container:)`: end editing, announce the switch, and queue the actual switch. */
    method SwitchTo(profile: ProfileInfo)
      modifies this`events, this`pending
      ensures events == old(events) + [EndEditing, ProfileWillSwitch]
      ensures pending == old(pending) + [RunSwitch(profile)]
    {
      events := events + [EndEditing, ProfileWillSwitch];
      pending := pending + [RunSwitch(profile)];
    }

    /**
     * `_performSwitch(to:container:)`. `current` is set first, so it names
     * the target even when a later step fails. On success the old stores are
     * all removed before the target's store is the one store attached.
     */
    method PerformSwitch(target: ProfileInfo, dirOk: bool, loadOk: bool) returns (ok: bool)
      modifies this`current, this`profilesDir, this`defaults, this`pending, container
      ensures current == target
      ensures ok == (dirOk && loadOk)
      ensures !dirOk ==> profilesDir == old(profilesDir) && unchanged(container)
      ensures dirOk ==> container.stores == (if loadOk then [Sqlite(target.id)] else [])
      ensures dirOk ==> (container.log == old(container.log) + Removals(old(container.stores))
        + (if loadOk then [Loaded(Sqlite(target.id)), ContextReset] else [LoadFailed(Sqlite(target.id))]))
      ensures dirOk ==> profilesDir == (if loadOk then WithStoreFiles(EnsureFolder(old(profilesDir), target.id), target.id)
                                        else EnsureFolder(old(profilesDir), target.id))
      ensures defaults == if ok then old(defaults)[LastProfileIdKey := target.id] else old(defaults)
      ensures pending == old(pending) + (if ok then [NewToken] else [])
    {
      current := target;
      if !dirOk {
        return false;
      }
      profilesDir := EnsureFolder(profilesDir, target.id);
      container.RemoveAll();
      ok := container.Load(Sqlite(target.id), loadOk);
      if !ok {
        return;
      }
      profilesDir := WithStoreFiles(profilesDir, target.id);
      defaults := defaults[LastProfileIdKey := target.id];
      container.Reset();
      pending := pending + [NewToken];
    }

    /**
     * The main queue running the oldest pending task: a queued switch, or a
     * created `profileSwitchToken`.
     */
    method RunPending(dirOk: bool, loadOk: bool)
      modifies this`current, this`profilesDir, this`defaults, this`pending, this`switchToken, container
      ensures old(pending) == [] ==> (pending == [] && current == old(current) && profilesDir == old(profilesDir)
        && defaults == old(defaults) && switchToken == old(switchToken) && unchanged(container))
      ensures old(pending) != [] && old(pending)[0].NewToken? ==>
        pending == old(pending)[1..] && switchToken == old(switchToken) + 1 && current == old(current)
        && profilesDir == old(profilesDir) && defaults == old(defaults) && unchanged(container)
      ensures old(pending) != [] && old(pending)[0].RunSwitch? ==>
        var target := old(pending)[0].target;
        && current == target && switchToken == old(switchToken)
        && pending == old(pending)[1..] + (if dirOk && loadOk then [NewToken] else [])
        && defaults == (if dirOk && loadOk then old(defaults)[LastProfileIdKey := target.id] else old(defaults))
        && (!dirOk ==> profilesDir == old(profilesDir) && unchanged(container))
        && (dirOk ==> container.stores == (if loadOk then [Sqlite(target.id)] else []))
        && (dirOk ==> (container.log == old(container.log) + Removals(old(container.stores))
          + (if loadOk then [Loaded(Sqlite(target.id)), ContextReset] else [LoadFailed(Sqlite(target.id))])))
        && (dirOk ==> profilesDir == (if loadOk then WithStoreFiles(EnsureFolder(old(profilesDir), target.id), target.id)
                                      else EnsureFolder(old(profilesDir), target.id)))
    {
      if pending == [] {
        return;
      }
      var task := pending[0];
      pending := pending[1..];
      match task
      case NewToken =>
        switchToken := switchToken + 1;
      case RunSwitch(target) =>
        var _ := PerformSwitch(target, dirOk, loadOk);
    }

    /**
     * `bootstrapInitialStore(container:)`: create the current profile's
     * folder, remove every preloaded store, and load the current profile's
     * store, so that on success it is the one store attached.
     */
    method BootstrapInitialStore(dirOk: bool, loadOk: bool) returns (ok: bool)
      modifies this`profilesDir, container
      ensures ok == (dirOk && loadOk)
      ensures !dirOk ==> profilesDir == old(profilesDir) && unchanged(container)
      ensures dirOk ==> container.stores == (if loadOk then [Sqlite(current.id)] else [])
      ensures dirOk ==> (container.log == old(container.log) + Removals(old(container.stores))
        + [if loadOk then Loaded(Sqlite(current.id)) else LoadFailed(Sqlite(current.id))])
      ensures dirOk ==> profilesDir == (if loadOk then WithStoreFiles(EnsureFolder(old(profilesDir), current.id), current.id)
                                        else EnsureFolder(old(profilesDir), current.id))
    {
      if !dirOk {
        return false;
      }
      profilesDir := EnsureFolder(profilesDir, current.id);
      container.RemoveAll();
      ok := container.Load(Sqlite(current.id), loadOk);
      if ok {
        profilesDir := WithStoreFiles(profilesDir, current.id);
      }
    }

    /**
     * The first step of archiving or deleting the current profile: queue a
     * switch to the first other profile, or, when there is none, replace
     * every store by a single in-memory store.
     */
    method SwitchAway(p: ProfileInfo, memLoadOk: bool) returns (ok: bool)
      modifies this`events, this`pending, container
      ensures FirstOther(profiles, p.id).Some? ==>
        ok && events == old(events) + [EndEditing, ProfileWillSwitch]
        && pending == old(pending) + [RunSwitch(FirstOther(profiles, p.id).value)] && unchanged(container)
      ensures FirstOther(profiles, p.id).None? ==>
        ok == memLoadOk && events == old(events) && pending == old(pending)
        && container.stores == (if memLoadOk then [InMemory] else [])
        && container.log == old(container.log) + Removals(old(container.stores))
          + (if memLoadOk then [Loaded(InMemory), ContextReset] else [LoadFailed(InMemory)])
    {
      match FirstOther(profiles, p.id)
      case Some(next) =>
        SwitchTo(next);
        ok := true;
      case None =>
        container.RemoveAll();
        ok := container.Load(InMemory, memLoadOk);
        if ok {
          container.Reset();
        }
    }

    /**
     * The opening steps of archiving (`announce`) or deleting a profile:
     * end editing, and when the profile is current post `ProfileWillDelete`
     * (archiving only) and switch away from it. The next profile, when there
     * is one, is the head of the roster without the profile.
     */
    method LeaveProfile(p: ProfileInfo, memLoadOk: bool, announce: bool) returns (ok: bool, wasCurrent: bool)
      modifies this`events, this`pending, container
      ensures wasCurrent == (current.id == p.id)
      ensures ok == (!wasCurrent || FirstOther(profiles, p.id).Some? || memLoadOk)
      ensures events == old(events) + [EndEditing] + (if announce && wasCurrent then [ProfileWillDelete] else [])
        + (if wasCurrent && FirstOther(profiles, p.id).Some? then [EndEditing, ProfileWillSwitch] else [])
      ensures wasCurrent && FirstOther(profiles, p.id).Some? ==>
        && RemoveId(profiles, p.id) != []
        && pending == old(pending) + [RunSwitch(RemoveId(profiles, p.id)[0])] && unchanged(container)
      ensures wasCurrent && FirstOther(profiles, p.id).None? ==>
        && RemoveId(profiles, p.id) == [] && pending == old(pending)
        && container.stores == (if memLoadOk then [InMemory] else [])
        && container.log == old(container.log) + Removals(old(container.stores))
          + (if memLoadOk then [Loaded(InMemory), ContextReset] else [LoadFailed(InMemory)])
      ensures !wasCurrent ==> pending == old(pending) && unchanged(container)
    {
      events := events + [EndEditing];
      wasCurrent := current.id == p.id;
      ok := true;
      if wasCurrent {
        if announce {
          events := events + [ProfileWillDelete];
        }
        FirstOtherHeadsRemoval(profiles, p.id);
        ok := SwitchAway(p, memLoadOk);
      }
    }

    /**
     * The last step of archiving or deleting: drop every roster entry with
     * the profile's id; when it was current, make the first remaining entry
     * current and remember it, or fall back to the default profile and
     * forget `LastProfileID`, then queue a created token.
     */
    method DropFromRoster(p: ProfileInfo, wasCurrent: bool)
      modifies this`profiles, this`current, this`defaults, this`pending
      ensures profiles == RemoveId(old(profiles), p.id)
      ensures wasCurrent && profiles != [] ==>
        current == profiles[0] && defaults == old(defaults)[LastProfileIdKey := profiles[0].id]
      ensures wasCurrent && profiles == [] ==>
        current == DefaultProfile && defaults == old(defaults) - {LastProfileIdKey}
      ensures wasCurrent ==> pending == old(pending) + [NewToken]
      ensures !wasCurrent ==> current == old(current) && defaults == old(defaults) && pending == old(pending)
    {
      profiles := RemoveId(profiles, p.id);
      if wasCurrent {
        if profiles != [] {
          current := profiles[0];
          defaults := defaults[LastProfileIdKey := profiles[0].id];
        } else {
          defaults := defaults - {LastProfileIdKey};
          current := DefaultProfile;
        }
        pending := pending + [NewToken];
      }
    }

    /**
     * The folder step of `archiveProfile`: create the archive folder, then,
     * when the profile folder exists, move it there as `dest` (the move fails
     * when told to or when that name is taken) and write a `profile.json` if
     * it had none.
     */
    method MoveToArchive(p: ProfileInfo, dest: string, now: int, archiveDirOk: bool, moveOk: bool, metaWriteOk: bool)
      returns (ok: bool)
      modifies this`profilesDir, this`archiveDir
      ensures ok == (archiveDirOk && (p.id !in old(profilesDir) || (moveOk && dest !in old(archiveDir))))
      ensures !ok || p.id !in old(profilesDir) ==> profilesDir == old(profilesDir) && archiveDir == old(archiveDir)
      ensures ok && p.id in old(profilesDir) ==>
        && profilesDir == old(profilesDir) - {p.id}
        && archiveDir == old(archiveDir)[dest := ArchivedFolder(old(profilesDir)[p.id], p, now, metaWriteOk)]
    {
      if !archiveDirOk {
        return false;
      }
      if p.id !in profilesDir {
        return true;
      }
      if !moveOk || dest in archiveDir {
        return false;
      }
      var folder := profilesDir[p.id];
      profilesDir := profilesDir - {p.id};
      archiveDir := archiveDir[dest := ArchivedFolder(folder, p, now, metaWriteOk)];
      ok := true;
    }

    /**
     * What archiving `p` into the archive folder named `dest` does, from the
     * state before the call to the state after it; `ok` is false when the
     * call throws, and the roster is then untouched.
     */
    twostate predicate ArchivedAs(p: ProfileInfo, dest: string, now: int, memLoadOk: bool,
                                  archiveDirOk: bool, moveOk: bool, metaWriteOk: bool, ok: bool)
      reads this, container
    {
      var wasCurrent := old(current).id == p.id;
      var next := FirstOther(old(profiles), p.id);
      && ok == ((!wasCurrent || next.Some? || memLoadOk) && archiveDirOk
                && (p.id !in old(profilesDir) || (moveOk && dest !in old(archiveDir))))
      && events == old(events) + [EndEditing] + (if wasCurrent then [ProfileWillDelete] else [])
        + (if wasCurrent && next.Some? then [EndEditing, ProfileWillSwitch] else [])
      && (wasCurrent && next.None? ==> container.stores == (if memLoadOk then [InMemory] else []))
      && (wasCurrent && next.None? ==>
            container.log == old(container.log) + Removals(old(container.stores))
              + (if memLoadOk then [Loaded(InMemory), ContextReset] else [LoadFailed(InMemory)]))
      && (!wasCurrent || next.Some? ==> unchanged(container))
      && (!ok ==> profiles == old(profiles) && current == old(current) && defaults == old(defaults))
      && (!ok ==> pending == old(pending) + (if wasCurrent && next.Some? then [RunSwitch(next.value)] else []))
      && (ok ==> profiles == RemoveId(old(profiles), p.id))
      && (ok && wasCurrent ==> current == (if profiles != [] then profiles[0] else DefaultProfile))
      && (ok && wasCurrent ==> defaults == (if profiles != [] then old(defaults)[LastProfileIdKey := profiles[0].id]
                                            else old(defaults) - {LastProfileIdKey}))
      && (ok && wasCurrent && next.Some? ==> pending == old(pending) + [RunSwitch(current), NewToken])
      && (ok && wasCurrent && next.None? ==> pending == old(pending) + [NewToken] && profiles == [])
      && (!wasCurrent ==> current == old(current) && defaults == old(defaults) && pending == old(pending))
      && (ok && p.id in old(profilesDir) ==>
            && profilesDir == old(profilesDir) - {p.id}
            && archiveDir == old(archiveDir)[dest := ArchivedFolder(old(profilesDir)[p.id], p, now, metaWriteOk)])
      && (!ok || p.id !in old(profilesDir) ==> profilesDir == old(profilesDir) && archiveDir == old(archiveDir))
    }

    /** Every step of `archiveProfile` once the archive folder name is known. */
    method ArchiveInto(p: ProfileInfo, dest: string, now: int, memLoadOk: bool,
                       archiveDirOk: bool, moveOk: bool, metaWriteOk: bool) returns (ok: bool)
      modifies this`profiles, this`current, this`defaults, this`pending, this`events,
               this`profilesDir, this`archiveDir, container
      ensures ArchivedAs(p, dest, now, memLoadOk, archiveDirOk, moveOk, metaWriteOk, ok)
    {
      FirstOtherHeadsRemoval(profiles, p.id);
      var left, wasCurrent := LeaveProfile(p, memLoadOk, true);
      if !left {
        return false;
      }
      var moved := MoveToArchive(p, dest, now, archiveDirOk, moveOk, metaWriteOk);
      if !moved {
        return false;
      }
      DropFromRoster(p, wasCurrent);
      ok := true;
    }

    /**
     * `archiveProfile(_:container:)`: switch away when it is the current
     * profile, move its folder into the archive as
     * `<timestamp>-<slug or "profile">-<first 8 characters of the id>`, and
     * drop it from the roster. The clock reading is the `timestamp` parameter.
     */
    method ArchiveProfile(p: ProfileInfo, timestamp: string, now: int, memLoadOk: bool,
                          archiveDirOk: bool, moveOk: bool, metaWriteOk: bool) returns (ok: bool)
      modifies this`profiles, this`current, this`defaults, this`pending, this`events,
               this`profilesDir, this`archiveDir, container
      ensures ArchivedAs(p, ArchiveDestName(timestamp, SlugSpec(p.displayName), p.id), now,
                         memLoadOk, archiveDirOk, moveOk, metaWriteOk, ok)
    {
      var nameSlug := Slug(p.displayName);
      ok := ArchiveInto(p, ArchiveDestName(timestamp, nameSlug, p.id), now, memLoadOk,
                        archiveDirOk, moveOk, metaWriteOk);
    }

    /**
     * `deleteProfile(_:container:)`: switch away when it is the current
     * profile, detach the profile's store, remove its store files and then its
     * folder if nothing is left in it, and drop it from the roster. It posts
     * no `ProfileWillDelete` and leaves the vault alone.
     */
    method DeleteProfile(p: ProfileInfo, memLoadOk: bool) returns (ok: bool)
      modifies this`profiles, this`current, this`defaults, this`pending, this`events, this`profilesDir, container
      ensures var wasCurrent := old(current).id == p.id;
        var next := FirstOther(old(profiles), p.id);
        && ok == (!wasCurrent || next.Some? || memLoadOk)
        && events == old(events) + [EndEditing] + (if wasCurrent && next.Some? then [EndEditing, ProfileWillSwitch] else [])
        && (!ok ==> profiles == old(profiles) && current == old(current) && defaults == old(defaults)
                    && profilesDir == old(profilesDir) && pending == old(pending) && container.stores == [])
        && (ok ==> profiles == RemoveId(old(profiles), p.id))
        && (ok ==> forall i :: 0 <= i < |container.stores| ==> container.stores[i] != Sqlite(p.id))
        && (ok && (!wasCurrent || next.Some?) ==> container.stores == Without(old(container.stores), Sqlite(p.id)))
        && (ok && wasCurrent && next.None? ==> container.stores == [InMemory])
        && (!ok ==> container.log == old(container.log) + Removals(old(container.stores)) + [LoadFailed(InMemory)])
        && (!wasCurrent || next.Some? ==>
              container.log == old(container.log) + Removals(Matching(old(container.stores), Sqlite(p.id))))
        && (ok && wasCurrent && next.None? ==>
              container.log == old(container.log) + Removals(old(container.stores)) + [Loaded(InMemory), ContextReset])
        && (ok ==> profilesDir == RemoveStoreFiles(old(profilesDir), p.id))
        && (ok && wasCurrent ==> current == (if profiles != [] then profiles[0] else DefaultProfile))
        && (ok && wasCurrent ==> defaults == (if profiles != [] then old(defaults)[LastProfileIdKey := profiles[0].id]
                                              else old(defaults) - {LastProfileIdKey}))
        && (ok && wasCurrent && next.Some? ==> pending == old(pending) + [RunSwitch(current), NewToken])
        && (ok && wasCurrent && next.None? ==> pending == old(pending) + [NewToken] && profiles == [])
        && (!wasCurrent ==> current == old(current) && defaults == old(defaults) && pending == old(pending))
    {
      var left, wasCurrent := LeaveProfile(p, memLoadOk, false);
      if !left {
        return false;
      }
      ghost var attached := container.stores;
      container.RemoveMatching(Sqlite(p.id));
      WithoutDrops(attached, Sqlite(p.id));
      profilesDir := RemoveStoreFiles(profilesDir, p.id);
      DropFromRoster(p, wasCurrent);
      ok := true;
    }

    /** `saveMeta(for:)`. */
    method SaveMeta(p: ProfileInfo, now: int, dirOk: bool, writeOk: bool)
      modifies this`profilesDir
      ensures profilesDir == SaveMetaTree(old(profilesDir), p, now, dirOk, writeOk)
    {
      if dirOk {
        profilesDir := EnsureFolder(profilesDir, p.id);
        if writeOk {
          profilesDir := profilesDir[p.id := Folder(profilesDir[p.id].files, MetaJson(ProfileMeta(p.id, p.displayName, now)))];
        }
      }
    }

    /**
     * `renameCurrentProfile(to:)`: with a non-blank name and the current
     * profile in the roster, the first roster entry with its id and `current`
     * both take the trimmed name; ids and the other entries do not change.
     */
    method RenameCurrentProfile(newName: string, now: int, dirOk: bool, writeOk: bool)
      modifies this`profiles, this`current, this`profilesDir, this`pending
      ensures var name := Trim(newName, WhitespacesAndNewlines);
        var at := FirstIndex(old(profiles), old(current).id);
        if name == [] || at.None? then
          profiles == old(profiles) && current == old(current) && profilesDir == old(profilesDir) && pending == old(pending)
        else
          && |profiles| == |old(profiles)|
          && (forall k :: 0 <= k < |profiles| ==> profiles[k].id == old(profiles)[k].id)
          && (forall k :: 0 <= k < |profiles| && k != at.value ==> profiles[k] == old(profiles)[k])
          && profiles[at.value].displayName == name
          && current == ProfileInfo(old(current).id, name) && current == profiles[at.value]
          && profilesDir == SaveMetaTree(old(profilesDir), current, now, dirOk, writeOk)
          && pending == old(pending) + [NewToken]
    {
      var name := Trim(newName, WhitespacesAndNewlines);
      if name == [] {
        return;
      }
      match FirstIndex(profiles, current.id)
      case None =>
      case Some(i) =>
        profiles := profiles[i := ProfileInfo(profiles[i].id, name)];
        current := ProfileInfo(current.id, name);
        SaveMeta(current, now, dirOk, writeOk);
        pending := pending + [NewToken];
    }

    /**
     * `createProfile(named:)`: append one profile with the created id (unless
     * an equal entry exists), give it a folder and a `profile.json`, remember
     * it as the last profile, queue a switch to it and a created token.
     */
    method CreateProfile(name: string, freshId: string, now: int, dirOk: bool, writeOk: bool)
      modifies this`profiles, this`profilesDir, this`defaults, this`events, this`pending
      ensures var created := ProfileInfo(freshId, name);
        if created in old(profiles) then
          profiles == old(profiles) && profilesDir == old(profilesDir) && defaults == old(defaults)
          && events == old(events) && pending == old(pending)
        else
          && profiles == old(profiles) + [created]
          && profilesDir == SaveMetaTree(old(profilesDir), created, now, dirOk, writeOk)
          && defaults == old(defaults)[LastProfileIdKey := freshId]
          && events == old(events) + [EndEditing, ProfileWillSwitch]
          && pending == old(pending) + [RunSwitch(created), NewToken]
    {
      var created := ProfileInfo(freshId, name);
      if created in profiles {
        return;
      }
      profiles := profiles + [created];
      if dirOk {
        profilesDir := EnsureFolder(profilesDir, freshId);
      }
      SaveMeta(created, now, dirOk, writeOk);
      defaults := defaults[LastProfileIdKey := freshId];
      SwitchTo(created);
      pending := pending + [NewToken];
    }

    /**
     * `loadProfiles()`: one roster entry per folder of the listing, in
     * listing order (a listing that fails reads as empty), then the choice of
     * the current profile.
     */
    method LoadProfiles(listing: Option<seq<DirEntry>>)
      requires listing.Some? ==> ListsTree(listing.value, profilesDir)
      modifies this`profiles, this`current
      ensures profiles == RosterOf(if listing.Some? then listing.value else [])
      ensures current == ChooseCurrent(profiles, Saved(defaults), old(current))
    {
      var contents := if listing.Some? then listing.value else [];
      var loaded: seq<ProfileInfo> := [];
      var i := 0;
      while i < |contents|
        invariant 0 <= i <= |contents|
        invariant loaded == RosterOf(contents[..i])
      {
        assert contents[..i + 1][..i] == contents[..i];
        if contents[i].isDirectory {
          loaded := loaded + [RosterEntry(contents[i])];
        }
        i := i + 1;
      }
      assert contents[..i] == contents;
      profiles := loaded;
      current := ChooseCurrent(profiles, Saved(defaults), current);
    }

    // -------------------------------------------------------------------
    // Passwords

    /** `setPassword(_:for:)`. */
    method SetPassword(password: string, p: ProfileInfo, addOk: bool) returns (ok: bool)
      modifies this`vault
      ensures (vault, ok) == Profiles.SetPassword(old(vault), p, password, addOk)
    {
      var r := Profiles.SetPassword(vault, p, password, addOk);
      vault, ok := r.0, r.1;
    }

    /** `passwordExists(for:)`. */
    function PasswordExists(p: ProfileInfo): (r: bool)
      reads this`vault
      ensures r == Profiles.PasswordExists(vault, p)
    {
      Profiles.PasswordExists(vault, p)
    }

    /** `verifyPassword(_:for:)`. */
    function VerifyPassword(password: string, p: ProfileInfo): (r: bool)
      reads this`vault
      ensures r == Profiles.VerifyPassword(vault, p, password)
    {
      Profiles.VerifyPassword(vault, p, password)
    }

    /** `clearPassword(for:)`. */
    method ClearPassword(p: ProfileInfo)
      modifies this`vault
      ensures vault == Profiles.ClearPassword(old(vault), p)
    {
      vault := Profiles.ClearPassword(vault, p);
    }

    /** `setPasswordForCurrent(_:)`. */
    method SetPasswordForCurrent(password: string, addOk: bool) returns (ok: bool)
      modifies this`vault
      ensures (vault, ok) == Profiles.SetPassword(old(vault), current, password, addOk)
    {
      ok := SetPassword(password, current, addOk);
    }

    /** `verifyCurrentPassword(_:)`. */
    function VerifyCurrentPassword(password: string): (r: bool)
      reads this`vault, this`current
      ensures r == Profiles.VerifyPassword(vault, current, password)
    {
      VerifyPassword(password, current)
    }

    /** `currentPasswordExists()`. */
    function CurrentPasswordExists(): (r: bool)
      reads this`vault, this`current
      ensures r == Profiles.PasswordExists(vault, current)
    {
      PasswordExists(current)
    }

    /** `clearCurrentPassword()`. */
    method ClearCurrentPassword()
      modifies this`vault
      ensures vault == Profiles.ClearPassword(old(vault), current)
    {
      ClearPassword(current);
    }
  }
}

=== FILE: profiles.dfy ===
/**
 * The pure helpers of ProfileManager.swift: profile records, per-profile key
 * and account names, the folder-name slug, the archive folder name, the
 * roster built from the profiles folder, and the password operations on the
 * Keychain.
 */
module Profiles {
  import opened Text
  import opened Utf8
  import opened Wrappers
  import Keychain

  /** `ProfileInfo`: a profile's id (its folder name) and display name. */
  datatype ProfileInfo = ProfileInfo(id: string, displayName: string)

  /** The profile used when there is no other. */
  const DefaultProfile := ProfileInfo("player-one", "Player One")

  /** The UserDefaults key that remembers the last used profile. */
  const LastProfileIdKey := "LastProfileID"

  // ---------------------------------------------------------------------
  // Key and account names

  /** `namespacedKey(_:for:)` for a given profile id. */
  function NamespacedKey(raw: string, id: string): string {
    "profile:" + id + ":" + raw
  }

  /** For a fixed raw key, different profiles never share a namespaced key. */
  lemma NamespacedKeyInjective(raw: string, a: string, b: string)
    ensures NamespacedKey(raw, a) == NamespacedKey(raw, b) <==> a == b
  {
    if NamespacedKey(raw, a) == NamespacedKey(raw, b) {
      var ka, kb := NamespacedKey(raw, a), NamespacedKey(raw, b);
      assert |a| == |b|;
      assert a == ka[8..8 + |a|] == kb[8..8 + |b|] == b;
    }
  }

  /** The key does not determine the raw key and the id separately once ids may hold ':'. */
  lemma NamespacedKeyAmbiguous()
    ensures NamespacedKey("b:c", "a") == NamespacedKey("c", "a:b")
  {
  }

  /** `passwordAccount(for:)`. */
  function PasswordAccount(id: string): string {
    "profile-password-" + id
  }

  lemma PasswordAccountInjective(a: string, b: string)
    ensures PasswordAccount(a) == PasswordAccount(b) <==> a == b
  {
    if PasswordAccount(a) == PasswordAccount(b) {
      assert a == PasswordAccount(a)[17..] == PasswordAccount(b)[17..] == b;
    }
  }

  // ---------------------------------------------------------------------
  // Passwords

  /** `passwordExists(for:)`. */
  function PasswordExists(v: Keychain.Vault, p: ProfileInfo): bool {
    Keychain.Get(v, PasswordAccount(p.id)).Some?
  }

  /** `verifyPassword(_:for:)`: false without a stored secret, else a byte comparison. */
  function VerifyPassword(v: Keychain.Vault, p: ProfileInfo, password: string): (r: bool)
    ensures r ==> PasswordExists(v, p)
  {
    match Keychain.Get(v, PasswordAccount(p.id))
    case None => false
    case Some(stored) => stored == Encode(password)
  }

  /** `setPassword(_:for:)`: the new vault and whether the add succeeded. */
  function SetPassword(v: Keychain.Vault, p: ProfileInfo, password: string, addOk: bool): (Keychain.Vault, bool) {
    Keychain.Set(v, PasswordAccount(p.id), Encode(password), addOk)
  }

  /** `clearPassword(for:)`. */
  function ClearPassword(v: Keychain.Vault, p: ProfileInfo): (r: Keychain.Vault)
    ensures !PasswordExists(r, p)
    ensures !PasswordExists(v, p) ==> r == v
  {
    Keychain.Delete(v, PasswordAccount(p.id))
  }

  /**
   * After a successful `setPassword`, exactly the same password verifies:
   * the previous secret is replaced, not kept beside the new one.
   */
  lemma SetThenVerify(v: Keychain.Vault, p: ProfileInfo, password: string, attempt: string)
    ensures var (w, ok) := SetPassword(v, p, password, true);
      ok && (VerifyPassword(w, p, attempt) <==> attempt == password)
  {
    EncodeInjective(attempt, password);
  }

  /** A failed `setPassword` leaves no password at all. */
  lemma FailedSetLeavesNone(v: Keychain.Vault, p: ProfileInfo, password: string, attempt: string)
    ensures var (w, ok) := SetPassword(v, p, password, false);
      !ok && !PasswordExists(w, p) && !VerifyPassword(w, p, attempt)
  {
  }

  /** Setting or clearing one profile's password does not change another's. */
  lemma PasswordsIndependent(v: Keychain.Vault, p: ProfileInfo, q: ProfileInfo, password: string, addOk: bool, attempt: string)
    requires p.id != q.id
    ensures var w := SetPassword(v, p, password, addOk).0;
      PasswordExists(w, q) == PasswordExists(v, q) && VerifyPassword(w, q, attempt) == VerifyPassword(v, q, attempt)
    ensures var w := ClearPassword(v, p);
      PasswordExists(w, q) == PasswordExists(v, q) && VerifyPassword(w, q, attempt) == VerifyPassword(v, q, attempt)
  {
    PasswordAccountInjective(p.id, q.id);
  }

  // ---------------------------------------------------------------------
  // Slug

  /** A character the slug may contain. */
  predicate IsSlugChar(c: char) { IsLower(c) || IsDigit(c) || c == '-' }

  /** The per-character step of `slug`: keep letters and digits, turn ' ', '-', '_' into '-', drop the rest. */
  function SlugMap(s: string): (r: string)
    ensures |r| <= |s|
    ensures forall i :: 0 <= i < |r| ==> r[i] == '-' || ((IsLetter(r[i]) || IsDigit(r[i])) && r[i] in s)
  {
    if s == [] then []
    else
      var c := s[0];
      var rest := SlugMap(s[1..]);
      if IsLetter(c) || IsDigit(c) then [c] + rest
      else if c == ' ' || c == '-' || c == '_' then "-" + rest
      else rest
  }

  /** A character the slug keeps as it is. */
  predicate IsAlnum(c: char) { IsLetter(c) || IsDigit(c) }

  /** A character the slug turns into '-'. */
  predicate IsSlugSeparator(c: char) { c == ' ' || c == '-' || c == '_' }

  predicate IsHyphen(c: char) { c == '-' }

  /**
   * What `SlugMap` keeps: the letters and digits of the input, in order,
   * and one '-' for each ' ', '-' or '_' of the input; nothing else.
   */
  lemma {:induction false} SlugMapKeeps(s: string)
    ensures Filter(SlugMap(s), IsAlnum) == Filter(s, IsAlnum)
    ensures |Filter(SlugMap(s), IsHyphen)| == |Filter(s, IsSlugSeparator)|
    ensures |SlugMap(s)| == |Filter(s, IsAlnum)| + |Filter(s, IsSlugSeparator)|
  {
    if s != [] {
      SlugMapKeeps(s[1..]);
      var rest := SlugMap(s[1..]);
      if IsAlnum(s[0]) {
        assert ([s[0]] + rest)[1..] == rest;
      } else if IsSlugSeparator(s[0]) {
        assert ("-" + rest)[1..] == rest;
      }
    }
  }

  /**
   * `SlugMap` works character by character: mapping a concatenation maps
   * each part, and a single character becomes itself, '-' or nothing.
   */
  lemma {:induction false} SlugMapAppend(a: string, b: string)
    ensures SlugMap(a + b) == SlugMap(a) + SlugMap(b)
    ensures |a| == 1 ==> SlugMap(a) == (if IsAlnum(a[0]) then a else if IsSlugSeparator(a[0]) then "-" else "")
  {
    if a == [] {
      assert a + b == b;
    } else {
      assert (a + b)[0] == a[0];
      assert (a + b)[1..] == a[1..] + b;
      SlugMapAppend(a[1..], b);
      if |a| == 1 {
        assert a[1..] == [];
      }
    }
  }

  predicate HasDoubleHyphen(s: string) { |s| >= 2 && s[0] == '-' && s[1] == '-' }

  /** `replacingOccurrences(of: "--", with: "-")`: non-overlapping, left to right. */
  function ReplaceDoubleHyphens(s: string): (r: string)
    ensures |r| <= |s|
    ensures (r != [] && r[0] == '-') <==> (s != [] && s[0] == '-')
    decreases |s|
  {
    if HasDoubleHyphen(s) then "-" + ReplaceDoubleHyphens(s[2..])
    else if s == [] then []
    else [s[0]] + ReplaceDoubleHyphens(s[1..])
  }

  /** Every run of hyphens collapsed to a single one: what the `while` loop of `slug` reaches. */
  function Collapse(s: string): (r: string)
    ensures forall i :: 0 <= i < |r| ==> r[i] in s
  {
    if HasDoubleHyphen(s) then Collapse(s[1..])
    else if s == [] then []
    else [s[0]] + Collapse(s[1..])
  }

  lemma {:induction false} CollapseHead(s: string)
    ensures (Collapse(s) != [] && Collapse(s)[0] == '-') <==> (s != [] && s[0] == '-')
  {
    if HasDoubleHyphen(s) {
      CollapseHead(s[1..]);
    }
  }

  /** Collapsing after a leading hyphen depends only on the collapsed rest. */
  lemma CollapseAfterHyphen(t: string)
    ensures Collapse("-" + t) == if Collapse(t) != [] && Collapse(t)[0] == '-' then Collapse(t) else "-" + Collapse(t)
  {
    CollapseHead(t);
    assert ("-" + t)[1..] == t;
  }

  /** One pass of the replacement does not change the collapsed form. */
  lemma {:induction false} CollapseReplace(s: string)
    ensures Collapse(ReplaceDoubleHyphens(s)) == Collapse(s)
    decreases |s|
  {
    if HasDoubleHyphen(s) {
      var t := s[2..];
      CollapseReplace(t);
      CollapseAfterHyphen(t);
      CollapseAfterHyphen(ReplaceDoubleHyphens(t));
      assert s[1..] == "-" + t;
    } else if s != [] {
      var t := s[1..];
      CollapseReplace(t);
      if s[0] == '-' {
        assert ReplaceDoubleHyphens(s) == "-" + ReplaceDoubleHyphens(t);
        CollapseAfterHyphen(t);
        CollapseAfterHyphen(ReplaceDoubleHyphens(t));
        CollapseHead(t);
        CollapseHead(ReplaceDoubleHyphens(t));
        assert s == "-" + t;
      } else {
        assert ReplaceDoubleHyphens(s) == [s[0]] + ReplaceDoubleHyphens(t);
      }
    }
  }

  /** The replacement strictly shortens a string holding "--", so the loop ends. */
  lemma {:induction false} ReplaceShrinks(s: string)
    requires Contains(s, "--")
    ensures |ReplaceDoubleHyphens(s)| < |s|
    decreases |s|
  {
    if HasDoubleHyphen(s) {
    } else {
      assert s != [] && !StartsWith(s, "--");
      ReplaceShrinks(s[1..]);
    }
  }

  /** A string without "--" is its own collapsed form. */
  lemma {:induction false} CollapseIdentity(s: string)
    requires !Contains(s, "--")
    ensures Collapse(s) == s
  {
    if s != [] {
      assert !StartsWith(s, "--");
      CollapseIdentity(s[1..]);
    }
  }

  /** The collapsed form never holds "--". */
  lemma {:induction false} CollapseNoDouble(s: string)
    ensures !Contains(Collapse(s), "--")
  {
    if HasDoubleHyphen(s) {
      CollapseNoDouble(s[1..]);
    } else if s != [] {
      CollapseNoDouble(s[1..]);
      CollapseHead(s[1..]);
      var r := Collapse(s);
      assert r[1..] == Collapse(s[1..]);
    }
  }

  /** What `slug` computes, as one expression. */
  function SlugSpec(name: string): string {
    Trim(Collapse(SlugMap(LowerStr(Trim(name, WhitespacesAndNewlines)))), Hyphens)
  }

  /** `slug(_:)`, with its `while s.contains("--")` loop. */
  method Slug(name: string) returns (r: string)
    ensures r == SlugSpec(name)
  {
    var trimmed := Trim(name, WhitespacesAndNewlines);
    var lowered := LowerStr(trimmed);
    var s := SlugMap(lowered);
    ghost var allowed := s;
    while Contains(s, "--")
      invariant Collapse(s) == Collapse(allowed)
      decreases |s|
    {
      CollapseReplace(s);
      ReplaceShrinks(s);
      s := ReplaceDoubleHyphens(s);
    }
    CollapseIdentity(s);
    r := Trim(s, Hyphens);
  }

  lemma InfixChars(p: string, s: string)
    requires IsInfix(p, s)
    ensures forall i :: 0 <= i < |p| ==> p[i] in s
  {
    var j :| 0 <= j <= |s| && StartsWith(s[j..], p);
    forall i | 0 <= i < |p| ensures p[i] in s {
      assert p[i] == s[j + i];
    }
  }

  lemma NoDoubleInInfix(p: string, s: string)
    requires IsInfix(p, s) && !Contains(s, "--")
    ensures !Contains(p, "--")
  {
    ContainsIsInfix(p, "--");
    ContainsIsInfix(s, "--");
    if Contains(p, "--") {
      InfixTrans("--", p, s);
    }
  }

  /** Mapping lower-cased text keeps only slug characters. */
  lemma SlugMapOfLowered(t: string)
    ensures var m := SlugMap(LowerStr(t));
      forall i :: 0 <= i < |m| ==> IsSlugChar(m[i])
  {
    var lowered := LowerStr(t);
    var m := SlugMap(lowered);
    forall i | 0 <= i < |m| ensures IsSlugChar(m[i]) {
      if m[i] != '-' {
        var j :| 0 <= j < |lowered| && lowered[j] == m[i];
        assert !IsUpper(lowered[j]);
      }
    }
  }

  /**
   * The slug holds only lower-case letters, digits and '-', never "--",
   * and neither starts nor ends with '-'.
   */
  lemma SlugShape(name: string)
    ensures var r := SlugSpec(name);
      && (forall i :: 0 <= i < |r| ==> IsSlugChar(r[i]))
      && !Contains(r, "--")
      && (r == [] || (r[0] != '-' && r[|r| - 1] != '-'))
  {
    var m := SlugMap(LowerStr(Trim(name, WhitespacesAndNewlines)));
    SlugMapOfLowered(Trim(name, WhitespacesAndNewlines));
    var c := Collapse(m);
    var r := Trim(c, Hyphens);
    InfixChars(r, c);
    forall i | 0 <= i < |r| ensures IsSlugChar(r[i]) {
      var j :| 0 <= j < |m| && m[j] == r[i];
    }
    CollapseNoDouble(m);
    NoDoubleInInfix(r, c);
  }

  // ---------------------------------------------------------------------
  // Archive folder name

  /** The middle part of the archive folder name: the slug, or "profile" when it is empty. */
  function ArchiveLabel(slug: string): string {
    if slug == [] then "profile" else slug
  }

  /** `<timestamp>-<slug or "profile">-<first 8 characters of the id>`, given the slug of the display name. */
  function ArchiveDestName(timestamp: string, slug: string, id: string): string {
    timestamp + "-" + ArchiveLabel(slug) + "-" + Take(id, 8)
  }

  /** The label between the separators is never empty and is made of slug characters, with no '-' at either end. */
  lemma ArchiveLabelShape(displayName: string)
    ensures var mid := ArchiveLabel(SlugSpec(displayName));
      && mid != [] && mid[0] != '-' && mid[|mid| - 1] != '-'
      && (forall i :: 0 <= i < |mid| ==> IsSlugChar(mid[i]))
  {
    var s := SlugSpec(displayName);
    SlugShape(displayName);
    if s == [] {
      var fallback := "profile";
      assert forall i :: 0 <= i < |fallback| ==> IsLower(fallback[i]);
      assert ArchiveLabel(s) == fallback;
    } else {
      assert ArchiveLabel(s) == s;
    }
  }

  lemma SeparatedParts(head: string, mid: string, tail: string)
    ensures var n := head + "-" + mid + "-" + tail;
      StartsWith(n, head + "-") && EndsWith(n, "-" + tail) && |n| == |head| + |mid| + |tail| + 2
  {
    var n := head + "-" + mid + "-" + tail;
    assert n == (head + "-") + (mid + ("-" + tail));
    assert n[..|head| + 1] == head + "-";
    assert n == (head + "-" + mid) + ("-" + tail);
  }

  /**
   * The archive name is the timestamp, a '-', the label, a '-' and at most
   * eight leading characters of the id, so each part can be read back.
   */
  lemma ArchiveDestNameParts(timestamp: string, slug: string, id: string)
    ensures var n := ArchiveDestName(timestamp, slug, id);
      var short := Take(id, 8);
      && |short| <= 8 && StartsWith(id, short)
      && StartsWith(n, timestamp + "-")
      && EndsWith(n, "-" + short)
      && |n| == |timestamp| + |ArchiveLabel(slug)| + |short| + 2
  {
    SeparatedParts(timestamp, ArchiveLabel(slug), Take(id, 8));
  }

  // ---------------------------------------------------------------------
  // Roster

  /** The test `RemoveId` keeps an entry by. */
  function HasOtherId(id: string): ProfileInfo -> bool {
    (p: ProfileInfo) => p.id != id
  }

  /** Removing every entry with a given id, keeping the others in order. */
  function RemoveId(roster: seq<ProfileInfo>, id: string): (r: seq<ProfileInfo>)
    ensures forall k :: 0 <= k < |r| ==> r[k].id != id
    ensures forall k :: 0 <= k < |roster| && roster[k].id != id ==> roster[k] in r
    ensures forall k :: 0 <= k < |r| ==> r[k] in roster
    ensures Subsequence(r, roster)
  {
    Filter(roster, HasOtherId(id))
  }

  /** `removeAll` keeps each entry with another id as often as it occurs, and nothing else. */
  lemma RemoveIdCounts(roster: seq<ProfileInfo>, id: string)
    ensures multiset(RemoveId(roster, id)) <= multiset(roster)
    ensures forall k :: 0 <= k < |roster| && roster[k].id != id ==>
      multiset(RemoveId(roster, id))[roster[k]] == multiset(roster)[roster[k]]
  {
    FilterCounts(roster, HasOtherId(id));
  }

  /** `profiles.first(where: { $0.id != id })`. */
  function FirstOther(roster: seq<ProfileInfo>, id: string): (r: Option<ProfileInfo>)
    ensures r.Some? ==> r.value in roster && r.value.id != id
    ensures r.None? <==> forall k :: 0 <= k < |roster| ==> roster[k].id == id
  {
    if roster == [] then None
    else if roster[0].id != id then Some(roster[0])
    else FirstOther(roster[1..], id)
  }

  /**
   * The profile switched to before a removal is the profile that heads the
   * roster after it.
   */
  lemma {:induction false} FirstOtherHeadsRemoval(roster: seq<ProfileInfo>, id: string)
    ensures FirstOther(roster, id) == if RemoveId(roster, id) == [] then None else Some(RemoveId(roster, id)[0])
  {
    if roster != [] {
      FirstOtherHeadsRemoval(roster[1..], id);
    }
  }

  /** `profiles.firstIndex(where: { $0.id == id })`. */
  function FirstIndex(roster: seq<ProfileInfo>, id: string): (r: Option<nat>)
    ensures r.Some? ==> (r.value < |roster| && roster[r.value].id == id
      && forall j :: 0 <= j < r.value ==> roster[j].id != id)
    ensures r.None? ==> forall j :: 0 <= j < |roster| ==> roster[j].id != id
  {
    if roster == [] then None
    else if roster[0].id == id then Some(0)
    else match FirstIndex(roster[1..], id)
      case None => None
      case Some(i) => Some(i + 1)
  }

  /** `profiles.first(where: { $0.id == id })`. */
  function FirstWithId(roster: seq<ProfileInfo>, id: string): Option<ProfileInfo> {
    match FirstIndex(roster, id)
    case None => None
    case Some(i) => Some(roster[i])
  }

  /** `UUID(uuidString:) != nil`: 8-4-4-4-12 hexadecimal digits. */
  predicate IsHexDigit(c: char) { IsDigit(c) || ('a' <= c <= 'f') || ('A' <= c <= 'F') }

  predicate IsUuidString(s: string) {
    |s| == 36
    && (forall i :: 0 <= i < 36 ==> if i in {8, 13, 18, 23} then s[i] == '-' else IsHexDigit(s[i]))
  }

  /** The contents of `profile.json` in a folder. */
  datatype ProfileMeta = ProfileMeta(id: string, displayName: string, createdAt: int)

  /** `profile.json`: absent, decodable, or present but not decodable. */
  datatype MetaFile = NoMetaFile | MetaJson(meta: ProfileMeta) | Unreadable

  /** One item of the profiles folder as the directory listing returns it. */
  datatype DirEntry = DirEntry(name: string, isDirectory: bool, metaFile: MetaFile)

  /** The roster entry for one profile folder. */
  function RosterEntry(e: DirEntry): (r: ProfileInfo)
    ensures r.id == e.name
    ensures e.metaFile.MetaJson? ==> r.displayName == e.metaFile.meta.displayName
    ensures !e.metaFile.MetaJson? && IsUuidString(e.name) ==> r.displayName == "Profile"
    ensures !e.metaFile.MetaJson? && !IsUuidString(e.name) ==> r.displayName == e.name
  {
    match e.metaFile
    case MetaJson(m) => ProfileInfo(e.name, m.displayName)
    case _ => if IsUuidString(e.name) then ProfileInfo(e.name, "Profile") else ProfileInfo(e.name, e.name)
  }

  /** The roster that the loop of `loadProfiles` has built after the given listing prefix. */
  function RosterOf(listing: seq<DirEntry>): seq<ProfileInfo> {
    if listing == [] then []
    else
      var last := listing[|listing| - 1];
      RosterOf(listing[..|listing| - 1]) + (if last.isDirectory then [RosterEntry(last)] else [])
  }

  function MapEntries(es: seq<DirEntry>): (r: seq<ProfileInfo>)
    ensures |r| == |es|
    ensures forall k :: 0 <= k < |es| ==> r[k] == RosterEntry(es[k])
  {
    seq(|es|, k requires 0 <= k < |es| => RosterEntry(es[k]))
  }

  lemma MapEntriesSnoc(es: seq<DirEntry>, e: DirEntry)
    ensures MapEntries(es + [e]) == MapEntries(es) + [RosterEntry(e)]
  {
  }

  predicate IsDirectoryEntry(e: DirEntry) { e.isDirectory }

  /** The roster is the directory entries of the listing, each turned into its roster entry, in listing order. */
  lemma {:induction false} RosterIsMappedDirectories(listing: seq<DirEntry>)
    ensures RosterOf(listing) == MapEntries(Filter(listing, IsDirectoryEntry))
  {
    if listing != [] {
      var init, last := listing[..|listing| - 1], listing[|listing| - 1];
      var dirs := Filter(init, IsDirectoryEntry);
      RosterIsMappedDirectories(init);
      FilterLast(listing, IsDirectoryEntry);
      if last.isDirectory {
        MapEntriesSnoc(dirs, last);
      } else {
        assert dirs + [] == dirs;
      }
    }
  }

  /** Which profile becomes current after loading: the saved one, else the old one, else the first, else no change. */
  function ChooseCurrent(roster: seq<ProfileInfo>, saved: Option<string>, current: ProfileInfo): (r: ProfileInfo)
    ensures roster == [] ==> r == current
    ensures roster != [] ==> r in roster
    ensures saved.Some? && (exists k :: 0 <= k < |roster| && roster[k].id == saved.value) ==> r.id == saved.value
    ensures ((saved.None? || forall k :: 0 <= k < |roster| ==> roster[k].id != saved.value)
      && (exists k :: 0 <= k < |roster| && roster[k].id == current.id)) ==> r.id == current.id
    ensures (roster != [] && (saved.None? || forall k :: 0 <= k < |roster| ==> roster[k].id != saved.value)
      && (forall k :: 0 <= k < |roster| ==> roster[k].id != current.id)) ==> r == roster[0]
    ensures saved.Some? && FirstIndex(roster, saved.value).Some? ==> r == roster[FirstIndex(roster, saved.value).value]
    ensures (saved.None? || FirstIndex(roster, saved.value).None?) && FirstIndex(roster, current.id).Some? ==>
      r == roster[FirstIndex(roster, current.id).value]
  {
    var bySaved := if saved.Some? then FirstWithId(roster, saved.value) else None;
    if bySaved.Some? then bySaved.value
    else match FirstWithId(roster, current.id)
      case Some(keep) => keep
      case None => if roster != [] then roster[0] else current
  }
}

=== FILE: records.dfy ===
/**
 * The two Core Data entities the views and the importer work on, and the
 * managed-object context that holds them.
 *
 * An object is identified by its position in the context's list for its
 * entity; the context never deletes, so positions stay valid. Dates are
 * reduced to an `int` instant. An opportunity also carries the string form
 * of its object-ID URI, which the opportunity view compares.
 */
module Records {
  import opened Wrappers

  /** The `Contact` entity: every attribute is optional, as in the model file. */
  datatype Contact = Contact(
    first: Option<string>, last: Option<string>, company: Option<string>, position: Option<string>,
    email: Option<string>, phone: Option<string>, linkedin: Option<string>, notes: Option<string>,
    connected: Option<int>, contact: Option<int>)

  /** The `Opportunity` entity; `status` is the stored 32-bit raw value. */
  datatype Opportunity = Opportunity(
    title: Option<string>, company: Option<string>, location: Option<string>, salary: Option<string>,
    deadline: Option<string>, desc: Option<string>, notes: Option<string>,
    status: int, uri: string)

  /** A contact with no attribute set, as `Contact(context:)` inserts it. */
  const BlankContact: Contact := Contact(None, None, None, None, None, None, None, None, None, None)

  /**
   * An `NSManagedObjectContext`: the objects inserted into it, per entity,
   * in insertion order. `save` can fail; a failed save leaves the objects
   * in the context.
   */
  class ObjectContext {
    var contacts: seq<Contact>
    var opportunities: seq<Opportunity>

    constructor (contacts0: seq<Contact>, opportunities0: seq<Opportunity>)
      ensures contacts == contacts0 && opportunities == opportunities0
    {
      contacts := contacts0;
      opportunities := opportunities0;
    }
  }

  /** A reference to a contact: its context and its position there. */
  datatype ContactRef = ContactRef(ctx: ObjectContext, index: nat)

  /** A reference to an opportunity: its context and its position there. */
  datatype OpportunityRef = OpportunityRef(ctx: ObjectContext, index: nat)
}

=== FILE: search_view.dfy ===
/**
 * `SearchView.runSearch`: the opportunities and contacts matching a query,
 * each list drawn from one fetch of at most 200 objects and titled for
 * display.
 */
module SearchView {
  import opened Wrappers
  import opened Text
  import opened Records
  import opened ContactView

  /** `SearchKind`. */
  datatype SearchKind = OpportunityHit | ContactHit

  /** `SearchResult`: the object's position in the context, its title and its entity. */
  datatype SearchResult = SearchResult(id: nat, title: string, kind: SearchKind)

  /** `fetchLimit` of both fetches. */
  const FetchLimit: nat := 200

  /** `localizedCaseInsensitiveContains` on an optional attribute: nil never matches. */
  predicate OptionalContains(s: Option<string>, needle: string) {
    s.Some? && CaseInsensitiveContains(s.value, needle)
  }

  /** The opportunity filter: title or company contains the needle. */
  predicate OpportunityMatches(o: Opportunity, needle: string) {
    OptionalContains(o.title, needle) || OptionalContains(o.company, needle)
  }

  /** The title of an opportunity hit: "Untitled" only when there is no title at all. */
  function OpportunityTitle(o: Opportunity): (r: string)
    ensures o.title.None? ==> r == "Untitled"
    ensures o.title.Some? ==> r == o.title.value
  {
    if o.title.Some? then o.title.value else "Untitled"
  }

  /** The contact filter: the trimmed first name, last name or company contains the needle. */
  predicate ContactMatches(c: Contact, needle: string) {
    || CaseInsensitiveContains(TrimmedOr(c.first, WhitespacesAndNewlines), needle)
    || CaseInsensitiveContains(TrimmedOr(c.last, WhitespacesAndNewlines), needle)
    || CaseInsensitiveContains(TrimmedOr(c.company, WhitespacesAndNewlines), needle)
  }

  /** The title of a contact hit: the names trimmed of spaces and joined, else "Unnamed Contact". */
  function ContactTitle(c: Contact): string {
    var name := FullName(c.first, c.last, Whitespaces);
    if name == "" then "Unnamed Contact" else name
  }

  /** A contact hit is titled "Unnamed Contact" when both names are blank, otherwise by its names. */
  lemma ContactTitleShape(c: Contact)
    ensures var f, l := TrimmedOr(c.first, Whitespaces), TrimmedOr(c.last, Whitespaces);
      && (f != "" && l != "" ==> ContactTitle(c) == f + " " + l)
      && (f != "" && l == "" ==> ContactTitle(c) == f)
      && (f == "" && l != "" ==> ContactTitle(c) == l)
      && (f == "" && l == "" ==> ContactTitle(c) == "Unnamed Contact")
      && ContactTitle(c) != ""
  {
    FullNameCases(c.first, c.last, Whitespaces);
  }

  /** `filter` then `map` over `items`, from position `i`: the matching objects, as results, in order. */
  function HitsFrom<T>(items: seq<T>, matches: T -> bool, title: T -> string, kind: SearchKind, i: nat): (r: seq<SearchResult>)
    requires i <= |items|
    ensures forall k :: 0 <= k < |r| ==> i <= r[k].id < |items|
    decreases |items| - i
  {
    if i == |items| then []
    else
      var rest := HitsFrom(items, matches, title, kind, i + 1);
      if matches(items[i]) then [SearchResult(i, title(items[i]), kind)] + rest else rest
  }

  /** Each hit names a matching item, with that item's title, and the hits follow the fetch order. */
  lemma {:induction false} HitsSound<T>(items: seq<T>, matches: T -> bool, title: T -> string, kind: SearchKind, i: nat)
    requires i <= |items|
    ensures forall k :: 0 <= k < |HitsFrom(items, matches, title, kind, i)| ==>
      var hit := HitsFrom(items, matches, title, kind, i)[k];
      matches(items[hit.id]) && hit.title == title(items[hit.id]) && hit.kind == kind
    ensures forall k, m :: 0 <= k < m < |HitsFrom(items, matches, title, kind, i)| ==>
      HitsFrom(items, matches, title, kind, i)[k].id < HitsFrom(items, matches, title, kind, i)[m].id
    decreases |items| - i
  {
    if i < |items| {
      HitsSound(items, matches, title, kind, i + 1);
    }
  }

  /** Some hit in `r` names the object at position `j`. */
  ghost predicate HasHit(r: seq<SearchResult>, j: int) {
    exists k :: 0 <= k < |r| && r[k].id == j
  }

  /** Each matching item has a hit. */
  lemma {:induction false} HitsComplete<T>(items: seq<T>, matches: T -> bool, title: T -> string, kind: SearchKind, i: nat)
    requires i <= |items|
    ensures forall j :: i <= j < |items| && matches(items[j]) ==> HasHit(HitsFrom(items, matches, title, kind, i), j)
    decreases |items| - i
  {
    if i < |items| {
      HitsComplete(items, matches, title, kind, i + 1);
      var r := HitsFrom(items, matches, title, kind, i);
      var rest := HitsFrom(items, matches, title, kind, i + 1);
      forall j | i <= j < |items| && matches(items[j]) ensures HasHit(r, j) {
        if j == i {
          assert r[0].id == i;
        } else {
          var k :| 0 <= k < |rest| && rest[k].id == j;
          if matches(items[i]) {
            assert r[k + 1] == rest[k];
          } else {
            assert r[k] == rest[k];
          }
        }
      }
    }
  }

  /** The opportunity filter as a function value. */
  function OpportunityFilter(needle: string): Opportunity -> bool {
    o => OpportunityMatches(o, needle)
  }

  /** The contact filter as a function value. */
  function ContactFilter(needle: string): Contact -> bool {
    c => ContactMatches(c, needle)
  }

  /** The opportunity hits among the fetched `items`. */
  function OpportunityHits(items: seq<Opportunity>, needle: string): seq<SearchResult> {
    HitsFrom(items, OpportunityFilter(needle), OpportunityTitle, OpportunityHit, 0)
  }

  /** The contact hits among the fetched `items`. */
  function ContactHits(items: seq<Contact>, needle: string): seq<SearchResult> {
    HitsFrom(items, ContactFilter(needle), ContactTitle, ContactHit, 0)
  }

  /** The opportunity hits are exactly the fetched opportunities whose title or company holds the needle, in fetch order. */
  lemma OpportunityHitsExact(items: seq<Opportunity>, needle: string)
    ensures forall k :: 0 <= k < |OpportunityHits(items, needle)| ==>
      var hit := OpportunityHits(items, needle)[k];
      hit.id < |items| && OpportunityMatches(items[hit.id], needle) && hit.title == OpportunityTitle(items[hit.id]) && hit.kind == OpportunityHit
    ensures forall j :: 0 <= j < |items| && OpportunityMatches(items[j], needle) ==> HasHit(OpportunityHits(items, needle), j)
    ensures forall k, m :: 0 <= k < m < |OpportunityHits(items, needle)| ==> OpportunityHits(items, needle)[k].id < OpportunityHits(items, needle)[m].id
  {
    HitsSound(items, OpportunityFilter(needle), OpportunityTitle, OpportunityHit, 0);
    HitsComplete(items, OpportunityFilter(needle), OpportunityTitle, OpportunityHit, 0);
  }

  /** The contact hits are exactly the fetched contacts whose trimmed first, last or company holds the needle, in fetch order. */
  lemma ContactHitsExact(items: seq<Contact>, needle: string)
    ensures forall k :: 0 <= k < |ContactHits(items, needle)| ==>
      var hit := ContactHits(items, needle)[k];
      hit.id < |items| && ContactMatches(items[hit.id], needle) && hit.title == ContactTitle(items[hit.id]) && hit.kind == ContactHit
    ensures forall j :: 0 <= j < |items| && ContactMatches(items[j], needle) ==> HasHit(ContactHits(items, needle), j)
    ensures forall k, m :: 0 <= k < m < |ContactHits(items, needle)| ==> ContactHits(items, needle)[k].id < ContactHits(items, needle)[m].id
  {
    HitsSound(items, ContactFilter(needle), ContactTitle, ContactHit, 0);
    HitsComplete(items, ContactFilter(needle), ContactTitle, ContactHit, 0);
  }

  /** Lower-casing the query before searching changes no match. */
  lemma NeedleCaseIrrelevant(o: Opportunity, c: Contact, text: string)
    ensures OpportunityMatches(o, LowerStr(text)) == OpportunityMatches(o, text)
    ensures ContactMatches(c, LowerStr(text)) == ContactMatches(c, text)
  {
    if o.title.Some? {
      CaseInsensitiveContainsCaseless(o.title.value, text);
    }
    if o.company.Some? {
      CaseInsensitiveContainsCaseless(o.company.value, text);
    }
    CaseInsensitiveContainsCaseless(TrimmedOr(c.first, WhitespacesAndNewlines), text);
    CaseInsensitiveContainsCaseless(TrimmedOr(c.last, WhitespacesAndNewlines), text);
    CaseInsensitiveContainsCaseless(TrimmedOr(c.company, WhitespacesAndNewlines), text);
  }

  /** The two result lists of `SearchView`. */
  class SearchView {
    var opps: seq<SearchResult>
    var contacts: seq<SearchResult>

    constructor ()
      ensures opps == [] && contacts == []
    {
      opps := [];
      contacts := [];
    }

    /**
     * `runSearch()`. A blank query clears both lists. Otherwise each list
     * is rebuilt from its own fetch of at most `FetchLimit` objects, and
     * cleared when that fetch throws. The fetches carry no sort descriptor;
     * this model takes the objects in insertion order.
     */
    method RunSearch(query: string, ctx: ObjectContext, oppFetchOk: bool, contactFetchOk: bool)
      modifies this
      ensures IsBlank(query, WhitespacesAndNewlines) ==> opps == [] && contacts == []
      ensures !IsBlank(query, WhitespacesAndNewlines) ==>
        var needle := LowerStr(Trim(query, WhitespacesAndNewlines));
        && opps == (if oppFetchOk then OpportunityHits(Take(ctx.opportunities, FetchLimit), needle) else [])
        && contacts == (if contactFetchOk then ContactHits(Take(ctx.contacts, FetchLimit), needle) else [])
    {
      var text := Trim(query, WhitespacesAndNewlines);
      if text == "" {
        opps := [];
        contacts := [];
        return;
      }
      var needle := LowerStr(text);
      if oppFetchOk {
        var items := Take(ctx.opportunities, FetchLimit);
        opps := OpportunityHits(items, needle);
      } else {
        opps := [];
      }
      if contactFetchOk {
        var items := Take(ctx.contacts, FetchLimit);
        contacts := ContactHits(items, needle);
      } else {
        contacts := [];
      }
    }
  }

  /** Every hit names one of the first `FetchLimit` objects, so neither list grows past the limit. */
  lemma HitsWithinFetch(ctx: ObjectContext, needle: string)
    ensures var r := OpportunityHits(Take(ctx.opportunities, FetchLimit), needle);
      |r| <= FetchLimit && forall k :: 0 <= k < |r| ==> r[k].id < FetchLimit
    ensures var r := ContactHits(Take(ctx.contacts, FetchLimit), needle);
      |r| <= FetchLimit && forall k :: 0 <= k < |r| ==> r[k].id < FetchLimit
  {
    HitsBound(Take(ctx.opportunities, FetchLimit), OpportunityFilter(needle), OpportunityTitle, OpportunityHit, 0);
    HitsBound(Take(ctx.contacts, FetchLimit), ContactFilter(needle), ContactTitle, ContactHit, 0);
  }

  /** A search never yields more hits than there are items left to scan. */
  lemma {:induction false} HitsBound<T>(items: seq<T>, matches: T -> bool, title: T -> string, kind: SearchKind, i: nat)
    requires i <= |items|
    ensures |HitsFrom(items, matches, title, kind, i)| <= |items| - i
    decreases |items| - i
  {
    if i < |items| {
      HitsBound(items, matches, title, kind, i + 1);
    }
  }
}

=== FILE: text.dfy ===
/**
 * String and sequence helpers shared by every part of the model.
 *
 * Swift works on grapheme clusters and consults the full Unicode tables for
 * `isLetter`, `isNumber`, `lowercased()` and `CharacterSet.whitespaces`.
 * Here a string is a sequence of Unicode scalar values, letters and digits are
 * the ASCII ones, lower-casing is ASCII lower-casing and the whitespace classes
 * are the explicit code-point lists below.
 */
module Text {
  import opened Wrappers

  /** The character sets the source trims by. */
  datatype CharClass = Whitespaces | WhitespacesAndNewlines | Hyphens

  /** `CharacterSet.whitespaces`: tab and the space separators. */
  predicate IsSpace(c: char) {
    c == ' ' || c == '\t' || c == '\U{00A0}' || c == '\U{1680}'
    || ('\U{2000}' <= c <= '\U{200A}') || c == '\U{202F}' || c == '\U{205F}' || c == '\U{3000}'
  }

  /** `CharacterSet.newlines` and `Character.isNewline`. */
  predicate IsNewline(c: char) {
    c == '\n' || c == '\U{000B}' || c == '\U{000C}' || c == '\r'
    || c == '\U{0085}' || c == '\U{2028}' || c == '\U{2029}'
  }

  predicate InClass(c: char, cls: CharClass) {
    match cls
    case Whitespaces => IsSpace(c)
    case WhitespacesAndNewlines => IsSpace(c) || IsNewline(c)
    case Hyphens => c == '-'
  }

  predicate IsUpper(c: char) { 'A' <= c <= 'Z' }
  predicate IsLower(c: char) { 'a' <= c <= 'z' }
  predicate IsLetter(c: char) { IsUpper(c) || IsLower(c) }
  predicate IsDigit(c: char) { '0' <= c <= '9' }

  /** `lowercased()` on one character. */
  function Lower(c: char): (r: char)
    ensures IsUpper(c) ==> IsLower(r) && r as int == c as int + 32
    ensures !IsUpper(c) ==> r == c
    ensures IsLetter(c) <==> IsLetter(r)
    ensures IsDigit(c) <==> IsDigit(r)
  {
    if IsUpper(c) then (c as int + 32) as char else c
  }

  /** `lowercased()` on a string: no upper-case letter is left, every other character is kept. */
  function LowerStr(s: string): (r: string)
    ensures |r| == |s|
    ensures forall i :: 0 <= i < |r| ==> !IsUpper(r[i])
    ensures forall i :: 0 <= i < |s| && !IsUpper(s[i]) ==> r[i] == s[i]
    ensures forall i :: 0 <= i < |s| && IsUpper(s[i]) ==> r[i] as int == s[i] as int + 32
  {
    seq(|s|, i requires 0 <= i < |s| => Lower(s[i]))
  }

  lemma LowerStrAppend(a: string, b: string)
    ensures LowerStr(a + b) == LowerStr(a) + LowerStr(b)
  {
    assert forall i :: 0 <= i < |a + b| ==> LowerStr(a + b)[i] == (LowerStr(a) + LowerStr(b))[i];
  }

  predicate StartsWith<T(==)>(s: seq<T>, prefix: seq<T>) {
    |prefix| <= |s| && s[..|prefix|] == prefix
  }

  predicate EndsWith<T(==)>(s: seq<T>, suffix: seq<T>) {
    |suffix| <= |s| && s[|s| - |suffix|..] == suffix
  }

  /** `p` occurs in `s` as a contiguous piece. */
  ghost predicate IsInfix<T>(p: seq<T>, s: seq<T>) {
    exists i :: 0 <= i <= |s| && StartsWith(s[i..], p)
  }

  lemma PrefixIsInfix<T>(p: seq<T>, s: seq<T>)
    requires StartsWith(s, p)
    ensures IsInfix(p, s)
  {
    assert s[0..] == s;
  }

  lemma InfixOfSuffix<T>(p: seq<T>, s: seq<T>, n: nat)
    requires n <= |s| && IsInfix(p, s[n..])
    ensures IsInfix(p, s)
  {
    var i :| 0 <= i <= |s[n..]| && StartsWith(s[n..][i..], p);
    assert s[n + i..] == s[n..][i..];
  }

  lemma InfixTrans<T>(p: seq<T>, q: seq<T>, s: seq<T>)
    requires IsInfix(p, q) && IsInfix(q, s)
    ensures IsInfix(p, s)
  {
    var i :| 0 <= i <= |q| && StartsWith(q[i..], p);
    var j :| 0 <= j <= |s| && StartsWith(s[j..], q);
    forall k | 0 <= k < |p| ensures s[j + i + k] == p[k] {
      assert p[k] == q[i..][k] == q[i + k];
      assert q[i + k] == s[j..][i + k];
    }
    assert s[j + i..][..|p|] == p;
  }

  /** `contains(_:)` on strings: a substring test. */
  function Contains(hay: string, needle: string): (r: bool)
    decreases |hay|
  {
    StartsWith(hay, needle) || (hay != [] && Contains(hay[1..], needle))
  }

  lemma {:induction false} ContainsIsInfix(hay: string, needle: string)
    ensures Contains(hay, needle) <==> IsInfix(needle, hay)
    decreases |hay|
  {
    if StartsWith(hay, needle) {
      PrefixIsInfix(needle, hay);
    } else if hay != [] {
      ContainsIsInfix(hay[1..], needle);
      if Contains(hay[1..], needle) {
        InfixOfSuffix(needle, hay, 1);
      }
      if IsInfix(needle, hay) {
        var i :| 0 <= i <= |hay| && StartsWith(hay[i..], needle);
        assert hay[1..][i - 1..] == hay[i..];
      }
    }
  }

  /** `localizedCaseInsensitiveContains(_:)`, with ASCII case folding. */
  function CaseInsensitiveContains(hay: string, needle: string): bool {
    Contains(LowerStr(hay), LowerStr(needle))
  }

  /** Lower-casing twice is lower-casing once. */
  lemma LowerStrIdempotent(s: string)
    ensures LowerStr(LowerStr(s)) == LowerStr(s)
  {
    assert forall i :: 0 <= i < |s| ==> LowerStr(LowerStr(s))[i] == LowerStr(s)[i];
  }

  /** A case-insensitive search does not depend on the letter case of the needle or of the text searched. */
  lemma CaseInsensitiveContainsCaseless(hay: string, needle: string)
    ensures CaseInsensitiveContains(hay, LowerStr(needle)) == CaseInsensitiveContains(hay, needle)
    ensures CaseInsensitiveContains(LowerStr(hay), needle) == CaseInsensitiveContains(hay, needle)
    ensures CaseInsensitiveContains(hay, needle) <==> IsInfix(LowerStr(needle), LowerStr(hay))
  {
    LowerStrIdempotent(needle);
    LowerStrIdempotent(hay);
    ContainsIsInfix(LowerStr(hay), LowerStr(needle));
  }

  function TrimStart(s: string, cls: CharClass): (r: string)
    ensures r == [] || !InClass(r[0], cls)
    ensures forall k :: 0 <= k < |s| - |r| ==> InClass(s[k], cls)
  {
    if s != [] && InClass(s[0], cls) then TrimStart(s[1..], cls) else s
  }

  /** What `TrimStart` keeps is a suffix of its input. */
  lemma {:induction false} TrimStartSuffix(s: string, cls: CharClass)
    ensures |TrimStart(s, cls)| <= |s|
    ensures TrimStart(s, cls) == s[|s| - |TrimStart(s, cls)|..]
  {
    if s != [] && InClass(s[0], cls) {
      TrimStartSuffix(s[1..], cls);
    }
  }

  function TrimEnd(s: string, cls: CharClass): (r: string)
    ensures |r| <= |s| && r == s[..|r|]
    ensures r == [] || !InClass(r[|r| - 1], cls)
    ensures forall k :: |r| <= k < |s| ==> InClass(s[k], cls)
  {
    if s != [] && InClass(s[|s| - 1], cls) then TrimEnd(s[..|s| - 1], cls) else s
  }

  /** `trimmingCharacters(in:)`: drop the leading and trailing members of `cls`. */
  function Trim(s: string, cls: CharClass): (r: string)
    ensures IsInfix(r, s)
    ensures r == [] || (!InClass(r[0], cls) && !InClass(r[|r| - 1], cls))
    ensures r == [] <==> forall k :: 0 <= k < |s| ==> InClass(s[k], cls)
  {
    TrimFacts(s, cls);
    TrimEnd(TrimStart(s, cls), cls)
  }

  lemma TrimFacts(s: string, cls: CharClass)
    ensures var r := TrimEnd(TrimStart(s, cls), cls);
      && IsInfix(r, s)
      && (r == [] || (!InClass(r[0], cls) && !InClass(r[|r| - 1], cls)))
      && (r == [] <==> forall k :: 0 <= k < |s| ==> InClass(s[k], cls))
  {
    var a := TrimStart(s, cls);
    TrimStartSuffix(s, cls);
    var r := TrimEnd(a, cls);
    assert StartsWith(s[|s| - |a|..], r);
    if r == [] {
      forall k | 0 <= k < |s| ensures InClass(s[k], cls) {
        if k >= |s| - |a| { assert s[k] == a[k - (|s| - |a|)]; }
      }
    }
  }

  /** A stretch `r` at offset `a` of `s`, with class characters on both sides of it. */
  lemma StretchAt(s: string, a: nat, t: string, r: string, cls: CharClass)
    requires a + |t| == |s| && s[a..] == t && |r| <= |t| && r == t[..|r|]
    requires forall k :: |r| <= k < |t| ==> InClass(t[k], cls)
    ensures a + |r| <= |s| && s[a..a + |r|] == r
    ensures forall k :: a + |r| <= k < |s| ==> InClass(s[k], cls)
  {
    assert s[a..a + |r|] == s[a..][..|r|];
    forall k | a + |r| <= k < |s| ensures InClass(s[k], cls) {
      assert s[k] == s[a..][k - a];
    }
  }


  /**
   * Trimming removes exactly a run of `cls` members at each end: the result
   * sits at offset `a` of `s`, everything before it and everything after it
   * is in `cls`, and neither of its own ends is.
   */
  lemma TrimStrips(s: string, cls: CharClass) returns (a: nat)
    ensures a + |Trim(s, cls)| <= |s| && s[a..a + |Trim(s, cls)|] == Trim(s, cls)
    ensures forall k :: 0 <= k < a ==> InClass(s[k], cls)
    ensures forall k :: a + |Trim(s, cls)| <= k < |s| ==> InClass(s[k], cls)
  {
    var t := TrimStart(s, cls);
    TrimStartSuffix(s, cls);
    var r := TrimEnd(t, cls);
    a := |s| - |t|;
    assert Trim(s, cls) == r;
    StretchAt(s, a, t, r, cls);
  }

  /** The characters of `s` are all in `cls` exactly when trimming empties it. */
  predicate IsBlank(s: string, cls: CharClass) {
    Trim(s, cls) == []
  }

  /** `joined(separator:)`. */
  function Join(parts: seq<string>, sep: string): string {
    if |parts| == 0 then ""
    else if |parts| == 1 then parts[0]
    else parts[0] + sep + Join(parts[1..], sep)
  }

  /** `prefix(n)`. */
  function Take<T>(s: seq<T>, n: nat): (r: seq<T>)
    ensures |r| == if n < |s| then n else |s|
    ensures r == s[..|r|]
  {
    if n < |s| then s[..n] else s
  }

  /** `xs` occurs in `ys` in order, possibly with gaps. */
  predicate Subsequence<T(==)>(xs: seq<T>, ys: seq<T>)
    decreases |ys|
  {
    xs == [] || (ys != [] && if xs[0] == ys[0] then Subsequence(xs[1..], ys[1..]) else Subsequence(xs, ys[1..]))
  }

  /** `filter(_:)`: keeps the elements satisfying `p`, in their order. */
  function Filter<T(==)>(xs: seq<T>, p: T -> bool): (r: seq<T>)
    ensures |r| <= |xs|
    ensures forall i :: 0 <= i < |r| ==> r[i] in xs && p(r[i])
    ensures forall i :: 0 <= i < |xs| && p(xs[i]) ==> xs[i] in r
    ensures Subsequence(r, xs)
  {
    if xs == [] then []
    else if p(xs[0]) then [xs[0]] + Filter(xs[1..], p)
    else Filter(xs[1..], p)
  }

  /**
   * `filter` keeps every element satisfying `p` as often as it occurs, and
   * no other: its multiset is the part of `xs`'s multiset that satisfies `p`.
   */
  lemma {:induction false} FilterCounts<T>(xs: seq<T>, p: T -> bool)
    ensures multiset(Filter(xs, p)) <= multiset(xs)
    ensures forall i :: 0 <= i < |xs| && p(xs[i]) ==> multiset(Filter(xs, p))[xs[i]] == multiset(xs)[xs[i]]
  {
    if xs != [] {
      FilterCounts(xs[1..], p);
      assert xs == [xs[0]] + xs[1..];
      forall i | 0 <= i < |xs| && p(xs[i]) ensures multiset(Filter(xs, p))[xs[i]] == multiset(xs)[xs[i]] {
        if xs[i] != xs[0] {
          var j :| 0 <= j < |xs[1..]| && xs[1..][j] == xs[i];
        }
      }
    }
  }

  /** Filtering twice by the same test is filtering once. */
  lemma {:induction false} FilterTwice<T>(xs: seq<T>, p: T -> bool)
    ensures Filter(Filter(xs, p), p) == Filter(xs, p)
  {
    if xs != [] {
      FilterTwice(xs[1..], p);
    }
  }

  lemma {:induction false} FilterSnoc<T>(xs: seq<T>, x: T, p: T -> bool)
    ensures Filter(xs + [x], p) == Filter(xs, p) + (if p(x) then [x] else [])
  {
    if xs != [] {
      assert (xs + [x])[1..] == xs[1..] + [x];
      FilterSnoc(xs[1..], x, p);
    }
  }

  lemma FilterLast<T>(xs: seq<T>, p: T -> bool)
    requires xs != []
    ensures Filter(xs, p) == Filter(xs[..|xs| - 1], p) + (if p(xs[|xs| - 1]) then [xs[|xs| - 1]] else [])
  {
    assert xs == xs[..|xs| - 1] + [xs[|xs| - 1]];
    FilterSnoc(xs[..|xs| - 1], xs[|xs| - 1], p);
  }

  /** `compactMap(_:)`: the values of `f` that are present, in order. */
  function CompactMap<A, B>(xs: seq<A>, f: A -> Option<B>): (r: seq<B>)
    ensures |r| <= |xs|
  {
    if xs == [] then []
    else
      var rest := CompactMap(xs[1..], f);
      match f(xs[0])
      case None => rest
      case Some(y) => [y] + rest
  }

  /** `y` is the value `f` gives for some element of `xs`. */
  ghost predicate ValueOfSome<A, B>(y: B, xs: seq<A>, f: A -> Option<B>) {
    exists j :: 0 <= j < |xs| && f(xs[j]) == Some(y)
  }

  /** Every value `compactMap` keeps is the value of one element. */
  lemma {:induction false} CompactMapFrom<A, B>(xs: seq<A>, f: A -> Option<B>)
    ensures forall k :: 0 <= k < |CompactMap(xs, f)| ==> ValueOfSome(CompactMap(xs, f)[k], xs, f)
  {
    if xs != [] {
      var r := CompactMap(xs, f);
      var rest := CompactMap(xs[1..], f);
      CompactMapFrom(xs[1..], f);
      var offset := if f(xs[0]).Some? then 1 else 0;
      assert r[offset..] == rest;
      forall k | 0 <= k < |r| ensures ValueOfSome(r[k], xs, f) {
        if k < offset {
          assert f(xs[0]) == Some(r[k]);
        } else {
          assert r[k] == rest[k - offset] && ValueOfSome(rest[k - offset], xs[1..], f);
          var j :| 0 <= j < |xs[1..]| && f(xs[1..][j]) == Some(rest[k - offset]);
          assert xs[1..][j] == xs[j + 1];
        }
      }
    }
  }

  /** When `f` gives a value for every element, `compactMap` is `map`. */
  lemma {:induction false} CompactMapTotal<A, B>(xs: seq<A>, f: A -> Option<B>)
    requires forall j :: 0 <= j < |xs| ==> f(xs[j]).Some?
    ensures |CompactMap(xs, f)| == |xs|
    ensures forall j :: 0 <= j < |xs| ==> f(xs[j]) == Some(CompactMap(xs, f)[j])
  {
    if xs != [] {
      assert f(xs[0]).Some?;
      CompactMapTotal(xs[1..], f);
      var r := CompactMap(xs, f);
      assert r == [f(xs[0]).value] + CompactMap(xs[1..], f);
      forall j | 1 <= j < |xs| ensures f(xs[j]) == Some(r[j]) {
        assert xs[j] == xs[1..][j - 1];
      }
    }
  }

  /** `components(separatedBy:)` with a character set: every member of `seps` separates. */
  function SplitOnChars(s: string, seps: set<char>): (r: seq<string>)
    ensures |r| >= 1
  {
    if s == [] then [""]
    else
      var rest := SplitOnChars(s[1..], seps);
      if s[0] in seps then [""] + rest else [[s[0]] + rest[0]] + rest[1..]
  }

  /** `components(separatedBy:)` with a string separator, matched left to right. */
  function SplitOn(s: string, sep: string): (r: seq<string>)
    requires |sep| > 0
    ensures |r| >= 1
    decreases |s|
  {
    if |s| < |sep| then [s]
    else if s[..|sep|] == sep then [""] + SplitOn(s[|sep|..], sep)
    else
      var rest := SplitOn(s[1..], sep);
      [[s[0]] + rest[0]] + rest[1..]
  }

  lemma {:induction false} SplitOnCharsPieces(s: string, seps: set<char>)
    ensures StartsWith(s, SplitOnChars(s, seps)[0])
    ensures forall k :: 0 <= k < |SplitOnChars(s, seps)| ==> IsInfix(SplitOnChars(s, seps)[k], s)
  {
    var r := SplitOnChars(s, seps);
    if s != [] {
      SplitOnCharsPieces(s[1..], seps);
      var rest := SplitOnChars(s[1..], seps);
      forall k | 0 <= k < |rest| ensures IsInfix(rest[k], s) {
        InfixOfSuffix(rest[k], s, 1);
      }
      if s[0] !in seps {
        assert s[..|r[0]|] == [s[0]] + s[1..][..|rest[0]|];
        forall k | 1 <= k < |r| ensures IsInfix(r[k], s) { assert r[k] == rest[k]; }
      }
    }
    PrefixIsInfix(r[0], s);
  }

  lemma {:induction false} SplitOnPieces(s: string, sep: string)
    requires |sep| > 0
    ensures StartsWith(s, SplitOn(s, sep)[0])
    ensures forall k :: 0 <= k < |SplitOn(s, sep)| ==> IsInfix(SplitOn(s, sep)[k], s)
    decreases |s|
  {
    var r := SplitOn(s, sep);
    if |s| < |sep| {
    } else if s[..|sep|] == sep {
      var t := s[|sep|..];
      SplitOnPieces(t, sep);
      forall k | 1 <= k < |r| ensures IsInfix(r[k], s) {
        assert r[k] == SplitOn(t, sep)[k - 1];
        InfixOfSuffix(r[k], s, |sep|);
      }
    } else {
      var rest := SplitOn(s[1..], sep);
      SplitOnPieces(s[1..], sep);
      forall k | 0 <= k < |rest| ensures IsInfix(rest[k], s) {
        InfixOfSuffix(rest[k], s, 1);
      }
      assert s[..|r[0]|] == [s[0]] + s[1..][..|rest[0]|];
      forall k | 1 <= k < |r| ensures IsInfix(r[k], s) { assert r[k] == rest[k]; }
    }
    PrefixIsInfix(r[0], s);
  }

  /** No piece of `SplitOnChars` holds a separator. */
  lemma {:induction false} SplitOnCharsNoSep(s: string, seps: set<char>)
    ensures forall k, j :: 0 <= k < |SplitOnChars(s, seps)| && 0 <= j < |SplitOnChars(s, seps)[k]| ==>
      SplitOnChars(s, seps)[k][j] !in seps
  {
    if s != [] {
      SplitOnCharsNoSep(s[1..], seps);
    }
  }

  /** `flatMap(_:)`: the concatenation of `f` over `xs`. */
  function FlatMap<A, B>(xs: seq<A>, f: A -> seq<B>): (r: seq<B>)
    ensures forall k :: 0 <= k < |xs| ==> |f(xs[k])| <= |r|
  {
    if xs == [] then [] else f(xs[0]) + FlatMap(xs[1..], f)
  }

  /** `y` is in the image under `f` of some element of `xs`. */
  ghost predicate InImage<A, B>(y: B, xs: seq<A>, f: A -> seq<B>) {
    exists i :: 0 <= i < |xs| && y in f(xs[i])
  }

  /** Each element of `FlatMap` comes from the image of one element. */
  lemma {:induction false} FlatMapFrom<A, B>(xs: seq<A>, f: A -> seq<B>)
    ensures forall k :: 0 <= k < |FlatMap(xs, f)| ==> InImage(FlatMap(xs, f)[k], xs, f)
  {
    if xs != [] {
      FlatMapFrom(xs[1..], f);
      var r := FlatMap(xs, f);
      forall k | 0 <= k < |r| ensures InImage(r[k], xs, f) {
        if k < |f(xs[0])| {
          assert r[k] == f(xs[0])[k];
          assert r[k] in f(xs[0]);
        } else {
          assert r[k] == FlatMap(xs[1..], f)[k - |f(xs[0])|];
          assert InImage(r[k], xs[1..], f);
          var i :| 0 <= i < |xs[1..]| && r[k] in f(xs[1..][i]);
          assert xs[1..][i] == xs[i + 1];
          assert 0 <= i + 1 < |xs| && r[k] in f(xs[i + 1]);
        }
      }
    }
  }

  /** `[x]` when `keep` holds, else nothing. */
  function KeepIf(keep: bool, x: string): seq<string> {
    if keep then [x] else []
  }

  /** Appending `x` when `keep` holds. */
  lemma AppendKept(xs: seq<string>, keep: bool, x: string)
    ensures (if keep then xs + [x] else xs) == xs + KeepIf(keep, x)
  {
    if !keep {
      assert xs + [] == xs;
    }
  }

  lemma JoinTwo(a: string, b: string, sep: string)
    ensures Join([a, b], sep) == a + sep + b
  {
    assert [a, b][1..] == [b];
  }

  /** Joining non-empty parts gives the empty string only for no parts. */
  lemma {:induction false} JoinEmpty(parts: seq<string>, sep: string)
    requires forall k :: 0 <= k < |parts| ==> parts[k] != ""
    ensures Join(parts, sep) == "" <==> parts == []
  {
    if |parts| >= 2 {
      assert |Join(parts, sep)| >= |parts[0]|;
    }
  }

  /** String `<`: lexicographic order on characters. */
  predicate LexLess(a: string, b: string)
    decreases |a|
  {
    b != [] && (a == [] || a[0] < b[0] || (a[0] == b[0] && LexLess(a[1..], b[1..])))
  }

  lemma {:induction false} LexIrreflexive(a: string)
    ensures !LexLess(a, a)
    decreases |a|
  {
    if a != [] {
      LexIrreflexive(a[1..]);
    }
  }

  lemma {:induction false} LexTransitive(a: string, b: string, c: string)
    requires LexLess(a, b) && LexLess(b, c)
    ensures LexLess(a, c)
    decreases |a|
  {
    if a != [] && a[0] == b[0] && b[0] == c[0] {
      LexTransitive(a[1..], b[1..], c[1..]);
    }
  }

  lemma {:induction false} LexTotal(a: string, b: string)
    ensures LexLess(a, b) || a == b || LexLess(b, a)
    decreases |a|
  {
    if a != [] && b != [] && a[0] == b[0] {
      LexTotal(a[1..], b[1..]);
      if a[1..] == b[1..] {
        assert a == [a[0]] + a[1..] && b == [b[0]] + b[1..];
      }
    }
  }
}

=== FILE: utf8.dfy ===
/**
 * UTF-8, as Foundation uses it in `Data(password.utf8)` and
 * `String(data:encoding: .utf8)`: encoding is total, decoding is strict
 * (no overlong forms, no surrogates, nothing above U+10FFFF) and fails on
 * any ill-formed input.
 */
module Utf8 {

  import opened Wrappers

  newtype Byte = b: int | 0 <= b < 256

  predicate IsContinuation(b: Byte) { 0x80 <= b < 0xC0 }

  /** The shortest encoding of one scalar value. */
  function EncodeChar(c: char): (r: seq<Byte>)
    ensures 1 <= |r| <= 4
    ensures (r[0] < 0x80) <==> (c as int < 0x80)
  {
    var cp := c as int;
    if cp < 0x80 then [cp as Byte]
    else if cp < 0x800 then [(0xC0 + cp / 64) as Byte, (0x80 + cp % 64) as Byte]
    else if cp < 0x10000 then
      [(0xE0 + cp / 4096) as Byte, (0x80 + (cp / 64) % 64) as Byte, (0x80 + cp % 64) as Byte]
    else
      [(0xF0 + cp / 262144) as Byte, (0x80 + (cp / 4096) % 64) as Byte,
       (0x80 + (cp / 64) % 64) as Byte, (0x80 + cp % 64) as Byte]
  }

  /** `Data(s.utf8)`. */
  function Encode(s: string): seq<Byte> {
    if s == [] then [] else EncodeChar(s[0]) + Encode(s[1..])
  }

  predicate IsScalar(cp: int) {
    (0 <= cp < 0xD800) || (0xE000 <= cp < 0x11_0000)
  }

  /** Decodes the first scalar value of `bs`, giving it and the number of bytes it took. */
  function DecodeChar(bs: seq<Byte>): (r: Option<(char, nat)>)
    requires |bs| > 0
    ensures r.Some? ==> 1 <= r.value.1 <= |bs| && r.value.1 <= 4
  {
    var b0 := bs[0] as int;
    if b0 < 0x80 then Some((b0 as char, 1))
    else if 0xC2 <= b0 < 0xE0 then
      if |bs| < 2 || !IsContinuation(bs[1]) then None
      else Some((((b0 - 0xC0) * 64 + (bs[1] as int - 0x80)) as char, 2))
    else if 0xE0 <= b0 < 0xF0 then
      if |bs| < 3 || !IsContinuation(bs[1]) || !IsContinuation(bs[2]) then None
      else
        var cp := (b0 - 0xE0) * 4096 + (bs[1] as int - 0x80) * 64 + (bs[2] as int - 0x80);
        if cp < 0x800 || !IsScalar(cp) then None else Some((cp as char, 3))
    else if 0xF0 <= b0 < 0xF5 then
      if |bs| < 4 || !IsContinuation(bs[1]) || !IsContinuation(bs[2]) || !IsContinuation(bs[3]) then None
      else
        var cp := (b0 - 0xF0) * 262144 + (bs[1] as int - 0x80) * 4096
                  + (bs[2] as int - 0x80) * 64 + (bs[3] as int - 0x80);
        if cp < 0x1_0000 || !IsScalar(cp) then None else Some((cp as char, 4))
    else None
  }

  /** `String(data:encoding: .utf8)`: `None` for ill-formed input. */
  function Decode(bs: seq<Byte>): Option<string>
    decreases |bs|
  {
    if bs == [] then Some("")
    else match DecodeChar(bs)
      case None => None
      case Some((c, n)) =>
        match Decode(bs[n..])
        case None => None
        case Some(rest) => Some([c] + rest)
  }

  lemma DecodeEncodeChar(c: char, rest: seq<Byte>)
    ensures DecodeChar(EncodeChar(c) + rest) == Some((c, |EncodeChar(c)|))
  {
    var cp := c as int;
    if cp < 0x80 {
    } else if cp < 0x800 {
      DecodeTwo(c, rest);
    } else if cp < 0x10000 {
      DecodeThree(c, rest);
    } else {
      DecodeFour(c, rest);
    }
  }

  lemma DecodeTwo(c: char, rest: seq<Byte>)
    requires 0x80 <= c as int < 0x800
    ensures DecodeChar(EncodeChar(c) + rest) == Some((c, 2))
  {
    var cp := c as int;
    var q, r := cp / 64, cp % 64;
    assert cp == q * 64 + r && 2 <= q < 32 && 0 <= r < 64;
    var bs := EncodeChar(c) + rest;
    assert bs[0] as int == 0xC0 + q && bs[1] as int == 0x80 + r;
  }

  lemma DecodeThree(c: char, rest: seq<Byte>)
    requires 0x800 <= c as int < 0x1_0000
    ensures DecodeChar(EncodeChar(c) + rest) == Some((c, 3))
  {
    var cp := c as int;
    var q, r := cp / 64, cp % 64;
    var q2, r2 := q / 64, q % 64;
    assert cp == q * 64 + r && 0 <= r < 64;
    assert q == q2 * 64 + r2 && 0 <= r2 < 64 && q2 < 16;
    assert cp / 4096 == q2;
    var bs := EncodeChar(c) + rest;
    assert bs[0] as int == 0xE0 + q2 && bs[1] as int == 0x80 + r2 && bs[2] as int == 0x80 + r;
    assert cp == q2 * 4096 + r2 * 64 + r;
  }

  lemma DecodeFour(c: char, rest: seq<Byte>)
    requires 0x1_0000 <= c as int
    ensures DecodeChar(EncodeChar(c) + rest) == Some((c, 4))
  {
    var cp := c as int;
    assert cp < 0x11_0000;
    var q, r := cp / 64, cp % 64;
    var q2, r2 := q / 64, q % 64;
    var q3, r3 := q2 / 64, q2 % 64;
    assert cp == q * 64 + r && 0 <= r < 64;
    assert q == q2 * 64 + r2 && 0 <= r2 < 64;
    assert q2 == q3 * 64 + r3 && 0 <= r3 < 64 && q3 < 5;
    assert cp / 4096 == q2 && cp / 262144 == q3;
    var bs := EncodeChar(c) + rest;
    assert bs[0] as int == 0xF0 + q3 && bs[1] as int == 0x80 + r3;
    assert bs[2] as int == 0x80 + r2 && bs[3] as int == 0x80 + r;
    assert cp == q3 * 262144 + r3 * 4096 + r2 * 64 + r;
  }

  /** Decoding undoes encoding. */
  lemma {:induction false} DecodeEncode(s: string)
    ensures Decode(Encode(s)) == Some(s)
  {
    if s != [] {
      var e := EncodeChar(s[0]);
      assert Encode(s) == e + Encode(s[1..]);
      DecodeEncodeChar(s[0], Encode(s[1..]));
      assert (e + Encode(s[1..]))[|e|..] == Encode(s[1..]);
      DecodeEncode(s[1..]);
      var bs := Encode(s);
      assert bs != [] && DecodeChar(bs) == Some((s[0], |e| as nat));
      assert bs[|e|..] == Encode(s[1..]);
      assert [s[0]] + s[1..] == s;
    }
  }

  /** Two strings with the same UTF-8 bytes are the same string. */
  lemma EncodeInjective(s: string, t: string)
    ensures Encode(s) == Encode(t) <==> s == t
  {
    if Encode(s) == Encode(t) {
      DecodeEncode(s);
      DecodeEncode(t);
    }
  }
}

=== FILE: wrappers.dfy ===
/** The optional value used throughout the model for Swift's `Optional`. */
module Wrappers {
  datatype Option<T> = None | Some(value: T)
}
